=== FILE: README.md ===
# Blender model fixer — a Dafny model

This project models the axis-conversion core of a Unity editor package. The package repairs models imported from Blender in four ways:

- It rotates the scene's transforms into Unity's axes.
- It rotates the meshes' vertices and normals.
- It fixes the bind poses of skinned meshes.
- It rewrites the transform curves of the model's animation clips.

The fix is switched on per asset, through a small settings object that the importer inspector stores in the importer's user-data string.

The model covers these parts of the package:

- **Model post-processor** (`BlenderModelPostProcessor`):
  - the gate (file validity plus the stored switch);
  - the transform pass (deletion or fix of every non-root transform, and the modification map);
  - the duplicate-free mesh collection;
  - the mesh rewrite;
  - the once-per-mesh bind-pose fix;
  - the animation hook, which groups bindings by node path into ten slots, rewrites position and rotation keys in lock-step and swaps the scale curves.
- **Legacy post-processor** (`BlenderFBXPostProcessor`): the same bookkeeping with an unconditional flip, a fixed mesh rotation, no bind-pose fix and an unconditional reimport request.
- **Configuration store** (`AssetUserData`): typed getters with fallback, reference-identity `SetValue`, dirty tracking, `Serialize`, `ApplyModified`, and `Deserialize`, which gives an empty store for blank text and raises for text that is malformed or is the JSON `null`.
- **Settings object** (`BlenderFixesExtraData`): defaults, and initialisation from the store.
- **Importer inspector** (`ExtendedModelImporterEditor`): the support state, the display rules of the fix section, and the write-back loop of `Apply`.

Modelling choices:

- **Matrices** are an abstract type `M`, with product, inverse, point map and rotation passed in a `MatrixAlgebra` record.
- **Quaternions** are computed exactly over `real`, with the source's rounded constants.
- **Engine-computed quantities** are inputs: Euler angles, world matrices before and after a fix, and the near-snap test.
- **File contents and the JSON codec** are parameters. The codec's reader has three outcomes: a map, the `null` literal, or malformed text.
- **Exceptions** become `Err` values. Whatever a hook wrote before the exception stays written, and no reimport is requested.

Modules:

- `Results`: Option and Result.
- `Lists`: first-seen, duplicate-free lists.
- `Text`: whitespace, case-insensitive suffix, substring search.
- `Quaternions`: vectors, the Hamilton product, the constants.
- `UserData`: the configuration store.
- `FixesExtraData`: the settings object.
- `SceneGraph`: the scene tree, the deletion test, `LocateMeshes`, the mesh rewrite.
- `BindPoses`: the bind-pose fix.
- `TransformFix`: the transform fix and its pass.
- `Gate`: the validity test and the two gates.
- `AnimationFix`: binding grouping and key rewrites.
- `AnimationClip`: clip-level channel processing.
- `ModelPostprocessor`: both hooks of the model post-processor.
- `LegacyPostprocessor`: the legacy hook.
- `ImporterEditor`: the inspector logic.

Three exceptions in the code end a hook early:

- **A lock-step failure.** A channel whose Y, Z or W curve is shorter than its X curve raises when the missing key is read (Editor/BlenderModelPostProcessor.cs:127-131 and 157-162). That exception ends the animation hook: later groups are untouched, and the reimport is skipped.
- **A failing bind-pose lookup** (Editor/BlenderModelPostProcessor.cs:323). It raises in the same way: later renderers are not processed and no reimport is requested.
- **A mesh with fewer normals than vertices.** The mesh rewrite raises inside the mesh loop (Editor/BlenderModelPostProcessor.cs:250-255, and Editor/BlenderFBXPostProcessor.cs:94-99 in the legacy hook). Later meshes are not rotated, and the bind-pose fix and the reimport are skipped. The hooks use this rewrite as written; the corrected rewrite is a separate reference definition (see "## Findings").

## Model

| member | source | states |
|---|---|---|
| Quaternions.InverseConstants | Editor/BlenderModelPostProcessor.cs:27-31 | The rounded correction quaternion has squared norm 2·0.70710678², not 1, and its exact inverse is the stated constant; the mirror's inverse is its negation |
| Quaternions.AnimRotationRoundTrip | Editor/BlenderModelPostProcessor.cs:167-179 | The operator applied to every rotation key (mirror·(q·fix)·mirror under flip, q·fix otherwise) is undone by the reference inverse, for both branches |
| Quaternions.AnimRotationSurjective | Editor/BlenderModelPostProcessor.cs:167-179 | Every quaternion is the fixed image of its unfixed form, so the key operator is a bijection |
| Quaternions.AnimRotationLinear | Editor/BlenderModelPostProcessor.cs:170-178 | The key operator is additive and homogeneous, so applying it to the tangents as well as to the values is consistent with the fixed curve |
| Quaternions.ZFlipInvolution | Editor/BlenderModelPostProcessor.cs:28 | The (-1, 1, -1) sign pattern applied twice is the identity |
| Quaternions.SwapYZInvolution | Editor/BlenderModelPostProcessor.cs:301 | Swapping the Y and Z of a scale twice is the identity |
| Text.IsNullOrWhiteSpace | Editor/AssetUserData.cs:108 | A string counts as blank exactly when it is null or every character is white space |
| Text.Contains | Editor/BlenderModelPostProcessor.cs:349 | The recursive search succeeds exactly when the signature occurs at some position of the text |
| Lists.AppendNew | Editor/BlenderModelPostProcessor.cs:222-238 | The `if(!list.Contains(x)) list.Add(x)` idiom keeps the initial list as a prefix and never adds a duplicate; the result holds exactly the initial elements and the inputs; nothing added was already present |
| Lists.AppendNewFirstSeenOrder | Editor/BlenderModelPostProcessor.cs:222-238 | The elements the idiom adds appear in the order of their first occurrence in the input |
| UserData.New | Editor/AssetUserData.cs:14-17 | A new store is empty and clean |
| UserData.GetBool | Editor/AssetUserData.cs:26-30 | An absent key gives the fallback; a present key gives its stored boolean, or an error when it holds another kind |
| UserData.GetString | Editor/AssetUserData.cs:32-36 | An absent key gives the fallback; a present key gives its stored string, or an error for another kind |
| UserData.GetInt | Editor/AssetUserData.cs:38-42 | An absent key gives the fallback; a present key gives its stored integer, or an error for another kind |
| UserData.GetFloat | Editor/AssetUserData.cs:44-48 | An absent key gives the fallback; a present key gives its stored float, or an error for another kind |
| UserData.SetValue | Editor/AssetUserData.cs:50-58 | Afterwards the key holds the given object; other keys are unchanged; the store is dirty unless the key already held that very object (reference identity), in which case nothing changes |
| UserData.GetPropertyValue | Editor/AssetUserData.cs:65-75 | Exactly the Boolean, Integer, Float and String kinds are accepted, each boxed with the field of its kind; every other kind raises |
| UserData.SetValueFromProperty | Editor/AssetUserData.cs:60-63 | A supported property is stored under its name as a newly boxed object, which always dirties the store; an unsupported kind raises |
| UserData.Serialize | Editor/AssetUserData.cs:77-81 | The text is the encoding of the data; the data is kept and the store becomes clean |
| UserData.ApplyModified | Editor/AssetUserData.cs:89-94 | It writes, and reports writing, exactly when the store is dirty; a clean store leaves the importer's text alone; afterwards the store is clean with the same data |
| UserData.Deserialize | Editor/AssetUserData.cs:106-116 | A null or blank string gives an empty clean store; text that reads as a map gives a clean store holding that map; malformed text raises; the text `null` gives a store with no map, whose first access raises, so it is an error at once |
| UserData.PropertyReadBack | Editor/AssetUserData.cs:26-75 | A value stored from a property reads back, at its own kind, as the property's value, whatever the fallback |
| UserData.SetValueFrame | Editor/AssetUserData.cs:56 | A write under one key leaves every other key's presence and stored box (hence every getter's reading of it) unchanged |
| UserData.PropertyWriteAlwaysDirties | Editor/AssetUserData.cs:52-63 | Storing a property whose value equals the stored one still dirties the store, because the value is boxed afresh |
| UserData.ApplyModifiedOnce | Editor/AssetUserData.cs:77-94 | Applying a second time writes nothing |
| UserData.PersistRoundTrip | Editor/AssetUserData.cs:77-116 | Writing a dirty store back and deserialising the importer's text restores its data in a clean store, for a codec whose reader maps each encoding back to its map |
| FixesExtraData.InitField | Editor/BlenderFixesExtraData.cs:26-51 | A field whose name is absent is kept and reported as not found; a present name is read with the getter of the field's kind; it fails exactly when the kind is unsupported or the stored kind differs |
| FixesExtraData.InitFields | Editor/BlenderFixesExtraData.cs:19-22 | The loop succeeds exactly when every field initialises, and then yields each field's initialised value in order |
| FixesExtraData.Initialize | Editor/BlenderFixesExtraData.cs:14-24 | The first property the iterator yields (the object's hide flags) is skipped and kept; every later one is initialised; the count is unchanged |
| FixesExtraData.InitializeOverridesOnlyPresentKeys | Editor/BlenderFixesExtraData.cs:26-51 | After initialisation, a field whose name is absent keeps its value, and a present one holds the stored value |
| FixesExtraData.InitializeFailsOnlyOnPresentKeys | Editor/BlenderFixesExtraData.cs:29-46 | Initialisation fails only on a field whose name the store holds; an unsupported kind is harmless while its key is absent |
| FixesExtraData.InitializeSettings | Editor/BlenderFixesExtraData.cs:8-24 | Over the full property view (the object's own engine properties, then the five settings) it succeeds exactly when the walk does; each setting the walk reaches takes its stored value when present at its kind and keeps its current value otherwise; with no engine properties the first setting is the skipped one and keeps its value |
| FixesExtraData.SettingsRead | Editor/BlenderFixesExtraData.cs:26-51 | After a successful walk over the full view, the five settings read back as their stored values at their kinds, or their current values when absent |
| FixesExtraData.InitializeSucceeds | Editor/BlenderFixesExtraData.cs:14-51 | The walk succeeds whenever every property after the first whose name is stored has a supported kind matching the stored value's |
| FixesExtraData.HiddenKeyRaises | Editor/BlenderFixesExtraData.cs:29-46 | An engine property after the first, of an unsupported kind, whose name the store holds makes initialisation raise |
| FixesExtraData.InitializeFromStore | Editor/BlenderFixesExtraData.cs:8-12 | For any engine properties not named `flipZAxis`, an empty store leaves the defaults (off, flip on, lights on, 0.01, 0.1) and a stored `flipZAxis` changes only that flag |
| AnimationFix.SlotOf | Editor/BlenderModelPostProcessor.cs:101-114 | A name that fills a slot is that slot's property name; a name matching no slot's property name is reported and skipped |
| AnimationFix.SlotOfPropertyName | Editor/BlenderModelPostProcessor.cs:103-112 | Each of the ten property names fills exactly its own slot |
| AnimationFix.TransformPaths | Editor/BlenderModelPostProcessor.cs:95-99 | The paths visited are exactly those of transform bindings |
| AnimationFix.UnknownTransformBindings | Editor/BlenderModelPostProcessor.cs:113 | The reported bindings are exactly the transform bindings whose names fill no slot |
| AnimationFix.GroupBindingsPaths | Editor/BlenderModelPostProcessor.cs:94-99 | The grouping holds one group per distinct transform path, with the paths in first-seen order |
| AnimationFix.GroupBindingsSlots | Editor/BlenderModelPostProcessor.cs:100-112 | Each group's slot holds the binding of its own name on that path, and a slot is filled exactly when such a binding occurs |
| AnimationFix.GroupBindingsUnknown | Editor/BlenderModelPostProcessor.cs:113 | The grouping reports the unknown transform bindings in order, and processing goes on after them |
| AnimationFix.GroupBindingsSpec | Editor/BlenderModelPostProcessor.cs:94-116 | The grouping is well formed, its paths are first-seen distinct transform paths, its slots match the bindings, and its unknown list is the skipped bindings |
| AnimationFix.GroupTransformBindings | Editor/BlenderModelPostProcessor.cs:94-116 | The grouping loop produces that grouping |
| AnimationFix.RewritePosition | Editor/BlenderModelPostProcessor.cs:127-145 | Every curve keeps its key count; the keys up to the X curve's count are rewritten with the X key's time, the same operator applied to value, in-tangent and out-tangent; later keys are kept |
| AnimationFix.RewritePositionKeys | Editor/BlenderModelPostProcessor.cs:133-144 | With flip, x and z of the value and both tangents are negated and y is kept; without flip the value and tangents are kept; either way each key is a new four-argument keyframe, so its weights and modes are the constructor's |
| AnimationFix.RewritePositionWithoutFlip | Editor/BlenderModelPostProcessor.cs:136-144 | Without flip the rewrite of time-aligned curves rebuilds every key with its own time, value and tangents and the constructor's weights and modes; curves whose keys already have those are unchanged |
| AnimationFix.RewritePositionFlipTwice | Editor/BlenderModelPostProcessor.cs:136-144 | Applying the flipped rewrite twice to time-aligned curves gives back their time, value and tangents, with the weights and modes reset to the constructor's |
| AnimationFix.MapRotationKeys | Editor/BlenderModelPostProcessor.cs:157-184 | Keys up to the X curve's count are read in lock-step from X, Y, Z and W; value and both tangents take the same quaternion operator and the X key's time, and each is a new keyframe with the constructor's weights and modes; every other key and all counts are kept |
| AnimationFix.RewriteRotationRoundTrip | Editor/BlenderModelPostProcessor.cs:157-184 | Unfixing the rewritten rotation keys of time-aligned curves gives back their time, value and tangents, with the weights and modes reset to the constructor's |
| AnimationClip.SlotCurve | Editor/BlenderModelPostProcessor.cs:124-126 | Reading through a slot gives the bound curve, or null when no binding filled the slot |
| AnimationClip.SetSlot | Editor/BlenderModelPostProcessor.cs:197-199 | Writing through a slot sets or (for a null curve) removes its binding's curve and changes no other binding; an unfilled slot writes nothing |
| AnimationClip.ProcessPosition | Editor/BlenderModelPostProcessor.cs:121-149 | It succeeds exactly when the Y and Z curves can be read for every X key (or X is empty); an empty X curve leaves the clip as it was; on success the three curves become the position rewrite, curve lengths are kept, and no other channel's curve changes; otherwise it raises for this path |
| AnimationClip.ProcessRotation | Editor/BlenderModelPostProcessor.cs:150-189 | It succeeds exactly when the Y, Z and W curves can be read for every X key (or X is empty); an empty X curve leaves the clip as it was; on success the four curves become the rotation rewrite, curve lengths are kept, and nothing else changes; otherwise it raises for this path |
| AnimationClip.ProcessScale | Editor/BlenderModelPostProcessor.cs:190-200 | The X curve is kept; the Y slot receives the old Z curve and the Z slot the old Y curve; a missing partner removes the other slot's curve; other curves are untouched |
| AnimationClip.ProcessScaleInvolution | Editor/BlenderModelPostProcessor.cs:190-200 | Swapping the scale curves twice restores the clip |
| AnimationClip.ProcessGroup | Editor/BlenderModelPostProcessor.cs:118-201 | Position, rotation and scale are processed in turn; it fails exactly when an animated channel is not readable in lock-step; only that path's slot curves change; a position failure leaves the clip as it was |
| AnimationClip.ProcessGroupLocal | Editor/BlenderModelPostProcessor.cs:118-201 | A group's outcome depends only on its own path's curves |
| AnimationClip.ProcessGroupOtherPaths | Editor/BlenderModelPostProcessor.cs:118-201 | Processing one group leaves every other path's curves alone |
| AnimationClip.RunPass | Editor/BlenderModelPostProcessor.cs:118-201 | The loop over the grouped paths stops at the first unreadable group; the groups before it hold what processing each on the input writes, later groups and non-slot curves keep the input's curves |
| AnimationClip.PassStep | Editor/BlenderModelPostProcessor.cs:118-201 | Processing the next group on the partly rewritten clip fails exactly when that group is unreadable in the input, writes what processing it on the input would, and leaves the other groups' curves as they were |
| AnimationClip.ProcessClip | Editor/BlenderModelPostProcessor.cs:94-201 | The grouping is the bindings' grouping: its paths are the first-seen transform paths, and its unknown list is exactly the reported transform bindings that fill no slot; groups are processed in that order until the first that is not readable; the groups before it are fully rewritten, the failing one keeps what it wrote, later groups and non-slot curves are untouched, no curve is added; it succeeds exactly when every group is readable |
| SceneGraph.FirstMeshRenderer | Editor/BlenderModelPostProcessor.cs:214 | The component lookup finds the first mesh renderer, if any |
| SceneGraph.ShouldDeleteObjectSpec | Editor/BlenderModelPostProcessor.cs:211-220 | A transform is destroyed exactly when it has no children and its (first) mesh renderer is disabled; without a mesh renderer it is kept |
| SceneGraph.LocateMeshes | Editor/BlenderModelPostProcessor.cs:222-238 | The list has no duplicates and holds exactly the non-null shared meshes of the subtree's filters and skinned renderers, first-seen, filters first |
| SceneGraph.LocateMeshesFiltersFirst | Editor/BlenderModelPostProcessor.cs:222-238 | A mesh some filter holds comes before every mesh only skinned renderers hold |
| SceneGraph.ApplyMeshFixAsWritten | Editor/BlenderModelPostProcessor.cs:240-273 | The vertices are always mapped and stored; the normals loop fails exactly when there are fewer normals than vertices, at the first missing index, leaving the normals as they were |
| SceneGraph.ApplyMeshFix | Editor/BlenderModelPostProcessor.cs:243-258 | Every vertex and every normal is mapped by the matrix, counts are kept and bind poses are untouched |
| SceneGraph.ApplyMeshFixAgrees | Editor/BlenderModelPostProcessor.cs:243-258 | On meshes whose normals match the vertices, the corrected rewrite and the source's coincide |
| SceneGraph.MeshWithoutNormalsFails | Editor/BlenderModelPostProcessor.cs:250-258 | A one-vertex mesh without normals makes the source's loop fail, while the corrected rewrite maps its vertex |
| SceneGraph.ApplyMeshFixRoundTrip | Editor/BlenderModelPostProcessor.cs:243-258 | A rewrite followed by one with an undoing matrix restores the mesh |
| BindPoses.FixPoses | Editor/BlenderModelPostProcessor.cs:316-327 | It succeeds exactly when every bind-pose index has a bone with a modification; then the length is kept and entry i is pose i times the inverse of bone i's modification; otherwise it raises at the first unresolved index, out of range or missing |
| BindPoses.FixPosesUndo | Editor/BlenderModelPostProcessor.cs:324 | Multiplying a fixed bind pose back by its bone's modification restores it, under the group laws |
| BindPoses.ApplyBindPoseFix | Editor/BlenderModelPostProcessor.cs:308-330 | A mesh already in the fixed list is left alone; otherwise it joins the list and its bind poses are fixed; a null mesh raises, and an unresolved bone raises the error the pose fix reports |
| BindPoses.ApplyBindPoseFixOnce | Editor/BlenderModelPostProcessor.cs:312 | A second call for the same renderer changes nothing |
| BindPoses.FixedUpToStep | Editor/BlenderModelPostProcessor.cs:77-80 | Each successful renderer extends the invariant: every mesh is fixed once, with the bones of the first renderer using it |
| BindPoses.FixedUpToFailure | Editor/BlenderModelPostProcessor.cs:308-330 | A raising renderer holds a mesh not fixed before, which is null or has an unresolved bone |
| BindPoses.FixAllBindPoses | Editor/BlenderModelPostProcessor.cs:76-80 | Over the renderers up to the first failure, each mesh is fixed once with the bones of the first renderer using it and other meshes are unchanged; the fixed list is the first-seen meshes; a failure is explained |
| TransformFix.ApplyTransformFix | Editor/BlenderModelPostProcessor.cs:275-306 | Under flip, x and z of the stored position and Euler angles are negated; without flip the stored pose is restored; the rotation is reset exactly when the snap test holds, else turned by -90·sign about local X; the scale's Y and Z are swapped |
| TransformFix.TransformFixRecoversInputs | Editor/BlenderModelPostProcessor.cs:283-301 | The stored scale, and under flip the stored position and angles, can be read back from the fix |
| TransformFix.LegacyTransformFix | Editor/BlenderFBXPostProcessor.cs:134-147 | The legacy fix always negates x and z of position and Euler angles, turns -90 degrees about local X and swaps scale Y and Z |
| TransformFix.LegacyIsFlippedFix | Editor/BlenderFBXPostProcessor.cs:137-146 | The legacy fix is the model fix with flip on and the snap test failing |
| TransformFix.DeltaCarriesBeforeToAfter | Editor/BlenderModelPostProcessor.cs:277-305 | The recorded modification `after * inverse(before)` carries the world matrix from before the fix to after it |
| TransformFix.TransformPass | Editor/BlenderModelPostProcessor.cs:44-67 | The root is never touched; every other transform is destroyed exactly when the deletion test holds, and otherwise gets exactly one modification entry and one fix from its own stored pose; nothing else is recorded; destroyed and modified are disjoint |
| TransformFix.Survivors | Editor/BlenderModelPostProcessor.cs:57-59 | The transforms left after the pass are the root followed by exactly the non-root transforms the deletion test spares |
| Gate.IsModelValidForFix | Editor/BlenderModelPostProcessor.cs:346-351 | A `.blend` path (any case) is valid without reading; otherwise a read failure raises, and the file is valid exactly when its text contains the exporter signature |
| Gate.ModelGate | Editor/BlenderModelPostProcessor.cs:332-344 | The fix runs exactly when the file is valid and the stored switch is true (fallback false); the flip is the stored flag (fallback false); an unreadable file, settings text that is malformed or `null`, or a non-boolean setting raises |
| Gate.LegacyGate | Editor/BlenderFBXPostProcessor.cs:149-159 | The legacy switch is on exactly when the file is valid and its own stored key is true; invalid files give false; for a valid file, settings text that is malformed or `null`, or a non-boolean value, raises |
| Gate.NoSettingsNoFix | Editor/BlenderModelPostProcessor.cs:332-344 | With no stored settings neither post-processor runs its fix |
| Gate.GatesReadDifferentKeys | Editor/BlenderFBXPostProcessor.cs:11 | The legacy post-processor reads its own key: a `.blend` file whose settings hold only the model switch is fixed by the model post-processor and skipped by the legacy one |
| Gate.NullSettingsRaise | Editor/AssetUserData.cs:26-30 | For a valid file whose settings text is the JSON `null`, both gates raise, because the store holds no map to read |
| Gate.ValidityExamples | Editor/BlenderModelPostProcessor.cs:346-351 | `.BLEND` counts as `.blend`; the signature makes any exported file valid; an unreadable exported file raises |
| ModelPostprocessor.FixListedMeshes | Editor/BlenderModelPostProcessor.cs:71-74 | The corrected mesh loop: each listed mesh is rewritten once, by the mesh matrix, with the corrected rewrite; every other mesh is unchanged |
| ModelPostprocessor.MeshLoop | Editor/BlenderModelPostProcessor.cs:69-74 | The mesh loop as written runs the source's rewrite over the listed meshes in order and stops at the first that raises: the meshes before it do not raise and are rewritten, the failing one raises at the index of its normal count, with its vertices rewritten and its normals kept; later meshes and unlisted ones are unchanged |
| ModelPostprocessor.MeshLoopFailsIff | Editor/BlenderModelPostProcessor.cs:250-258 | The loop raises exactly when some listed mesh has fewer normals than vertices |
| ModelPostprocessor.MeshLoopMatchesCorrected | Editor/BlenderModelPostProcessor.cs:71-74 | When every listed mesh has as many normals as vertices, the loop as written does not raise and agrees with the corrected loop |
| ModelPostprocessor.MeshLoopRotatesScene | Editor/BlenderModelPostProcessor.cs:41-74 | Over the located meshes, on a scene whose meshes have matching normals, the loop rotates exactly the meshes the scene's filters and skinned renderers refer to |
| ModelPostprocessor.RunModelFix | Editor/BlenderModelPostProcessor.cs:38-82 | The pass results and the mesh loop as written; a mesh that raises ends the hook with the earlier meshes rotated, no bind pose touched and no reimport; otherwise the surviving renderers' bind poses are fixed once per mesh up to the first renderer that raises; a failure is that renderer's, whose mesh no earlier renderer fixed and is null or has an unresolved bone; a reimport follows exactly when no renderer raised; tangent recalculation is as imported |
| ModelPostprocessor.OnPostprocessModel | Editor/BlenderModelPostProcessor.cs:33-84 | A raising gate touches nothing and skips the reimport; a gate that is off changes nothing; a gate that is on runs the fix with the stored flip, stopping at the first mesh or bind-pose failure |
| ModelPostprocessor.OnPostprocessAnimation | Editor/BlenderModelPostProcessor.cs:86-204 | A gate that is off or raising leaves the clip alone and skips the reimport; with the gate on, the whole clip-level outcome holds: the bindings' grouping with its unknown-binding report, each group rewritten in order up to the first unreadable one, later groups and non-slot curves untouched, and a reimport exactly when every group was readable |
| ModelPostprocessor.RunAnimationFix | Editor/BlenderModelPostProcessor.cs:91-202 | With the gate on, the clip-level outcome above holds, a failure is a curve failure, and a reimport follows exactly when no group raised |
| LegacyPostprocessor.LegacyTransformPass | Editor/BlenderFBXPostProcessor.cs:22-43 | The root is untouched; every other transform is destroyed exactly when the deletion test holds and otherwise gets the legacy fix |
| LegacyPostprocessor.OnPostprocessModelLegacy | Editor/BlenderFBXPostProcessor.cs:13-53 | A raising gate changes nothing and skips the reimport; a gate that is off changes nothing but still requests a reimport; a gate that is on runs the legacy pass and the mesh loop as written with the fixed Euler rotation, requesting a reimport exactly when no mesh raised |
| LegacyPostprocessor.LegacyKeepsBindPoses | Editor/BlenderFBXPostProcessor.cs:84-117 | The legacy mesh loop keeps every bind pose and vertex count, and leaves meshes the scene does not refer to alone |
| ImporterEditor.CountFixableBounds | Editor/ExtendedModelImporterEditor.cs:47-54 | The count of fixable models among the first n never exceeds n, reaches n exactly when all of them are fixable, and is zero exactly when none is |
| ImporterEditor.ClassifyCount | Editor/ExtendedModelImporterEditor.cs:55 | Turning the count into a state gives All exactly when every target is fixable, Partial exactly when some are and some are not, None exactly when there is a target and none is |
| ImporterEditor.ComputeSupportState | Editor/ExtendedModelImporterEditor.cs:47-55 | All exactly when every target is fixable (an empty selection included), Partial exactly when some but not all are, None exactly when there is a target and none is fixable; an unreadable file raises |
| ImporterEditor.DrawFixSection | Editor/ExtendedModelImporterEditor.cs:93-120 | The section is drawn only on the first tab and only when the state is not None; the notice shows for Partial; for All the switch is shown, and the other settings only while it is on |
| ImporterEditor.DefaultSettingsSection | Editor/ExtendedModelImporterEditor.cs:99-112 | With the default settings only the switch is shown; with the switch on all five settings are |
| ImporterEditor.WriteFields | Editor/ExtendedModelImporterEditor.cs:170-176 | It raises exactly when some property has an unsupported kind; otherwise keys no property names keep their boxes, any property dirties the store, and every new box's reference comes after the old ones |
| ImporterEditor.WriteFieldsKeys | Editor/ExtendedModelImporterEditor.cs:170-176 | After the write, the keys are exactly the old keys plus the names of the properties |
| ImporterEditor.WriteFieldsValues | Editor/ExtendedModelImporterEditor.cs:170-176 | With distinct names, each property ends up stored under its name holding its own value |
| ImporterEditor.ApplyTarget | Editor/ExtendedModelImporterEditor.cs:167-177 | The settings after the script entry are written, and the store is written back exactly when it changed, leaving it clean |
| ImporterEditor.WriteSettingsHolds | Editor/ExtendedModelImporterEditor.cs:170-176 | Writing the settings stores each of the five under its field name at its kind |
| ImporterEditor.InitializeFromHeldSettings | Editor/ExtendedModelImporterEditor.cs:194-199 | A store holding the settings, and none of the engine properties' names, initialises any settings object to them; the first setting does so only when the engine view is empty, since the walk skips its first property |
| ImporterEditor.SettingsRoundTrip | Editor/ExtendedModelImporterEditor.cs:165-199 | What `Apply` writes to a target succeeds, reads back from the stored text, and initialises a settings object to the written settings, for a codec whose reader inverts it |
| ImporterEditor.ApplyToInput | Editor/ExtendedModelImporterEditor.cs:167-177 | One target: a settings text that is malformed or `null` raises at once; otherwise it succeeds exactly when no property after the script entry is unsupported, and then is the target's write-back |
| ImporterEditor.Apply | Editor/ExtendedModelImporterEditor.cs:165-178 | Targets are written back in order; a settings text that is malformed or `null`, or an unsupported property, raises and ends the loop; each processed target's result is its own write-back |

## Left out

- File I/O (`File.ReadAllText`), `AssetDatabase` and `AssetImporter` access: the file content, or its read failure, and the importer's settings text are parameters.
- The JSON codec: `encode` and `decode` are parameters. Round trips assume a decoding that inverts the encoding.
- UserData.GetBool, UserData.GetString, UserData.GetInt, UserData.GetFloat, FixesExtraData.InitField: `System.Convert` cross-kind reads are not modelled; a stored value read at another kind is an error, not a conversion.
- Float numerics: quaternions are exact over `real`; matrices, Euler conversion, `localToWorldMatrix`, `Rotate` and the 89.98-degree snap test belong to the engine. The snap test is an engine-supplied boolean, and matrices are an abstract algebra.
- `TransformFix.ApplyTransformFix`: states what is written to the transform, not the resulting engine matrices, because the engine computes those.
- `Object.DestroyImmediate`, `RecalculateTangents`, `RecalculateBounds` and `SaveAndReimport`: engine calls with no visible source. They appear as a deleted set and flags.
- AnimationFix.RewritePosition, AnimationFix.MapRotationKeys: `AnimationCurve.MoveKey` key re-sorting is not modelled. Keys keep their index and take the X key's time.
- AnimationClip.SetSlot: writing through an animation slot that no binding filled is modelled as writing nothing.
- `Debug.Log` and `Debug.LogError`: the unknown-binding report is the `unknown` list.
- Inspector UI plumbing, the reflection-created tab editors and `EditorPrefs`: left out. Only the display decisions are modelled.
- The selection in `ComputeSupportState`: the targets are given as path/content pairs.
- Reference identity: boxed values carry a reference number. New boxes take numbers from a counter (`next`) above every stored one.
- Distinct transforms in the scene: `DistinctIds` is a precondition of the scene passes.
- ImporterEditor.ApplyToInput: settings text that is the JSON `null` raises at once. The source raises only at the first property write, so when no property follows the script entry it does not raise, and an unsupported first property raises its own error instead.
- AnimationFix.RewritePositionKeys, AnimationFix.MapRotationKeys: the weight and mode values the four-argument keyframe constructor gives are engine values. The model records only that a key took them.
- FixesExtraData.InitializeSettings: the engine's own properties are a parameter, and only the five settings are returned. What the walk writes into the engine properties is not returned.
- ModelPostprocessor.RunModelFix, LegacyPostprocessor.OnPostprocessModelLegacy: tangent recalculation is one flag for the whole import, not a per-mesh record.
- Stored pose dictionary order: the transforms below the root are visited in the engine's preorder.

## Findings

| source | as written | input that shows it | evidently intended | confidence | as-written member | corrected member |
|---|---|---|---|---|---|---|
| Editor/BlenderModelPostProcessor.cs:250-258 | The normals loop runs over the vertex count, behind a null check. The engine returns an empty array, never null, for a mesh without normals, so that loop indexes past the end. The same loop is at Editor/BlenderFBXPostProcessor.cs:94-102. | A mesh with one vertex and no normals | Map each existing normal, and skip a mesh without normals | medium, not executed | SceneGraph.ApplyMeshFixAsWritten and ModelPostprocessor.MeshLoop, which both hooks use (see SceneGraph.MeshWithoutNormalsFails, ModelPostprocessor.MeshLoopFailsIff) | SceneGraph.ApplyMeshFix and ModelPostprocessor.FixListedMeshes (see SceneGraph.ApplyMeshFixAgrees, SceneGraph.ApplyMeshFixRoundTrip, ModelPostprocessor.MeshLoopMatchesCorrected) |

=== FILE: animation_clip.dfy ===
/** The clip-level half of the animation fix: each grouped node path has its
    position, rotation and scale channels rewritten in place. A channel whose X
    curve leads a shorter or missing Y/Z(/W) curve raises, which aborts the rest of
    the clip while keeping every curve written before it. */
module AnimationClip {
  import opened Results
  import opened Quaternions
  import opened AnimationFix
  import Lists

  /** The clip's curves, by binding. */
  type Clip = map<Binding, Curve>

  datatype Channel = Position | Rotation | Scale

  /** A lock-step read past the end of a curve, or through a slot no binding filled. */
  datatype CurveError = LockStepBroken(path: string, channel: Channel)

  function ChannelOf(s: Slot): Channel {
    match s
    case PositionX | PositionY | PositionZ => Position
    case RotationX | RotationY | RotationZ | RotationW => Rotation
    case ScaleX | ScaleY | ScaleZ => Scale
  }

  /** `b` is a known transform property of node `path`. */
  predicate IsSlotBinding(b: Binding, path: string) {
    b.path == path && b.component.Transform? && SlotOf(b.propertyName).Some?
  }

  /** `b` is a known transform property of channel `ch` of node `path`. */
  predicate InChannel(b: Binding, path: string, ch: Channel) {
    IsSlotBinding(b, path) && ChannelOf(SlotOf(b.propertyName).value) == ch
  }

  /** Every binding of the group is a curve of the clip. */
  predicate GroupInClip(clip: Clip, g: TransformCurves) {
    forall s :: s in g ==> g[s] in clip
  }

  /** The two clips hold the same curves for every binding of node `path`. */
  ghost predicate AgreeOn(c1: Clip, c2: Clip, path: string) {
    forall b: Binding :: b.path == path ==> (b in c1 <==> b in c2) && (b in c1 ==> c1[b] == c2[b])
  }

  /** `GetEditorCurve` through a slot: null (`None`) when no binding filled it. */
  function SlotCurve(clip: Clip, g: TransformCurves, s: Slot): (r: Option<Curve>)
    ensures r.Some? <==> s in g && g[s] in clip
    ensures r.Some? ==> r.value == clip[g[s]]
  {
    if s in g && g[s] in clip then Some(clip[g[s]]) else None
  }

  /** `SetEditorCurve` through a slot: a null curve removes the binding, and a slot no
      binding filled writes nothing. */
  function SetSlot(clip: Clip, g: TransformCurves, s: Slot, c: Option<Curve>): (r: Clip)
    ensures forall b :: (s !in g || b != g[s]) ==> (b in r <==> b in clip) && (b in r ==> r[b] == clip[b])
    ensures s in g ==> (g[s] in r <==> c.Some?) && (c.Some? ==> r[g[s]] == c.value)
  {
    if s !in g then clip
    else match c
      case None => clip - {g[s]}
      case Some(v) => clip[g[s] := v]
  }

  /** Slot `s` holds a curve with at least `n` keys, so the lock-step loop can read
      its keys `0 .. n`. */
  predicate CanRead(clip: Clip, g: TransformCurves, s: Slot, n: nat) {
    SlotCurve(clip, g, s).Some? && |SlotCurve(clip, g, s).value| >= n
  }

  /** The position loop, led by the X curve, reads every key it needs: the X curve is
      empty, or the Y and Z curves exist and are at least as long. */
  predicate PositionReadable(clip: Clip, g: TransformCurves)
    requires PositionX in g && g[PositionX] in clip
  {
    var n := |clip[g[PositionX]]|;
    n == 0 || (CanRead(clip, g, PositionY, n) && CanRead(clip, g, PositionZ, n))
  }

  /** The rotation loop, led by the X curve over Y, Z and W. */
  predicate RotationReadable(clip: Clip, g: TransformCurves)
    requires RotationX in g && g[RotationX] in clip
  {
    var n := |clip[g[RotationX]]|;
    n == 0 || (CanRead(clip, g, RotationY, n) && CanRead(clip, g, RotationZ, n) && CanRead(clip, g, RotationW, n))
  }

  /** The lengths of every curve are kept. */
  predicate SameLengths(c1: Clip, c2: Clip) {
    c1.Keys == c2.Keys && forall b :: b in c1 ==> |c1[b]| == |c2[b]|
  }

  /** Distinct slots of a well-formed group hold distinct bindings. */
  lemma SlotBindingsDistinct(path: string, g: TransformCurves, s: Slot, t: Slot)
    requires GroupOfPath(path, g) && s in g && t in g && s != t
    ensures g[s] != g[t]
  {
    SlotOfPropertyName(s);
    SlotOfPropertyName(t);
  }

  lemma GroupBindingsInjective(path: string, g: TransformCurves)
    requires GroupOfPath(path, g)
    ensures forall s, t :: s in g && t in g && s != t ==> g[s] != g[t]
  {
    forall s, t | s in g && t in g && s != t ensures g[s] != g[t] {
      SlotBindingsDistinct(path, g, s, t);
    }
  }

  /** The position channel of one group. Keys `0 .. |x|` of the X, Y and Z curves
      are rewritten together; reading a Y or Z key that does not exist raises. */
  function ProcessPosition(clip: Clip, path: string, g: TransformCurves, flipZ: bool): (r: Result<Clip, CurveError>)
    requires PositionX in g && GroupInClip(clip, g) && GroupOfPath(path, g)
    ensures r.Ok? <==> PositionReadable(clip, g)
    ensures r.Err? ==> r.error == LockStepBroken(path, Position)
    ensures |clip[g[PositionX]]| == 0 ==> r == Ok(clip)
    ensures r.Ok? ==> SameLengths(r.value, clip)
    ensures r.Ok? ==> forall b :: b in clip && !InChannel(b, path, Position) ==> r.value[b] == clip[b]
    ensures r.Ok? && |clip[g[PositionX]]| > 0 ==>
      var c := Vec3Curves(clip[g[PositionX]], clip[g[PositionY]], clip[g[PositionZ]]);
      Vec3LockStep(c) &&
      Vec3Curves(r.value[g[PositionX]], r.value[g[PositionY]], r.value[g[PositionZ]]) == RewritePosition(flipZ, c)
  {
    var x := clip[g[PositionX]];
    if |x| == 0 then Ok(clip)
    else if !PositionReadable(clip, g) then Err(LockStepBroken(path, Position))
    else
      assert PositionY in g && PositionZ in g;
      SlotBindingsDistinct(path, g, PositionX, PositionY);
      SlotBindingsDistinct(path, g, PositionX, PositionZ);
      SlotBindingsDistinct(path, g, PositionY, PositionZ);
      var c := RewritePosition(flipZ, Vec3Curves(x, clip[g[PositionY]], clip[g[PositionZ]]));
      SlotOfPropertyName(PositionX);
      SlotOfPropertyName(PositionY);
      SlotOfPropertyName(PositionZ);
      Ok(clip[g[PositionX] := c.x][g[PositionY] := c.y][g[PositionZ] := c.z])
  }

  /** The rotation channel of one group, led by the X curve over X, Y, Z and W. */
  function ProcessRotation(clip: Clip, path: string, g: TransformCurves, flipZ: bool): (r: Result<Clip, CurveError>)
    requires RotationX in g && GroupInClip(clip, g) && GroupOfPath(path, g)
    ensures r.Ok? <==> RotationReadable(clip, g)
    ensures r.Err? ==> r.error == LockStepBroken(path, Rotation)
    ensures |clip[g[RotationX]]| == 0 ==> r == Ok(clip)
    ensures r.Ok? ==> SameLengths(r.value, clip)
    ensures r.Ok? ==> forall b :: b in clip && !InChannel(b, path, Rotation) ==> r.value[b] == clip[b]
    ensures r.Ok? && |clip[g[RotationX]]| > 0 ==>
      var c := QuatCurves(clip[g[RotationX]], clip[g[RotationY]], clip[g[RotationZ]], clip[g[RotationW]]);
      QuatLockStep(c) &&
      QuatCurves(r.value[g[RotationX]], r.value[g[RotationY]], r.value[g[RotationZ]], r.value[g[RotationW]])
        == RewriteRotation(flipZ, c)
  {
    var x := clip[g[RotationX]];
    if |x| == 0 then Ok(clip)
    else if !RotationReadable(clip, g) then Err(LockStepBroken(path, Rotation))
    else
      assert RotationY in g && RotationZ in g && RotationW in g;
      SlotBindingsDistinct(path, g, RotationX, RotationY);
      SlotBindingsDistinct(path, g, RotationX, RotationZ);
      SlotBindingsDistinct(path, g, RotationX, RotationW);
      SlotBindingsDistinct(path, g, RotationY, RotationZ);
      SlotBindingsDistinct(path, g, RotationY, RotationW);
      SlotBindingsDistinct(path, g, RotationZ, RotationW);
      var c := RewriteRotation(flipZ, QuatCurves(x, clip[g[RotationY]], clip[g[RotationZ]], clip[g[RotationW]]));
      SlotOfPropertyName(RotationX);
      SlotOfPropertyName(RotationY);
      SlotOfPropertyName(RotationZ);
      SlotOfPropertyName(RotationW);
      Ok(clip[g[RotationX] := c.x][g[RotationY] := c.y][g[RotationZ] := c.z][g[RotationW] := c.w])
  }

  /** The scale channel of one group: the Y slot receives the Z curve and the Z slot
      the Y curve. A missing curve is written as null, which removes the other slot's
      binding. */
  function ProcessScale(clip: Clip, path: string, g: TransformCurves): (r: Clip)
    requires ScaleX in g && GroupInClip(clip, g) && GroupOfPath(path, g)
    ensures r.Keys <= clip.Keys
    ensures forall b :: b in clip && !InChannel(b, path, Scale) ==> b in r && r[b] == clip[b]
    ensures g[ScaleX] in r && r[g[ScaleX]] == clip[g[ScaleX]]
    ensures ScaleY in g && ScaleZ in g ==>
      g[ScaleY] in r && g[ScaleZ] in r && r[g[ScaleY]] == clip[g[ScaleZ]] && r[g[ScaleZ]] == clip[g[ScaleY]]
    ensures ScaleY in g && ScaleZ !in g ==> g[ScaleY] !in r
    ensures ScaleZ in g && ScaleY !in g ==> g[ScaleZ] !in r
  {
    SlotOfPropertyName(ScaleX);
    SlotOfPropertyName(ScaleY);
    SlotOfPropertyName(ScaleZ);
    GroupBindingsInjective(path, g);
    var y := SlotCurve(clip, g, ScaleY);
    var z := SlotCurve(clip, g, ScaleZ);
    SetSlot(SetSlot(clip, g, ScaleY, z), g, ScaleZ, y)
  }

  /** With all three scale slots filled, a scale binding of the node is one of them. */
  lemma ScaleChannelBinding(b: Binding, path: string, g: TransformCurves)
    requires ScaleX in g && ScaleY in g && ScaleZ in g && GroupOfPath(path, g)
    requires InChannel(b, path, Scale)
    ensures b == g[ScaleX] || b == g[ScaleY] || b == g[ScaleZ]
  {
    var s := SlotOf(b.propertyName).value;
    assert b == Binding(path, Transform, PropertyName(s));
  }

  /** Swapping the scale curves twice restores the clip. */
  lemma ProcessScaleInvolution(clip: Clip, path: string, g: TransformCurves)
    requires ScaleX in g && ScaleY in g && ScaleZ in g && GroupInClip(clip, g) && GroupOfPath(path, g)
    ensures GroupInClip(ProcessScale(clip, path, g), g)
    ensures ProcessScale(ProcessScale(clip, path, g), path, g) == clip
  {
    var once := ProcessScale(clip, path, g);
    assert GroupInClip(once, g) by {
      forall s | s in g ensures g[s] in once {
        assert s == ScaleX || s == ScaleY || s == ScaleZ || !InChannel(g[s], path, Scale) by {
          SlotOfPropertyName(s);
        }
      }
    }
    var twice := ProcessScale(once, path, g);
    forall b | b in clip ensures b in twice && twice[b] == clip[b] {
      if InChannel(b, path, Scale) {
        ScaleChannelBinding(b, path, g);
      }
    }
    assert twice.Keys == clip.Keys;
  }

  /** Each channel of the group that is animated (its X slot filled) can be read in
      lock-step. */
  predicate GroupReadable(clip: Clip, g: TransformCurves)
    requires GroupInClip(clip, g)
  {
    && (PositionX in g ==> PositionReadable(clip, g))
    && (RotationX in g ==> RotationReadable(clip, g))
  }

  /** A clip after some of the work, and the error that stopped it, if any. */
  datatype Progress = Progress(clip: Clip, failure: Option<CurveError>)

  /** A rewrite that keeps every curve's length keeps the group in the clip and its
      readability. */
  lemma SameLengthsKeepReadability(clip: Clip, c1: Clip, g: TransformCurves)
    requires GroupInClip(clip, g) && SameLengths(c1, clip)
    ensures GroupInClip(c1, g)
    ensures PositionX in g ==> (PositionReadable(c1, g) <==> PositionReadable(clip, g))
    ensures RotationX in g ==> (RotationReadable(c1, g) <==> RotationReadable(clip, g))
  {
  }

  /** One group: position, then rotation, then scale. A raised error leaves the
      channels already written in place. */
  function ProcessGroup(clip: Clip, path: string, g: TransformCurves, flipZ: bool): (r: Progress)
    requires GroupInClip(clip, g) && GroupOfPath(path, g)
    ensures r.clip.Keys <= clip.Keys
    ensures forall b :: b in clip && !IsSlotBinding(b, path) ==> b in r.clip && r.clip[b] == clip[b]
    ensures r.failure.None? <==> GroupReadable(clip, g)
    ensures r.failure.Some? ==> r.failure.value.path == path
    ensures r.failure == Some(LockStepBroken(path, Position)) ==> r.clip == clip
  {
    var afterPosition := if PositionX in g then ProcessPosition(clip, path, g, flipZ) else Ok(clip);
    if afterPosition.Err? then Progress(clip, Some(afterPosition.error))
    else
      var c1 := afterPosition.value;
      SameLengthsKeepReadability(clip, c1, g);
      var afterRotation := if RotationX in g then ProcessRotation(c1, path, g, flipZ) else Ok(c1);
      if afterRotation.Err? then Progress(c1, Some(afterRotation.error))
      else
        var c2 := afterRotation.value;
        SameLengthsKeepReadability(c1, c2, g);
        Progress(if ScaleX in g then ProcessScale(c2, path, g) else c2, None)
  }

  /** Clips that agree on `path` hold the same curves in every slot of its group. */
  lemma GroupCurvesAgree(c1: Clip, c2: Clip, path: string, g: TransformCurves)
    requires GroupOfPath(path, g) && GroupInClip(c1, g) && GroupInClip(c2, g) && AgreeOn(c1, c2, path)
    ensures forall s :: s in g ==> c1[g[s]] == c2[g[s]]
    ensures forall s :: SlotCurve(c1, g, s) == SlotCurve(c2, g, s)
  {
    assert forall s :: s in g ==> g[s].path == path;
  }

  /** Writing the same curve under a binding keeps two clips in agreement. */
  lemma UpdateAgree(c1: Clip, c2: Clip, path: string, k: Binding, v: Curve)
    requires AgreeOn(c1, c2, path)
    ensures AgreeOn(c1[k := v], c2[k := v], path)
  {
  }

  lemma PositionLocal(c1: Clip, c2: Clip, path: string, g: TransformCurves, flipZ: bool)
    requires PositionX in g && GroupOfPath(path, g)
    requires GroupInClip(c1, g) && GroupInClip(c2, g) && AgreeOn(c1, c2, path)
    ensures ProcessPosition(c1, path, g, flipZ).Ok? == ProcessPosition(c2, path, g, flipZ).Ok?
    ensures ProcessPosition(c1, path, g, flipZ).Ok? ==>
      AgreeOn(ProcessPosition(c1, path, g, flipZ).value, ProcessPosition(c2, path, g, flipZ).value, path)
  {
    GroupCurvesAgree(c1, c2, path, g);
    var x := c1[g[PositionX]];
    if |x| > 0 && PositionReadable(c1, g) {
      assert PositionY in g && PositionZ in g;
      var c := RewritePosition(flipZ, Vec3Curves(x, c1[g[PositionY]], c1[g[PositionZ]]));
      var kx, ky, kz := g[PositionX], g[PositionY], g[PositionZ];
      UpdateAgree(c1, c2, path, kx, c.x);
      UpdateAgree(c1[kx := c.x], c2[kx := c.x], path, ky, c.y);
      UpdateAgree(c1[kx := c.x][ky := c.y], c2[kx := c.x][ky := c.y], path, kz, c.z);
    }
  }

  lemma RotationLocal(c1: Clip, c2: Clip, path: string, g: TransformCurves, flipZ: bool)
    requires RotationX in g && GroupOfPath(path, g)
    requires GroupInClip(c1, g) && GroupInClip(c2, g) && AgreeOn(c1, c2, path)
    ensures ProcessRotation(c1, path, g, flipZ).Ok? == ProcessRotation(c2, path, g, flipZ).Ok?
    ensures ProcessRotation(c1, path, g, flipZ).Ok? ==>
      AgreeOn(ProcessRotation(c1, path, g, flipZ).value, ProcessRotation(c2, path, g, flipZ).value, path)
  {
    GroupCurvesAgree(c1, c2, path, g);
    var x := c1[g[RotationX]];
    if |x| > 0 && RotationReadable(c1, g) {
      assert RotationY in g && RotationZ in g && RotationW in g;
      var c := RewriteRotation(flipZ, QuatCurves(x, c1[g[RotationY]], c1[g[RotationZ]], c1[g[RotationW]]));
      var kx, ky, kz, kw := g[RotationX], g[RotationY], g[RotationZ], g[RotationW];
      UpdateAgree(c1, c2, path, kx, c.x);
      UpdateAgree(c1[kx := c.x], c2[kx := c.x], path, ky, c.y);
      UpdateAgree(c1[kx := c.x][ky := c.y], c2[kx := c.x][ky := c.y], path, kz, c.z);
      UpdateAgree(c1[kx := c.x][ky := c.y][kz := c.z], c2[kx := c.x][ky := c.y][kz := c.z], path, kw, c.w);
    }
  }

  lemma ScaleLocal(c1: Clip, c2: Clip, path: string, g: TransformCurves)
    requires ScaleX in g && GroupOfPath(path, g)
    requires GroupInClip(c1, g) && GroupInClip(c2, g) && AgreeOn(c1, c2, path)
    ensures AgreeOn(ProcessScale(c1, path, g), ProcessScale(c2, path, g), path)
  {
    assert forall s :: s in g ==> g[s].path == path && c1[g[s]] == c2[g[s]];
  }

  /** Processing a group reads and writes only the curves of its own node path: two
      clips that agree on that path give the same outcome and agree on it afterwards. */
  lemma {:induction false} ProcessGroupLocal(c1: Clip, c2: Clip, path: string, g: TransformCurves, flipZ: bool)
    requires GroupOfPath(path, g)
    requires GroupInClip(c1, g) && GroupInClip(c2, g) && AgreeOn(c1, c2, path)
    ensures ProcessGroup(c1, path, g, flipZ).failure == ProcessGroup(c2, path, g, flipZ).failure
    ensures AgreeOn(ProcessGroup(c1, path, g, flipZ).clip, ProcessGroup(c2, path, g, flipZ).clip, path)
  {
    var p1 := if PositionX in g then ProcessPosition(c1, path, g, flipZ) else Ok(c1);
    var p2 := if PositionX in g then ProcessPosition(c2, path, g, flipZ) else Ok(c2);
    if PositionX in g { PositionLocal(c1, c2, path, g, flipZ); }
    if p1.Ok? {
      var d1 := p1.value;
      var d2 := p2.value;
      SameLengthsKeepReadability(c1, d1, g);
      SameLengthsKeepReadability(c2, d2, g);
      var q1 := if RotationX in g then ProcessRotation(d1, path, g, flipZ) else Ok(d1);
      var q2 := if RotationX in g then ProcessRotation(d2, path, g, flipZ) else Ok(d2);
      if RotationX in g { RotationLocal(d1, d2, path, g, flipZ); }
      if q1.Ok? {
        SameLengthsKeepReadability(d1, q1.value, g);
        SameLengthsKeepReadability(d2, q2.value, g);
        if ScaleX in g { ScaleLocal(q1.value, q2.value, path, g); }
      }
    }
  }

  /** Every group's bindings are curves of the clip. */
  predicate GroupsInClip(clip: Clip, gr: Grouping) {
    forall p :: p in gr.groups ==> GroupInClip(clip, gr.groups[p]) && GroupOfPath(p, gr.groups[p])
  }

  lemma AgreeOnTrans(c1: Clip, c2: Clip, c3: Clip, path: string)
    requires AgreeOn(c1, c2, path) && AgreeOn(c2, c3, path)
    ensures AgreeOn(c1, c3, path)
  {
  }

  /** Processing the group of `path` leaves every other path's curves alone. */
  lemma ProcessGroupOtherPaths(clip: Clip, path: string, g: TransformCurves, flipZ: bool, other: string)
    requires GroupInClip(clip, g) && GroupOfPath(path, g) && other != path
    ensures AgreeOn(ProcessGroup(clip, path, g, flipZ).clip, clip, other)
  {
  }

  /** A group's bindings are curves of any clip that agrees on its path with one
      that holds them. */
  lemma GroupInAgreeingClip(clip: Clip, cur: Clip, path: string, g: TransformCurves)
    requires GroupInClip(clip, g) && GroupOfPath(path, g) && AgreeOn(cur, clip, path)
    ensures GroupInClip(cur, g)
  {
    assert forall s :: s in g ==> g[s].path == path;
  }

  /** Every curve that is not a known transform property is kept. */
  predicate KeepsNonSlot(clip: Clip, out: Clip) {
    forall b :: b in clip && (!b.component.Transform? || SlotOf(b.propertyName).None?) ==> b in out && out[b] == clip[b]
  }

  /** The pass has completed the first `done` groups: each was readable and `out`
      holds what processing it on the input clip writes, while the later groups'
      curves are still the input's. */
  ghost predicate PassInvariant(clip: Clip, gr: Grouping, out: Clip, done: nat, flipZ: bool)
    requires WellGrouped(gr) && GroupsInClip(clip, gr)
  {
    && done <= |gr.paths|
    && out.Keys <= clip.Keys
    && KeepsNonSlot(clip, out)
    && (forall j :: 0 <= j < done ==> GroupReadable(clip, gr.groups[gr.paths[j]]))
    && (forall j :: 0 <= j < done ==>
          AgreeOn(out, ProcessGroup(clip, gr.paths[j], gr.groups[gr.paths[j]], flipZ).clip, gr.paths[j]))
    && (forall j :: done <= j < |gr.paths| ==> AgreeOn(out, clip, gr.paths[j]))
  }

  /** One iteration of the pass: processing the next group on the current clip fails
      exactly when that group is unreadable in the input clip, writes what
      processing it on the input would, and leaves every other group's curves as they
      were; on success the invariant moves on by one group. */
  lemma PassStep(clip: Clip, gr: Grouping, out: Clip, done: nat, flipZ: bool)
    requires WellGrouped(gr) && GroupsInClip(clip, gr)
    requires PassInvariant(clip, gr, out, done, flipZ) && done < |gr.paths|
    ensures GroupInClip(out, gr.groups[gr.paths[done]])
    ensures var p := gr.paths[done]; var r := ProcessGroup(out, p, gr.groups[p], flipZ);
      && (r.failure.None? <==> GroupReadable(clip, gr.groups[p]))
      && (r.failure.Some? ==> r.failure.value.path == p)
      && r.clip.Keys <= clip.Keys && KeepsNonSlot(clip, r.clip)
      && (forall j :: 0 <= j <= done ==>
            AgreeOn(r.clip, ProcessGroup(clip, gr.paths[j], gr.groups[gr.paths[j]], flipZ).clip, gr.paths[j]))
      && (forall j :: done < j < |gr.paths| ==> AgreeOn(r.clip, clip, gr.paths[j]))
  {
    var paths, groups := gr.paths, gr.groups;
    var p := paths[done];
    var g := groups[p];
    GroupInAgreeingClip(clip, out, p, g);
    var r := ProcessGroup(out, p, g, flipZ);
    ProcessGroupLocal(out, clip, p, g, flipZ);
    forall j | 0 <= j < |paths| && j != done
      ensures AgreeOn(r.clip, out, paths[j])
    {
      ProcessGroupOtherPaths(out, p, g, flipZ, paths[j]);
    }
    forall j | 0 <= j < done
      ensures AgreeOn(r.clip, ProcessGroup(clip, paths[j], groups[paths[j]], flipZ).clip, paths[j])
    {
      AgreeOnTrans(r.clip, out, ProcessGroup(clip, paths[j], groups[paths[j]], flipZ).clip, paths[j]);
    }
    forall j | done < j < |paths|
      ensures AgreeOn(r.clip, clip, paths[j])
    {
      AgreeOnTrans(r.clip, out, clip, paths[j]);
    }
  }

  /** After a successful step the invariant holds for one more group. */
  lemma PassAdvance(clip: Clip, gr: Grouping, out: Clip, done: nat, flipZ: bool)
    requires WellGrouped(gr) && GroupsInClip(clip, gr)
    requires PassInvariant(clip, gr, out, done, flipZ) && done < |gr.paths|
    requires GroupInClip(out, gr.groups[gr.paths[done]])
    requires ProcessGroup(out, gr.paths[done], gr.groups[gr.paths[done]], flipZ).failure.None?
    ensures PassInvariant(clip, gr, ProcessGroup(out, gr.paths[done], gr.groups[gr.paths[done]], flipZ).clip, done + 1, flipZ)
  {
    PassStep(clip, gr, out, done, flipZ);
  }

  /** The groups built from bindings of the clip hold only curves of the clip. */
  lemma GroupingInClip(bindings: seq<Binding>, clip: Clip, gr: Grouping)
    requires forall b :: b in bindings ==> b in clip
    requires WellGrouped(gr)
    requires forall p, s :: p in gr.groups ==> (s in gr.groups[p] <==> Binding(p, Transform, PropertyName(s)) in bindings)
    ensures GroupsInClip(clip, gr)
  {
    forall p | p in gr.groups ensures GroupInClip(clip, gr.groups[p]) {
      forall s | s in gr.groups[p] ensures gr.groups[p][s] in clip {
        assert gr.groups[p][s] == Binding(p, Transform, PropertyName(s));
      }
    }
  }

  /** What the pass over `gr` leaves behind: `done` groups complete and readable, the
      group at `done` (if any) unreadable with the failure naming its path, the
      completed groups' curves as processing each on the input writes them, the
      later groups' curves and every non-slot curve as they were. */
  ghost predicate PassOutcome(clip: Clip, gr: Grouping, flipZ: bool, out: Clip, failure: Option<CurveError>, done: nat)
    requires WellGrouped(gr) && GroupsInClip(clip, gr)
  {
    && out.Keys <= clip.Keys
    && KeepsNonSlot(clip, out)
    && done <= |gr.paths|
    && (failure.None? <==> done == |gr.paths|)
    && (failure.None? <==> forall j :: 0 <= j < |gr.paths| ==> GroupReadable(clip, gr.groups[gr.paths[j]]))
    && (forall j :: 0 <= j < done ==> GroupReadable(clip, gr.groups[gr.paths[j]]))
    && (failure.Some? ==> failure.value.path == gr.paths[done] && !GroupReadable(clip, gr.groups[gr.paths[done]]))
    && (forall j :: 0 <= j < |gr.paths| && j <= done ==>
          AgreeOn(out, ProcessGroup(clip, gr.paths[j], gr.groups[gr.paths[j]], flipZ).clip, gr.paths[j]))
    && (forall j :: done < j < |gr.paths| ==> AgreeOn(out, clip, gr.paths[j]))
  }

  /** The per-path pass over the clip. Groups are processed in path order and the
      first lock-step failure aborts the pass: `done` groups complete, the failing
      group keeps the channels it wrote, and later groups are untouched. */
  method RunPass(clip: Clip, gr: Grouping, flipZ: bool) returns (out: Clip, failure: Option<CurveError>, done: nat)
    requires WellGrouped(gr) && GroupsInClip(clip, gr)
    ensures PassOutcome(clip, gr, flipZ, out, failure, done)
  {
    out := clip;
    done := 0;
    while done < |gr.paths|
      invariant PassInvariant(clip, gr, out, done, flipZ)
    {
      PassStep(clip, gr, out, done, flipZ);
      var r := ProcessGroup(out, gr.paths[done], gr.groups[gr.paths[done]], flipZ);
      if r.failure.Some? {
        out, failure := r.clip, r.failure;
        return;
      }
      PassAdvance(clip, gr, out, done, flipZ);
      out := r.clip;
      done := done + 1;
    }
    failure := None;
  }

  /** What the animation fix leaves for a clip and its bindings: the transform
      bindings grouped by path in first-seen order, each group holding exactly the
      channels the bindings name, and the per-path pass's outcome on that grouping. */
  ghost predicate ClipProcessed(bindings: seq<Binding>, clip: Clip, flipZ: bool,
                                grouping: Grouping, out: Clip, failure: Option<CurveError>, done: nat)
  {
    && WellGrouped(grouping) && GroupsInClip(clip, grouping)
    && grouping.paths == Lists.AppendNew([], TransformPaths(bindings))
    && (forall p, s :: p in grouping.groups ==>
          (s in grouping.groups[p] <==> Binding(p, Transform, PropertyName(s)) in bindings))
    && grouping.unknown == UnknownTransformBindings(bindings)
    && PassOutcome(clip, grouping, flipZ, out, failure, done)
  }

  /** The grouping loop followed by the per-path pass over the clip: groups are
      formed in first-seen path order from the clip's bindings and then rewritten by
      `RunPass`. */
  method ProcessClip(bindings: seq<Binding>, clip: Clip, flipZ: bool)
    returns (grouping: Grouping, out: Clip, failure: Option<CurveError>, done: nat)
    requires forall b :: b in bindings ==> b in clip
    ensures ClipProcessed(bindings, clip, flipZ, grouping, out, failure, done)
  {
    grouping := GroupTransformBindings(bindings);
    GroupingInClip(bindings, clip, grouping);
    out, failure, done := RunPass(clip, grouping, flipZ);
  }
}

=== FILE: animation_fix.dfy ===
/** The animation half of the model post-processor: transform curve bindings are
    grouped by node path and classified into ten slots, then each group's position,
    rotation and scale curves are rewritten. Keys of one channel are read and
    written in lock-step by index, the X curve's key count and times leading. */
module AnimationFix {
  import opened Results
  import opened Quaternions
  import Lists

  /** A key's weights and modes (weighted mode, in and out weights, tangent mode).
      The four-argument key constructor the rewrite uses does not take them and
      fills in the engine's defaults, which the engine does not show:
      `ConstructorDefault` stands for those, `Shape` for any other values. */
  datatype KeyShape =
    | ConstructorDefault
    | Shape(weightedMode: int, inWeight: real, outWeight: real, tangentMode: int)

  datatype Keyframe = Keyframe(time: real, value: real, inTangent: real, outTangent: real, shape: KeyShape)

  type Curve = seq<Keyframe>

  /** The three scalars of a key that the rewrite transforms alike. */
  datatype KeyPart = Value | InTangent | OutTangent

  function Part(k: Keyframe, p: KeyPart): real {
    match p
    case Value => k.value
    case InTangent => k.inTangent
    case OutTangent => k.outTangent
  }

  /** A key built by the four-argument constructor at `time`, its three parts given
      by `part`: its weights and modes are the constructor's. */
  function KeyOf(time: real, part: KeyPart -> real): (k: Keyframe)
    ensures k.time == time && forall p :: Part(k, p) == part(p)
    ensures k.shape == ConstructorDefault
  {
    Keyframe(time, part(Value), part(InTangent), part(OutTangent), ConstructorDefault)
  }

  /** The key as the constructor rebuilds it from its time and three parts. */
  function Rebuilt(k: Keyframe): Keyframe {
    k.(shape := ConstructorDefault)
  }

  // ---------------------------------------------------------------------------
  // Bindings and their classification

  /** The type of an animated component: the transform, or any other component
      type, told apart by its name. */
  datatype ComponentType = Transform | Other(name: string)

  /** A curve binding: node path, the animated component's type, and the animated
      property's name. Two components bound at the same path and property are
      distinct bindings. */
  datatype Binding = Binding(path: string, component: ComponentType, propertyName: string)

  /** The ten transform properties the rewrite knows. */
  datatype Slot =
    | PositionX | PositionY | PositionZ
    | RotationX | RotationY | RotationZ | RotationW
    | ScaleX | ScaleY | ScaleZ

  function PropertyName(s: Slot): string {
    match s
    case PositionX => "m_LocalPosition.x"
    case PositionY => "m_LocalPosition.y"
    case PositionZ => "m_LocalPosition.z"
    case RotationX => "m_LocalRotation.x"
    case RotationY => "m_LocalRotation.y"
    case RotationZ => "m_LocalRotation.z"
    case RotationW => "m_LocalRotation.w"
    case ScaleX => "m_LocalScale.x"
    case ScaleY => "m_LocalScale.y"
    case ScaleZ => "m_LocalScale.z"
  }

  /** The slot a property name fills; `None` for a name that is reported and skipped. */
  function SlotOf(name: string): (r: Option<Slot>)
    ensures r.Some? ==> PropertyName(r.value) == name
    ensures r.None? ==> forall s: Slot :: PropertyName(s) != name
  {
    if name == "m_LocalPosition.x" then Some(PositionX)
    else if name == "m_LocalPosition.y" then Some(PositionY)
    else if name == "m_LocalPosition.z" then Some(PositionZ)
    else if name == "m_LocalRotation.x" then Some(RotationX)
    else if name == "m_LocalRotation.y" then Some(RotationY)
    else if name == "m_LocalRotation.z" then Some(RotationZ)
    else if name == "m_LocalRotation.w" then Some(RotationW)
    else if name == "m_LocalScale.x" then Some(ScaleX)
    else if name == "m_LocalScale.y" then Some(ScaleY)
    else if name == "m_LocalScale.z" then Some(ScaleZ)
    else None
  }

  /** Each known name fills exactly its own slot. */
  lemma SlotOfPropertyName(s: Slot)
    ensures SlotOf(PropertyName(s)) == Some(s)
  {
  }

  /** The slots of one node path, each holding the binding that fills it. */
  type TransformCurves = map<Slot, Binding>

  /** The grouped bindings: node paths in first-seen order, one slot map per path,
      and the transform bindings whose names are unknown. */
  datatype Grouping = Grouping(paths: seq<string>, groups: map<string, TransformCurves>, unknown: seq<Binding>)

  /** Paths of the transform bindings, in order, with repetitions. */
  function TransformPaths(bs: seq<Binding>): (r: seq<string>)
    ensures forall p {:trigger p in r} :: p in r <==> exists b :: b in bs && b.component.Transform? && b.path == p
  {
    if |bs| == 0 then []
    else
      var init := TransformPaths(bs[..|bs| - 1]);
      var b := bs[|bs| - 1];
      assert bs == bs[..|bs| - 1] + [b];
      if b.component.Transform? then init + [b.path] else init
  }

  /** The transform bindings whose property names fill no slot, in order. */
  function UnknownTransformBindings(bs: seq<Binding>): (r: seq<Binding>)
    ensures forall b {:trigger b in r} :: b in r <==> b in bs && b.component.Transform? && SlotOf(b.propertyName).None?
  {
    if |bs| == 0 then []
    else
      var init := UnknownTransformBindings(bs[..|bs| - 1]);
      var b := bs[|bs| - 1];
      assert bs == bs[..|bs| - 1] + [b];
      if b.component.Transform? && SlotOf(b.propertyName).None? then init + [b] else init
  }

  /** A well-formed group: each slot holds the binding of its own name on `path`. */
  predicate GroupOfPath(path: string, g: TransformCurves) {
    forall s :: s in g ==> g[s] == Binding(path, Transform, PropertyName(s))
  }

  predicate WellGrouped(g: Grouping) {
    && Lists.NoDuplicates(g.paths)
    && (forall p :: p in g.groups ==> p in g.paths && GroupOfPath(p, g.groups[p]))
    && (forall p :: p in g.paths ==> p in g.groups)
  }

  /** One iteration of the grouping loop. */
  function AddBinding(g: Grouping, b: Binding): Grouping {
    if !b.component.Transform? then g
    else
      var paths := if b.path in g.groups then g.paths else g.paths + [b.path];
      var curves := if b.path in g.groups then g.groups[b.path] else map[];
      match SlotOf(b.propertyName)
      case Some(s) => Grouping(paths, g.groups[b.path := curves[s := b]], g.unknown)
      case None => Grouping(paths, g.groups[b.path := curves], g.unknown + [b])
  }

  /** The grouping of a binding list, one binding at a time from the left. */
  function GroupBindings(bs: seq<Binding>): Grouping {
    if |bs| == 0 then Grouping([], map[], [])
    else AddBinding(GroupBindings(bs[..|bs| - 1]), bs[|bs| - 1])
  }

  /** Paths are grouped in first-seen order, one group per path. */
  lemma {:induction false} GroupBindingsPaths(bs: seq<Binding>)
    ensures GroupBindings(bs).paths == Lists.AppendNew([], TransformPaths(bs))
    ensures forall p :: p in GroupBindings(bs).groups <==> p in GroupBindings(bs).paths
  {
    if |bs| > 0 {
      var init := bs[..|bs| - 1];
      var b := bs[|bs| - 1];
      assert bs == init + [b];
      GroupBindingsPaths(init);
      if b.component.Transform? {
        var tp := TransformPaths(init);
        assert TransformPaths(bs) == tp + [b.path];
        assert (tp + [b.path])[..|tp|] == tp;
      } else {
        assert TransformPaths(bs) == TransformPaths(init);
      }
    }
  }

  /** A known property name on a transform binding fills exactly its own slot of its
      path's group. */
  lemma {:induction false} GroupBindingsSlots(bs: seq<Binding>)
    ensures forall p :: p in GroupBindings(bs).groups ==> GroupOfPath(p, GroupBindings(bs).groups[p])
    ensures forall p, s :: p in GroupBindings(bs).groups ==>
      (s in GroupBindings(bs).groups[p] <==> Binding(p, Transform, PropertyName(s)) in bs)
  {
    if |bs| > 0 {
      var init := bs[..|bs| - 1];
      var b := bs[|bs| - 1];
      assert bs == init + [b];
      GroupBindingsSlots(init);
      var g0 := GroupBindings(init);
      var g := GroupBindings(bs);
      if b.component.Transform? {
        forall p, s | p in g.groups
          ensures s in g.groups[p] <==> Binding(p, Transform, PropertyName(s)) in bs
        {
          var q := Binding(p, Transform, PropertyName(s));
          assert q in bs <==> q in init || q == b;
          if p == b.path {
            if p !in g0.groups {
              GroupBindingsPaths(init);
              assert q !in init;
            }
            match SlotOf(b.propertyName)
            case Some(t) =>
              assert b == Binding(p, Transform, PropertyName(t));
              if s != t {
                SlotOfPropertyName(s);
                SlotOfPropertyName(t);
              }
            case None =>
              assert q != b;
          } else {
            assert g.groups[p] == g0.groups[p];
          }
        }
      }
    }
  }

  /** Unknown names on transform bindings are reported, in order. */
  lemma {:induction false} GroupBindingsUnknown(bs: seq<Binding>)
    ensures GroupBindings(bs).unknown == UnknownTransformBindings(bs)
  {
    if |bs| > 0 {
      GroupBindingsUnknown(bs[..|bs| - 1]);
    }
  }

  /** Only transform bindings are grouped, one group per distinct path in first-seen
      order; a known property name fills exactly its own slot and an unknown one is
      reported. */
  lemma GroupBindingsSpec(bs: seq<Binding>)
    ensures var g := GroupBindings(bs);
      && WellGrouped(g)
      && g.paths == Lists.AppendNew([], TransformPaths(bs))
      && (forall p, s :: p in g.groups ==> (s in g.groups[p] <==> Binding(p, Transform, PropertyName(s)) in bs))
      && g.unknown == UnknownTransformBindings(bs)
  {
    GroupBindingsPaths(bs);
    GroupBindingsSlots(bs);
    GroupBindingsUnknown(bs);
  }

  /** `OnPostprocessAnimation`'s grouping loop over the clip's curve bindings. */
  method GroupTransformBindings(bindings: seq<Binding>) returns (g: Grouping)
    ensures WellGrouped(g)
    ensures g.paths == Lists.AppendNew([], TransformPaths(bindings))
    ensures forall p, s :: p in g.groups ==> (s in g.groups[p] <==> Binding(p, Transform, PropertyName(s)) in bindings)
    ensures g.unknown == UnknownTransformBindings(bindings)
  {
    g := Grouping([], map[], []);
    for i := 0 to |bindings|
      invariant g == GroupBindings(bindings[..i])
    {
      assert bindings[..i + 1][..i] == bindings[..i];
      g := AddBinding(g, bindings[i]);
    }
    assert bindings[..|bindings|] == bindings;
    GroupBindingsSpec(bindings);
  }

  // ---------------------------------------------------------------------------
  // Lock-step key rewriting

  datatype Vec3Curves = Vec3Curves(x: Curve, y: Curve, z: Curve)

  datatype QuatCurves = QuatCurves(x: Curve, y: Curve, z: Curve, w: Curve)

  /** Every key index of the X curve can be read from the Y and Z curves. */
  predicate Vec3LockStep(c: Vec3Curves) {
    |c.y| >= |c.x| && |c.z| >= |c.x|
  }

  /** Lock-step, and the keys read together share the X key's time. */
  predicate Vec3Aligned(c: Vec3Curves) {
    Vec3LockStep(c) &&
    forall i :: 0 <= i < |c.x| ==> c.y[i].time == c.x[i].time && c.z[i].time == c.x[i].time
  }

  /** Part `p` of the three keys at index `i`, read as a vector. */
  function VecAt(c: Vec3Curves, i: nat, p: KeyPart): Vec3
    requires Vec3LockStep(c) && i < |c.x|
  {
    Vec3(Part(c.x[i], p), Part(c.y[i], p), Part(c.z[i], p))
  }

  /** Key equality from its time, its three parts and its shape. */
  lemma KeyframeExt(a: Keyframe, b: Keyframe)
    requires a.time == b.time && a.shape == b.shape
    requires forall p :: Part(a, p) == Part(b, p)
    ensures a == b
  {
    assert Part(a, Value) == Part(b, Value);
    assert Part(a, InTangent) == Part(b, InTangent);
    assert Part(a, OutTangent) == Part(b, OutTangent);
  }

  /** The position key operator: the (-1, 1, -1) sign pattern under flip, else nothing. */
  function PositionFix(flipZ: bool, v: Vec3): Vec3 {
    if flipZ then Scale(v, Z_FLIP_SCALE) else v
  }

  /** The position rewrite of one group: keys `0 .. |x|` of the three curves are
      rewritten by applying the operator to the value, in-tangent and out-tangent
      vectors alike; every rewritten key takes the X key's time, and keys past the X
      curve's count are kept. */
  function RewritePosition(flipZ: bool, c: Vec3Curves): (r: Vec3Curves)
    requires Vec3LockStep(c)
    ensures Vec3Aligned(r) && |r.x| == |c.x| && |r.y| == |c.y| && |r.z| == |c.z|
    ensures forall i, p :: 0 <= i < |c.x| ==> VecAt(r, i, p) == PositionFix(flipZ, VecAt(c, i, p))
    ensures forall i :: 0 <= i < |c.x| ==> r.x[i].time == c.x[i].time
    ensures forall i :: |c.x| <= i < |c.y| ==> r.y[i] == c.y[i]
    ensures forall i :: |c.x| <= i < |c.z| ==> r.z[i] == c.z[i]
  {
    var n := |c.x|;
    Vec3Curves(
      seq(n, i requires 0 <= i < n => KeyOf(c.x[i].time, p => PositionFix(flipZ, VecAt(c, i, p)).x)),
      seq(|c.y|, i requires 0 <= i < |c.y| =>
        if i < n then KeyOf(c.x[i].time, p => PositionFix(flipZ, VecAt(c, i, p)).y) else c.y[i]),
      seq(|c.z|, i requires 0 <= i < |c.z| =>
        if i < n then KeyOf(c.x[i].time, p => PositionFix(flipZ, VecAt(c, i, p)).z) else c.z[i]))
  }

  /** With flip, x and z of value and tangents are negated and y is kept; without it
      the values are written back unchanged. Either way the key's weights and modes
      become the constructor's. */
  lemma RewritePositionKeys(flipZ: bool, c: Vec3Curves, i: nat)
    requires Vec3LockStep(c) && i < |c.x|
    ensures var r := RewritePosition(flipZ, c);
      var s := if flipZ then -1.0 else 1.0;
      && r.x[i] == Keyframe(c.x[i].time, s * c.x[i].value, s * c.x[i].inTangent, s * c.x[i].outTangent, ConstructorDefault)
      && r.y[i] == Keyframe(c.x[i].time, c.y[i].value, c.y[i].inTangent, c.y[i].outTangent, ConstructorDefault)
      && r.z[i] == Keyframe(c.x[i].time, s * c.z[i].value, s * c.z[i].inTangent, s * c.z[i].outTangent, ConstructorDefault)
  {
    var r := RewritePosition(flipZ, c);
    assert VecAt(r, i, Value) == PositionFix(flipZ, VecAt(c, i, Value));
    assert VecAt(r, i, InTangent) == PositionFix(flipZ, VecAt(c, i, InTangent));
    assert VecAt(r, i, OutTangent) == PositionFix(flipZ, VecAt(c, i, OutTangent));
  }

  /** The position curves with their lock-step keys rebuilt by the constructor. */
  function RebuiltVec3(c: Vec3Curves): Vec3Curves
    requires Vec3LockStep(c)
  {
    var n := |c.x|;
    Vec3Curves(
      seq(n, i requires 0 <= i < n => Rebuilt(c.x[i])),
      seq(|c.y|, i requires 0 <= i < |c.y| => if i < n then Rebuilt(c.y[i]) else c.y[i]),
      seq(|c.z|, i requires 0 <= i < |c.z| => if i < n then Rebuilt(c.z[i]) else c.z[i]))
  }

  /** Every key the rewrite reads already has the constructor's weights and modes. */
  predicate Vec3Constructed(c: Vec3Curves)
    requires Vec3LockStep(c)
  {
    forall i :: 0 <= i < |c.x| ==>
      c.x[i].shape == ConstructorDefault && c.y[i].shape == ConstructorDefault && c.z[i].shape == ConstructorDefault
  }

  /** Without flip the position rewrite keeps every value and tangent of time-aligned
      curves and only rebuilds the keys, so curves whose keys the constructor built
      come back unchanged. */
  lemma RewritePositionWithoutFlip(c: Vec3Curves)
    requires Vec3Aligned(c)
    ensures RewritePosition(false, c) == RebuiltVec3(c)
    ensures Vec3Constructed(c) ==> RewritePosition(false, c) == c
  {
    var r := RewritePosition(false, c);
    var b := RebuiltVec3(c);
    forall i | 0 <= i < |c.x|
      ensures r.x[i] == b.x[i] && r.y[i] == b.y[i] && r.z[i] == b.z[i]
    {
      RewritePositionKeys(false, c, i);
    }
    assert r.x == b.x && r.y == b.y && r.z == b.z;
    if Vec3Constructed(c) {
      assert b.x == c.x && b.y == c.y && b.z == c.z;
    }
  }

  /** Flipping twice restores the values and tangents of time-aligned curves, with
      their keys rebuilt. */
  lemma RewritePositionFlipTwice(c: Vec3Curves)
    requires Vec3Aligned(c)
    ensures RewritePosition(true, RewritePosition(true, c)) == RebuiltVec3(c)
  {
    var r1 := RewritePosition(true, c);
    var r2 := RewritePosition(true, r1);
    var b := RebuiltVec3(c);
    forall i | 0 <= i < |c.x|
      ensures r2.x[i] == b.x[i] && r2.y[i] == b.y[i] && r2.z[i] == b.z[i]
    {
      RewritePositionKeys(true, c, i);
      RewritePositionKeys(true, r1, i);
    }
    assert r2.x == b.x && r2.y == b.y && r2.z == b.z;
  }

  predicate QuatLockStep(c: QuatCurves) {
    |c.y| >= |c.x| && |c.z| >= |c.x| && |c.w| >= |c.x|
  }

  predicate QuatAligned(c: QuatCurves) {
    QuatLockStep(c) &&
    forall i :: 0 <= i < |c.x| ==>
      c.y[i].time == c.x[i].time && c.z[i].time == c.x[i].time && c.w[i].time == c.x[i].time
  }

  /** Part `p` of the four keys at index `i`, read as a quaternion. */
  function QuatAt(c: QuatCurves, i: nat, p: KeyPart): Quaternion
    requires QuatLockStep(c) && i < |c.x|
  {
    Quaternion(Part(c.x[i], p), Part(c.y[i], p), Part(c.z[i], p), Part(c.w[i], p))
  }

  /** The rotation key operator, or its reference inverse. */
  datatype RotationOp = Fix(flipZ: bool) | Unfix(flipZ: bool)

  function ApplyRotationOp(op: RotationOp, q: Quaternion): Quaternion {
    match op
    case Fix(flipZ) => AnimRotationFix(flipZ, q)
    case Unfix(flipZ) => AnimRotationUnfix(flipZ, q)
  }

  /** Keys `0 .. |x|` of the four rotation curves rewritten by one operator, applied to
      the value and both tangents alike, with the X key's time. */
  function MapRotationKeys(c: QuatCurves, op: RotationOp): (r: QuatCurves)
    requires QuatLockStep(c)
    ensures QuatAligned(r) && |r.x| == |c.x| && |r.y| == |c.y| && |r.z| == |c.z| && |r.w| == |c.w|
    ensures forall i, p :: 0 <= i < |c.x| ==> QuatAt(r, i, p) == ApplyRotationOp(op, QuatAt(c, i, p))
    ensures forall i :: 0 <= i < |c.x| ==> r.x[i].time == c.x[i].time
    ensures forall i :: |c.x| <= i < |c.y| ==> r.y[i] == c.y[i]
    ensures forall i :: |c.x| <= i < |c.z| ==> r.z[i] == c.z[i]
    ensures forall i :: |c.x| <= i < |c.w| ==> r.w[i] == c.w[i]
    ensures forall i :: 0 <= i < |c.x| ==>
      r.x[i].shape == r.y[i].shape == r.z[i].shape == r.w[i].shape == ConstructorDefault
  {
    var n := |c.x|;
    QuatCurves(
      seq(n, i requires 0 <= i < n => KeyOf(c.x[i].time, p => ApplyRotationOp(op, QuatAt(c, i, p)).x)),
      seq(|c.y|, i requires 0 <= i < |c.y| =>
        if i < n then KeyOf(c.x[i].time, p => ApplyRotationOp(op, QuatAt(c, i, p)).y) else c.y[i]),
      seq(|c.z|, i requires 0 <= i < |c.z| =>
        if i < n then KeyOf(c.x[i].time, p => ApplyRotationOp(op, QuatAt(c, i, p)).z) else c.z[i]),
      seq(|c.w|, i requires 0 <= i < |c.w| =>
        if i < n then KeyOf(c.x[i].time, p => ApplyRotationOp(op, QuatAt(c, i, p)).w) else c.w[i]))
  }

  /** The rotation rewrite of one group. */
  function RewriteRotation(flipZ: bool, c: QuatCurves): QuatCurves
    requires QuatLockStep(c)
  {
    MapRotationKeys(c, Fix(flipZ))
  }

  /** The rotation curves with their lock-step keys rebuilt by the constructor. */
  function RebuiltQuat(c: QuatCurves): QuatCurves
    requires QuatLockStep(c)
  {
    var n := |c.x|;
    QuatCurves(
      seq(n, i requires 0 <= i < n => Rebuilt(c.x[i])),
      seq(|c.y|, i requires 0 <= i < |c.y| => if i < n then Rebuilt(c.y[i]) else c.y[i]),
      seq(|c.z|, i requires 0 <= i < |c.z| => if i < n then Rebuilt(c.z[i]) else c.z[i]),
      seq(|c.w|, i requires 0 <= i < |c.w| => if i < n then Rebuilt(c.w[i]) else c.w[i]))
  }

  /** Round trip: unfixing the rewritten keys restores the values and tangents of
      time-aligned rotation curves, with their keys rebuilt. */
  lemma RewriteRotationRoundTrip(flipZ: bool, c: QuatCurves)
    requires QuatAligned(c)
    ensures MapRotationKeys(RewriteRotation(flipZ, c), Unfix(flipZ)) == RebuiltQuat(c)
  {
    var r1 := RewriteRotation(flipZ, c);
    var r2 := MapRotationKeys(r1, Unfix(flipZ));
    var b := RebuiltQuat(c);
    forall i | 0 <= i < |c.x|
      ensures r2.x[i] == b.x[i] && r2.y[i] == b.y[i] && r2.z[i] == b.z[i] && r2.w[i] == b.w[i]
    {
      forall p ensures QuatAt(r2, i, p) == QuatAt(c, i, p) {
        AnimRotationRoundTrip(flipZ, QuatAt(c, i, p));
      }
      KeyframeExt(r2.x[i], b.x[i]);
      KeyframeExt(r2.y[i], b.y[i]);
      KeyframeExt(r2.z[i], b.z[i]);
      KeyframeExt(r2.w[i], b.w[i]);
    }
    assert r2.x == b.x && r2.y == b.y && r2.z == b.z && r2.w == b.w;
  }
}

=== FILE: asset_user_data.dfy ===
/** The per-asset configuration store: a string-keyed map of boxed values with a
    dirty flag, persisted as the importer's user-data string. The JSON text format
    is a pair of parameters (`encode`, `decode`); only the bookkeeping and the
    reader's three outcomes are modelled. */
module UserData {
  import opened Results
  import Text

  /** The value kinds the store holds, each read back at its own kind. */
  datatype Value =
    | BoolValue(b: bool)
    | IntValue(i: int)
    | FloatValue(f: real)
    | StringValue(s: string)

  /** A boxed object: `ref` is its reference identity, `value` its content. */
  datatype Boxed = Boxed(ref: nat, value: Value)

  datatype AssetUserData = AssetUserData(data: map<string, Boxed>, isDirty: bool)

  /** What the JSON reader makes of a non-blank text: a key-value map, the literal
      `null`, or nothing, when the text is not JSON it can read as a map. */
  datatype Decoded = Decoded(data: map<string, Boxed>) | DecodedNull | Malformed

  /** Why reading the stored settings raised: the reader rejected the text, or the
      text was `null`. A store read from `null` has no dictionary, so the first
      lookup or write on it raises; the model raises when the store is read, and
      every caller reads or writes the store before anything else happens. */
  datatype DecodeError = MalformedText | NullData

  /** A cross-kind read, which the source hands to `System.Convert`. */
  datatype ReadError = ConversionNotModelled(key: string)

  /** The property kinds of a serialized editor property. */
  datatype PropertyKind = Boolean | Integer | Float | String | Unsupported(kindName: string)

  /** A serialized editor property: its name, kind and the field matching that kind. */
  datatype SerializedProperty = SerializedProperty(
    name: string,
    kind: PropertyKind,
    boolValue: bool,
    intValue: int,
    floatValue: real,
    stringValue: string)

  /** `NotImplementedException` for a property kind the store cannot hold. */
  datatype PropertyError = NotImplemented(name: string, kind: PropertyKind)

  /** The result of writing the store back to its importer. */
  datatype Applied = Applied(written: bool, store: AssetUserData, importerUserData: Option<string>)

  /** A freshly constructed store. */
  function New(): (u: AssetUserData)
    ensures |u.data| == 0 && !u.isDirty
  {
    AssetUserData(map[], false)
  }

  predicate ContainsKey(u: AssetUserData, key: string) {
    key in u.data
  }

  function GetBool(u: AssetUserData, key: string, fallback: bool): (r: Result<bool, ReadError>)
    ensures key !in u.data ==> r == Ok(fallback)
    ensures key in u.data ==> (r.Ok? <==> u.data[key].value.BoolValue?)
    ensures r.Ok? && key in u.data ==> r.value == u.data[key].value.b
  {
    if key !in u.data then Ok(fallback)
    else match u.data[key].value
      case BoolValue(b) => Ok(b)
      case _ => Err(ConversionNotModelled(key))
  }

  function GetInt(u: AssetUserData, key: string, fallback: int): (r: Result<int, ReadError>)
    ensures key !in u.data ==> r == Ok(fallback)
    ensures key in u.data ==> (r.Ok? <==> u.data[key].value.IntValue?)
    ensures r.Ok? && key in u.data ==> r.value == u.data[key].value.i
  {
    if key !in u.data then Ok(fallback)
    else match u.data[key].value
      case IntValue(i) => Ok(i)
      case _ => Err(ConversionNotModelled(key))
  }

  function GetFloat(u: AssetUserData, key: string, fallback: real): (r: Result<real, ReadError>)
    ensures key !in u.data ==> r == Ok(fallback)
    ensures key in u.data ==> (r.Ok? <==> u.data[key].value.FloatValue?)
    ensures r.Ok? && key in u.data ==> r.value == u.data[key].value.f
  {
    if key !in u.data then Ok(fallback)
    else match u.data[key].value
      case FloatValue(f) => Ok(f)
      case _ => Err(ConversionNotModelled(key))
  }

  function GetString(u: AssetUserData, key: string, fallback: string): (r: Result<string, ReadError>)
    ensures key !in u.data ==> r == Ok(fallback)
    ensures key in u.data ==> (r.Ok? <==> u.data[key].value.StringValue?)
    ensures r.Ok? && key in u.data ==> r.value == u.data[key].value.s
  {
    if key !in u.data then Ok(fallback)
    else match u.data[key].value
      case StringValue(s) => Ok(s)
      case _ => Err(ConversionNotModelled(key))
  }

  /** Store `v` under `key`, unless `key` already holds that very object. */
  function SetValue(u: AssetUserData, key: string, v: Boxed): (r: AssetUserData)
    ensures key in r.data && r.data[key].ref == v.ref
    ensures r.data[key] == v || (key in u.data && r.data[key] == u.data[key])
    ensures forall k :: k != key ==> (k in r.data <==> k in u.data)
    ensures forall k :: k != key && k in u.data ==> r.data[k] == u.data[k]
    ensures r.isDirty <==> u.isDirty || key !in u.data || u.data[key].ref != v.ref
    ensures key in u.data && u.data[key].ref == v.ref ==> r == u
  {
    if key in u.data && u.data[key].ref == v.ref then u
    else AssetUserData(u.data[key := v], true)
  }

  /** The boxed content of a property, by its kind. */
  function GetPropertyValue(p: SerializedProperty): (r: Result<Value, PropertyError>)
    ensures r.Ok? <==> !p.kind.Unsupported?
    ensures r.Ok? ==> match p.kind
      case Boolean => r.value == BoolValue(p.boolValue)
      case Integer => r.value == IntValue(p.intValue)
      case Float => r.value == FloatValue(p.floatValue)
      case String => r.value == StringValue(p.stringValue)
      case Unsupported(_) => false
  {
    match p.kind
    case Boolean => Ok(BoolValue(p.boolValue))
    case Integer => Ok(IntValue(p.intValue))
    case Float => Ok(FloatValue(p.floatValue))
    case String => Ok(StringValue(p.stringValue))
    case Unsupported(_) => Err(NotImplemented(p.name, p.kind))
  }

  /** `newRef` is the reference of a newly boxed object, so no stored box has it. */
  predicate FreshRef(u: AssetUserData, newRef: nat) {
    forall k :: k in u.data ==> u.data[k].ref != newRef
  }

  /** `SetValue(SerializedProperty)`: boxes the property's value afresh and stores it. */
  function SetValueFromProperty(u: AssetUserData, p: SerializedProperty, newRef: nat): (r: Result<AssetUserData, PropertyError>)
    requires FreshRef(u, newRef)
    ensures r.Ok? <==> !p.kind.Unsupported?
    ensures r.Ok? ==> r.value.isDirty && p.name in r.value.data && r.value.data[p.name].ref == newRef
    ensures r.Ok? ==> GetPropertyValue(p) == Ok(r.value.data[p.name].value)
    ensures r.Ok? ==> forall k :: k != p.name ==> (k in r.value.data <==> k in u.data)
    ensures r.Ok? ==> forall k :: k != p.name && k in u.data ==> r.value.data[k] == u.data[k]
  {
    var v :- GetPropertyValue(p);
    Ok(SetValue(u, p.name, Boxed(newRef, v)))
  }

  /** `Serialize`: the text of the data, and the store marked clean. */
  function Serialize(u: AssetUserData, encode: map<string, Boxed> -> string): (r: (string, AssetUserData))
    ensures r.1.data == u.data && !r.1.isDirty
    ensures r.0 == encode(u.data)
  {
    (encode(u.data), AssetUserData(u.data, false))
  }

  /** `ApplyModified`: writes the serialized store to the importer only when dirty. */
  function ApplyModified(u: AssetUserData, importerUserData: Option<string>, encode: map<string, Boxed> -> string): (r: Applied)
    ensures r.written <==> u.isDirty
    ensures !u.isDirty ==> r.store == u && r.importerUserData == importerUserData
    ensures u.isDirty ==> r.importerUserData == Some(encode(u.data))
    ensures r.store.data == u.data && !r.store.isDirty
  {
    if !u.isDirty then Applied(false, u, importerUserData)
    else
      var (text, clean) := Serialize(u, encode);
      Applied(true, clean, Some(text))
  }

  /** `Deserialize`: a null or blank string gives an empty store; anything else is
      handed to the reader, and only a map makes a usable store. */
  function Deserialize(s: Option<string>, decode: string -> Decoded): (r: Result<AssetUserData, DecodeError>)
    ensures Text.IsNullOrWhiteSpace(s) ==> r == Ok(New())
    ensures !Text.IsNullOrWhiteSpace(s) ==>
      match decode(s.value)
      case Decoded(data) => r == Ok(AssetUserData(data, false))
      case DecodedNull => r == Err(NullData)
      case Malformed => r == Err(MalformedText)
  {
    if Text.IsNullOrWhiteSpace(s) then Ok(New())
    else match decode(s.value)
      case Decoded(data) => Ok(AssetUserData(data, false))
      case DecodedNull => Err(NullData)
      case Malformed => Err(MalformedText)
  }

  /** Get after set: a value stored from a property reads back at its own kind. */
  lemma PropertyReadBack(u: AssetUserData, p: SerializedProperty, newRef: nat)
    requires FreshRef(u, newRef)
    requires !p.kind.Unsupported?
    ensures SetValueFromProperty(u, p, newRef).Ok?
    ensures var w := SetValueFromProperty(u, p, newRef).value;
      match p.kind
      case Boolean => GetBool(w, p.name, !p.boolValue) == Ok(p.boolValue)
      case Integer => GetInt(w, p.name, p.intValue + 1) == Ok(p.intValue)
      case Float => GetFloat(w, p.name, p.floatValue + 1.0) == Ok(p.floatValue)
      case String => GetString(w, p.name, p.stringValue + "?") == Ok(p.stringValue)
      case Unsupported(_) => false
  {
  }

  /** A write leaves every other key's presence, stored box and reading unchanged. */
  lemma SetValueFrame(u: AssetUserData, key: string, v: Boxed, other: string, fallback: bool)
    requires other != key
    ensures ContainsKey(SetValue(u, key, v), other) == ContainsKey(u, other)
    ensures other in u.data ==> SetValue(u, key, v).data[other] == u.data[other]
    ensures GetBool(SetValue(u, key, v), other, fallback) == GetBool(u, other, fallback)
  {
  }

  /** Because a property's value is boxed afresh, storing it always marks the store
      dirty, even when the stored content is already equal. */
  lemma PropertyWriteAlwaysDirties(u: AssetUserData, p: SerializedProperty, newRef: nat)
    requires FreshRef(u, newRef) && !p.kind.Unsupported?
    requires p.name in u.data && Ok(u.data[p.name].value) == GetPropertyValue(p)
    ensures SetValueFromProperty(u, p, newRef).Ok? && SetValueFromProperty(u, p, newRef).value.isDirty
  {
  }

  /** Applying twice writes once: the first application leaves the store clean. */
  lemma ApplyModifiedOnce(u: AssetUserData, text: Option<string>, encode: map<string, Boxed> -> string)
    ensures var first := ApplyModified(u, text, encode);
      !ApplyModified(first.store, first.importerUserData, encode).written
  {
  }

  /** Persisting a dirty store and reading it back restores its data, for a codec
      whose decoding inverts its encoding and whose output is never blank. */
  lemma PersistRoundTrip(u: AssetUserData, text: Option<string>,
                         encode: map<string, Boxed> -> string, decode: string -> Decoded)
    requires u.isDirty
    requires decode(encode(u.data)) == Decoded(u.data)
    requires !Text.AllWhiteSpace(encode(u.data))
    ensures Deserialize(ApplyModified(u, text, encode).importerUserData, decode) == Ok(AssetUserData(u.data, false))
  {
  }
}

=== FILE: bind_poses.dfy ===
/** The bind-pose fix of the model post-processor: every skinned renderer's shared
    mesh has its bind poses right-multiplied, entry by entry, by the inverse of the
    modification of the bone at the same index. Each mesh is fixed once, by the
    first renderer that uses it. */
module BindPoses {
  import opened Results
  import opened SceneGraph
  import Lists

  /** A null shared mesh, a bone index past the renderer's bone array, or a bone
      without a modification entry. */
  datatype BindPoseError =
    | NullSharedMesh
    | BoneOutOfRange(index: nat)
    | MissingDelta(index: nat, bone: NodeId)

  /** Bind pose `i` can be fixed: bone `i` exists and has a modification. */
  predicate BoneResolves<M>(bones: seq<NodeId>, deltas: map<NodeId, M>, i: nat) {
    i < |bones| && bones[i] in deltas
  }

  /** The first index in `i .. n` whose bone does not resolve. */
  function FirstUnresolved<M>(bones: seq<NodeId>, deltas: map<NodeId, M>, i: nat, n: nat): (r: Option<nat>)
    requires i <= n
    ensures r.None? <==> forall k :: i <= k < n ==> BoneResolves(bones, deltas, k)
    ensures r.Some? ==> i <= r.value < n && !BoneResolves(bones, deltas, r.value)
    ensures r.Some? ==> forall k :: i <= k < r.value ==> BoneResolves(bones, deltas, k)
    decreases n - i
  {
    if i == n then None
    else if !BoneResolves(bones, deltas, i) then Some(i)
    else FirstUnresolved(bones, deltas, i + 1, n)
  }

  /** The exception the loop raises at an unresolved index. */
  function BoneError<M>(bones: seq<NodeId>, deltas: map<NodeId, M>, i: nat): BindPoseError {
    if i >= |bones| then BoneOutOfRange(i) else MissingDelta(i, bones[i])
  }

  /** The bind-pose loop over one mesh: entry `i` becomes `poses[i] * inverse(delta)`
      for the modification of bone `i`; the first bone that does not resolve raises
      and nothing is written. */
  function FixPoses<M>(alg: MatrixAlgebra<M>, poses: seq<M>, bones: seq<NodeId>, deltas: map<NodeId, M>): (r: Result<seq<M>, BindPoseError>)
    ensures r.Ok? <==> forall i :: 0 <= i < |poses| ==> BoneResolves(bones, deltas, i)
    ensures r.Ok? ==> |r.value| == |poses|
    ensures r.Ok? ==> forall i :: 0 <= i < |poses| ==>
      BoneResolves(bones, deltas, i) && r.value[i] == alg.mul(poses[i], alg.inverse(deltas[bones[i]]))
    ensures r.Err? ==> !r.error.NullSharedMesh? && r.error.index < |poses|
    ensures r.Err? ==> !BoneResolves(bones, deltas, r.error.index)
    ensures r.Err? ==> forall k :: 0 <= k < r.error.index ==> BoneResolves(bones, deltas, k)
    ensures r.Err? ==> (r.error.BoneOutOfRange? <==> r.error.index >= |bones|)
  {
    var bad := FirstUnresolved(bones, deltas, 0, |poses|);
    if bad.Some? then Err(BoneError(bones, deltas, bad.value))
    else
      assert forall i :: 0 <= i < |poses| ==> BoneResolves(bones, deltas, i);
      var fixedPoses := seq(|poses|, i requires 0 <= i < |poses| =>
        if BoneResolves(bones, deltas, i) then alg.mul(poses[i], alg.inverse(deltas[bones[i]])) else poses[i]);
      Ok(fixedPoses)
  }

  /** Associativity, a right identity and left inverses of the matrix product. */
  ghost predicate GroupLaws<M(!new)>(alg: MatrixAlgebra<M>, id: M) {
    && (forall a, b, c :: alg.mul(alg.mul(a, b), c) == alg.mul(a, alg.mul(b, c)))
    && (forall a :: alg.mul(a, id) == a)
    && (forall a :: alg.mul(alg.inverse(a), a) == id)
  }

  /** Multiplying a fixed bind pose back by its bone's modification restores it: the
      fix removes exactly the bone's change. */
  lemma FixPosesUndo<M(!new)>(alg: MatrixAlgebra<M>, id: M, poses: seq<M>, bones: seq<NodeId>, deltas: map<NodeId, M>, i: nat)
    requires GroupLaws(alg, id)
    requires FixPoses(alg, poses, bones, deltas).Ok? && i < |poses|
    ensures i < |bones| && bones[i] in deltas
    ensures alg.mul(FixPoses(alg, poses, bones, deltas).value[i], deltas[bones[i]]) == poses[i]
  {
    var d := deltas[bones[i]];
    calc {
      alg.mul(alg.mul(poses[i], alg.inverse(d)), d);
      alg.mul(poses[i], alg.mul(alg.inverse(d), d));
      alg.mul(poses[i], id);
    }
  }

  /** The mesh with its bind poses fixed for the given bones. */
  function FixedMesh<M>(alg: MatrixAlgebra<M>, m: MeshData<M>, bones: seq<NodeId>, deltas: map<NodeId, M>): MeshData<M>
    requires FixPoses(alg, m.bindposes, bones, deltas).Ok?
  {
    m.(bindposes := FixPoses(alg, m.bindposes, bones, deltas).value)
  }

  /** The meshes of a scene, by identity. */
  type MeshStore<M> = map<MeshId, MeshData<M>>

  /** Every non-null mesh of the renderers is in the store. */
  predicate RenderersInStore<M>(meshes: MeshStore<M>, renderers: seq<Component>) {
    forall i :: 0 <= i < |renderers| ==>
      renderers[i].SkinnedMeshRenderer? && (renderers[i].skinnedMesh.Some? ==> renderers[i].skinnedMesh.value in meshes)
  }

  /** `ApplyBindPoseFix` for one renderer. A mesh already in the fixed list is left
      alone; otherwise it joins the list and, when it is not null, its bind poses are
      fixed with the renderer's bones. */
  function ApplyBindPoseFix<M>(alg: MatrixAlgebra<M>, meshes: MeshStore<M>, smr: Component,
                               deltas: map<NodeId, M>, fixedList: seq<Option<MeshId>>)
    : (r: Result<(MeshStore<M>, seq<Option<MeshId>>), BindPoseError>)
    requires smr.SkinnedMeshRenderer? && (smr.skinnedMesh.Some? ==> smr.skinnedMesh.value in meshes)
    ensures smr.skinnedMesh in fixedList ==> r == Ok((meshes, fixedList))
    ensures smr.skinnedMesh !in fixedList ==>
      (r.Ok? <==> smr.skinnedMesh.Some? && FixPoses(alg, meshes[smr.skinnedMesh.value].bindposes, smr.bones, deltas).Ok?)
    ensures smr.skinnedMesh !in fixedList && smr.skinnedMesh.None? ==> r == Err(NullSharedMesh)
    ensures smr.skinnedMesh !in fixedList && smr.skinnedMesh.Some? && r.Err? ==>
      r.error == FixPoses(alg, meshes[smr.skinnedMesh.value].bindposes, smr.bones, deltas).error
    ensures smr.skinnedMesh !in fixedList && r.Ok? ==>
      var m := smr.skinnedMesh.value;
      && r.value.1 == fixedList + [smr.skinnedMesh]
      && r.value.0 == meshes[m := FixedMesh(alg, meshes[m], smr.bones, deltas)]
  {
    if smr.skinnedMesh in fixedList then Ok((meshes, fixedList))
    else
      match smr.skinnedMesh
      case None => Err(NullSharedMesh)
      case Some(m) =>
        var poses :- FixPoses(alg, meshes[m].bindposes, smr.bones, deltas);
        Ok((meshes[m := meshes[m].(bindposes := poses)], fixedList + [smr.skinnedMesh]))
  }

  /** Calling the fix again for a renderer whose mesh was fixed changes nothing. */
  lemma ApplyBindPoseFixOnce<M>(alg: MatrixAlgebra<M>, meshes: MeshStore<M>, smr: Component,
                                deltas: map<NodeId, M>, fixedList: seq<Option<MeshId>>)
    requires smr.SkinnedMeshRenderer? && (smr.skinnedMesh.Some? ==> smr.skinnedMesh.value in meshes)
    requires ApplyBindPoseFix(alg, meshes, smr, deltas, fixedList).Ok?
    ensures var (once, list) := ApplyBindPoseFix(alg, meshes, smr, deltas, fixedList).value;
      ApplyBindPoseFix(alg, once, smr, deltas, list) == Ok((once, list))
  {
  }

  /** Mesh `m` after the pass over the first `k` renderers: fixed with the bones of
      the first renderer that uses it, if one among them does, and as it was
      otherwise. */
  ghost predicate MeshFixedUpTo<M>(alg: MatrixAlgebra<M>, meshes: MeshStore<M>, renderers: seq<Component>,
                                   deltas: map<NodeId, M>, k: nat, out: MeshStore<M>, m: MeshId)
    requires RenderersInStore(meshes, renderers) && k <= |renderers| && m in meshes && m in out
  {
    var ms := SkinnedMeshes(renderers);
    if Some(m) in ms[..k] then
      var first := renderers[Lists.FirstIndex(ms, Some(m))];
      FixPoses(alg, meshes[m].bindposes, first.bones, deltas).Ok? &&
      out[m] == FixedMesh(alg, meshes[m], first.bones, deltas)
    else out[m] == meshes[m]
  }

  /** The result of the pass for the meshes of the first `k` renderers. */
  ghost predicate FixedUpTo<M>(alg: MatrixAlgebra<M>, meshes: MeshStore<M>, renderers: seq<Component>,
                               deltas: map<NodeId, M>, k: nat, out: MeshStore<M>)
    requires RenderersInStore(meshes, renderers) && k <= |renderers|
  {
    && out.Keys == meshes.Keys
    && forall m :: m in meshes ==> MeshFixedUpTo(alg, meshes, renderers, deltas, k, out, m)
  }

  /** One renderer of the loop: a success extends the fixed prefix by one renderer. */
  lemma FixedUpToStep<M>(alg: MatrixAlgebra<M>, meshes: MeshStore<M>, renderers: seq<Component>,
                         deltas: map<NodeId, M>, k: nat, out: MeshStore<M>, fixedList: seq<Option<MeshId>>)
    requires RenderersInStore(meshes, renderers) && k < |renderers|
    requires FixedUpTo(alg, meshes, renderers, deltas, k, out)
    requires fixedList == Lists.AppendNew([], SkinnedMeshes(renderers)[..k])
    requires ApplyBindPoseFix(alg, out, renderers[k], deltas, fixedList).Ok?
    ensures FixedUpTo(alg, meshes, renderers, deltas, k + 1, ApplyBindPoseFix(alg, out, renderers[k], deltas, fixedList).value.0)
    ensures ApplyBindPoseFix(alg, out, renderers[k], deltas, fixedList).value.1 ==
      Lists.AppendNew([], SkinnedMeshes(renderers)[..k + 1])
  {
    var ms := SkinnedMeshes(renderers);
    FixedListStep(alg, out, renderers, deltas, k, fixedList);
    if ms[k] in ms[..k] {
      StepAlreadyFixed(alg, meshes, renderers, deltas, k, out, fixedList);
    } else {
      StepNewMesh(alg, meshes, renderers, deltas, k, out, fixedList);
    }
  }

  /** The fixed list after renderer `k` is the first-seen list of the first `k + 1`
      renderers' meshes. */
  lemma FixedListStep<M>(alg: MatrixAlgebra<M>, out: MeshStore<M>, renderers: seq<Component>,
                         deltas: map<NodeId, M>, k: nat, fixedList: seq<Option<MeshId>>)
    requires RenderersInStore(out, renderers) && k < |renderers|
    requires fixedList == Lists.AppendNew([], SkinnedMeshes(renderers)[..k])
    requires ApplyBindPoseFix(alg, out, renderers[k], deltas, fixedList).Ok?
    ensures ApplyBindPoseFix(alg, out, renderers[k], deltas, fixedList).value.1 ==
      Lists.AppendNew([], SkinnedMeshes(renderers)[..k + 1])
  {
    var ms := SkinnedMeshes(renderers);
    assert ms[k] == renderers[k].skinnedMesh;
    Lists.AppendNewPrefixStep(ms, k);
  }

  lemma StepAlreadyFixed<M>(alg: MatrixAlgebra<M>, meshes: MeshStore<M>, renderers: seq<Component>,
                            deltas: map<NodeId, M>, k: nat, out: MeshStore<M>, fixedList: seq<Option<MeshId>>)
    requires RenderersInStore(meshes, renderers) && k < |renderers|
    requires FixedUpTo(alg, meshes, renderers, deltas, k, out)
    requires fixedList == Lists.AppendNew([], SkinnedMeshes(renderers)[..k])
    requires SkinnedMeshes(renderers)[k] in SkinnedMeshes(renderers)[..k]
    requires ApplyBindPoseFix(alg, out, renderers[k], deltas, fixedList).Ok?
    ensures FixedUpTo(alg, meshes, renderers, deltas, k + 1, ApplyBindPoseFix(alg, out, renderers[k], deltas, fixedList).value.0)
  {
    var ms := SkinnedMeshes(renderers);
    assert ms[k] == renderers[k].skinnedMesh && ms[k] in fixedList;
    StepKeepsFixed(alg, meshes, renderers, deltas, k, out);
  }

  lemma StepKeepsFixed<M>(alg: MatrixAlgebra<M>, meshes: MeshStore<M>, renderers: seq<Component>,
                          deltas: map<NodeId, M>, k: nat, out: MeshStore<M>)
    requires RenderersInStore(meshes, renderers) && k < |renderers|
    requires FixedUpTo(alg, meshes, renderers, deltas, k, out)
    requires SkinnedMeshes(renderers)[k] in SkinnedMeshes(renderers)[..k]
    ensures FixedUpTo(alg, meshes, renderers, deltas, k + 1, out)
  {
    forall m | m in meshes ensures MeshFixedUpTo(alg, meshes, renderers, deltas, k + 1, out, m) {
      KeptMeshStep(alg, meshes, renderers, deltas, k, out, m);
    }
  }

  lemma KeptMeshStep<M>(alg: MatrixAlgebra<M>, meshes: MeshStore<M>, renderers: seq<Component>,
                        deltas: map<NodeId, M>, k: nat, out: MeshStore<M>, m: MeshId)
    requires RenderersInStore(meshes, renderers) && k < |renderers| && m in meshes && m in out
    requires MeshFixedUpTo(alg, meshes, renderers, deltas, k, out, m)
    requires SkinnedMeshes(renderers)[k] in SkinnedMeshes(renderers)[..k]
    ensures MeshFixedUpTo(alg, meshes, renderers, deltas, k + 1, out, m)
  {
    var ms := SkinnedMeshes(renderers);
    Lists.PrefixStep(ms, k);
    assert (Some(m) in ms[..k + 1]) == (Some(m) in ms[..k]);
  }

  lemma StepNewMesh<M>(alg: MatrixAlgebra<M>, meshes: MeshStore<M>, renderers: seq<Component>,
                       deltas: map<NodeId, M>, k: nat, out: MeshStore<M>, fixedList: seq<Option<MeshId>>)
    requires RenderersInStore(meshes, renderers) && k < |renderers|
    requires FixedUpTo(alg, meshes, renderers, deltas, k, out)
    requires fixedList == Lists.AppendNew([], SkinnedMeshes(renderers)[..k])
    requires SkinnedMeshes(renderers)[k] !in SkinnedMeshes(renderers)[..k]
    requires ApplyBindPoseFix(alg, out, renderers[k], deltas, fixedList).Ok?
    ensures FixedUpTo(alg, meshes, renderers, deltas, k + 1, ApplyBindPoseFix(alg, out, renderers[k], deltas, fixedList).value.0)
  {
    var ms := SkinnedMeshes(renderers);
    var smr := renderers[k];
    assert ms[k] == smr.skinnedMesh && ms[k] !in fixedList;
    var m0 := ms[k].value;
    StepNewMeshCore(alg, meshes, renderers, deltas, k, out, m0);
  }

  lemma StepNewMeshCore<M>(alg: MatrixAlgebra<M>, meshes: MeshStore<M>, renderers: seq<Component>,
                           deltas: map<NodeId, M>, k: nat, out: MeshStore<M>, m0: MeshId)
    requires RenderersInStore(meshes, renderers) && k < |renderers|
    requires FixedUpTo(alg, meshes, renderers, deltas, k, out)
    requires SkinnedMeshes(renderers)[k] == Some(m0) && Some(m0) !in SkinnedMeshes(renderers)[..k]
    requires FixPoses(alg, out[m0].bindposes, renderers[k].bones, deltas).Ok?
    ensures FixedUpTo(alg, meshes, renderers, deltas, k + 1, out[m0 := FixedMesh(alg, out[m0], renderers[k].bones, deltas)])
  {
    var next := out[m0 := FixedMesh(alg, out[m0], renderers[k].bones, deltas)];
    assert m0 in meshes && m0 in out;
    assert next.Keys == meshes.Keys;
    forall m | m in meshes ensures MeshFixedUpTo(alg, meshes, renderers, deltas, k + 1, next, m) {
      assert MeshFixedUpTo(alg, meshes, renderers, deltas, k, out, m);
      if m == m0 {
        NewMeshFixed(alg, meshes, renderers, deltas, k, out, m0);
      } else {
        OtherMeshKept(alg, meshes, renderers, deltas, k, out, next, m, m0);
      }
    }
  }

  lemma OtherMeshKept<M>(alg: MatrixAlgebra<M>, meshes: MeshStore<M>, renderers: seq<Component>,
                         deltas: map<NodeId, M>, k: nat, out: MeshStore<M>, next: MeshStore<M>, m: MeshId, m0: MeshId)
    requires RenderersInStore(meshes, renderers) && k < |renderers|
    requires m in meshes && m in out && m in next && next[m] == out[m]
    requires MeshFixedUpTo(alg, meshes, renderers, deltas, k, out, m)
    requires SkinnedMeshes(renderers)[k] == Some(m0) && m != m0
    ensures MeshFixedUpTo(alg, meshes, renderers, deltas, k + 1, next, m)
  {
    var ms := SkinnedMeshes(renderers);
    Lists.PrefixStep(ms, k);
    assert (Some(m) in ms[..k + 1]) == (Some(m) in ms[..k]);
  }

  lemma NewMeshFixed<M>(alg: MatrixAlgebra<M>, meshes: MeshStore<M>, renderers: seq<Component>,
                        deltas: map<NodeId, M>, k: nat, out: MeshStore<M>, m0: MeshId)
    requires RenderersInStore(meshes, renderers) && k < |renderers|
    requires m0 in meshes && m0 in out && out[m0] == meshes[m0]
    requires SkinnedMeshes(renderers)[k] == Some(m0) && Some(m0) !in SkinnedMeshes(renderers)[..k]
    requires FixPoses(alg, out[m0].bindposes, renderers[k].bones, deltas).Ok?
    ensures var next := out[m0 := FixedMesh(alg, out[m0], renderers[k].bones, deltas)];
      MeshFixedUpTo(alg, meshes, renderers, deltas, k + 1, next, m0)
  {
    var ms := SkinnedMeshes(renderers);
    FirstIndexOfNew(renderers, k, m0);
    assert Some(m0) in ms[..k + 1] by {
      assert ms[..k + 1][k] == Some(m0);
    }
  }

  lemma FirstIndexOfNew(renderers: seq<Component>, k: nat, m0: MeshId)
    requires (forall c :: c in renderers ==> c.SkinnedMeshRenderer?) && k < |renderers|
    requires SkinnedMeshes(renderers)[k] == Some(m0) && Some(m0) !in SkinnedMeshes(renderers)[..k]
    ensures Lists.FirstIndex(SkinnedMeshes(renderers), Some(m0)) == k
  {
    var ms := SkinnedMeshes(renderers);
    Lists.FirstIndexOfPrefix(ms, k + 1, Some(m0));
    assert ms[..k + 1][..k] == ms[..k];
  }

  /** Renderer `k` raises `failure` when its turn comes: its mesh was not fixed by an
      earlier renderer, and the mesh is null or its bind poses do not resolve. */
  ghost predicate RendererRaises<M>(alg: MatrixAlgebra<M>, meshes: MeshStore<M>, renderers: seq<Component>,
                                    deltas: map<NodeId, M>, k: nat, failure: BindPoseError)
    requires RenderersInStore(meshes, renderers) && k < |renderers|
  {
    var ms := SkinnedMeshes(renderers);
    && ms[k] !in ms[..k]
    && (ms[k].None? ==> failure == NullSharedMesh)
    && (ms[k].Some? ==>
          var e := FixPoses(alg, meshes[ms[k].value].bindposes, renderers[k].bones, deltas);
          e.Err? && failure == e.error)
  }

  /** One renderer of the loop: a failure comes from a mesh not fixed before, which
      is null or whose bind poses do not resolve, and it is still as it was. */
  lemma FixedUpToFailure<M>(alg: MatrixAlgebra<M>, meshes: MeshStore<M>, renderers: seq<Component>,
                            deltas: map<NodeId, M>, k: nat, out: MeshStore<M>, fixedList: seq<Option<MeshId>>)
    requires RenderersInStore(meshes, renderers) && k < |renderers|
    requires FixedUpTo(alg, meshes, renderers, deltas, k, out)
    requires fixedList == Lists.AppendNew([], SkinnedMeshes(renderers)[..k])
    requires ApplyBindPoseFix(alg, out, renderers[k], deltas, fixedList).Err?
    ensures var ms := SkinnedMeshes(renderers);
      var failure := ApplyBindPoseFix(alg, out, renderers[k], deltas, fixedList).error;
      && ms[k] !in ms[..k]
      && (ms[k].None? ==> failure == NullSharedMesh)
      && (ms[k].Some? ==>
            var e := FixPoses(alg, meshes[ms[k].value].bindposes, renderers[k].bones, deltas);
            e.Err? && failure == e.error)
  {
    var ms := SkinnedMeshes(renderers);
    assert ms[k] !in fixedList;
  }

  /** The bind-pose loop over the skinned renderers. It stops at the first renderer
      whose fix raises: `done` renderers were handled, and their meshes keep the fix. */
  method FixAllBindPoses<M>(alg: MatrixAlgebra<M>, meshes: MeshStore<M>, renderers: seq<Component>, deltas: map<NodeId, M>)
    returns (out: MeshStore<M>, fixedList: seq<Option<MeshId>>, failure: Option<BindPoseError>, done: nat)
    requires RenderersInStore(meshes, renderers)
    ensures done <= |renderers|
    ensures failure.None? <==> done == |renderers|
    ensures FixedUpTo(alg, meshes, renderers, deltas, done, out)
    ensures fixedList == Lists.AppendNew([], SkinnedMeshes(renderers)[..done])
    ensures failure.Some? ==>
      var ms := SkinnedMeshes(renderers);
      && ms[done] !in ms[..done]
      && (ms[done].None? ==> failure.value == NullSharedMesh)
      && (ms[done].Some? ==>
            var e := FixPoses(alg, meshes[ms[done].value].bindposes, renderers[done].bones, deltas);
            e.Err? && failure.value == e.error)
  {
    var ms := SkinnedMeshes(renderers);
    out := meshes;
    fixedList := [];
    done := 0;
    while done < |renderers|
      invariant done <= |renderers|
      invariant FixedUpTo(alg, meshes, renderers, deltas, done, out)
      invariant fixedList == Lists.AppendNew([], ms[..done])
    {
      var r := ApplyBindPoseFix(alg, out, renderers[done], deltas, fixedList);
      if r.Err? {
        FixedUpToFailure(alg, meshes, renderers, deltas, done, out, fixedList);
        failure := Some(r.error);
        return;
      }
      FixedUpToStep(alg, meshes, renderers, deltas, done, out, fixedList);
      out, fixedList := r.value.0, r.value.1;
      done := done + 1;
    }
    failure := None;
  }
}

=== FILE: fixes_extra_data.dfy ===
/** The importer's extra settings object and its initialisation from the
    configuration store: each serialized field is overridden only when the store
    holds a key of the same name. */
module FixesExtraData {
  import opened Results
  import opened UserData

  datatype BlenderFixesExtraData = BlenderFixesExtraData(
    applyAxisConversion: bool,
    flipZAxis: bool,
    fixLights: bool,
    lightIntensityFactor: real,
    lightRangeFactor: real)

  /** Field initialisers of the settings object (floats as their decimal literals). */
  const DEFAULTS: BlenderFixesExtraData := BlenderFixesExtraData(false, true, true, 0.01, 0.1)

  datatype InitError =
    | UnsupportedKind(cause: PropertyError)
    | ConversionFailed(read: ReadError)

  function BoolProperty(name: string, b: bool): SerializedProperty {
    SerializedProperty(name, Boolean, b, 0, 0.0, "")
  }

  function FloatProperty(name: string, f: real): SerializedProperty {
    SerializedProperty(name, Float, false, 0, f, "")
  }

  /** The declared fields of the settings, as serialized properties in declaration
      order. */
  function SettingsProperties(d: BlenderFixesExtraData): (ps: seq<SerializedProperty>)
    ensures |ps| == 5
  {
    [BoolProperty("applyAxisConversion", d.applyAxisConversion),
     BoolProperty("flipZAxis", d.flipZAxis),
     BoolProperty("fixLights", d.fixLights),
     FloatProperty("lightIntensityFactor", d.lightIntensityFactor),
     FloatProperty("lightRangeFactor", d.lightRangeFactor)]
  }

  /** The visible serialized view the inspector's `Apply` walks: the script reference
      first, then the declared fields. */
  function ToProperties(d: BlenderFixesExtraData, script: SerializedProperty): (ps: seq<SerializedProperty>)
    ensures |ps| == 6 && ps[0] == script && ps[1..] == SettingsProperties(d)
  {
    [script] + SettingsProperties(d)
  }

  /** The full serialized view `Initialize` walks: the engine's own properties of the
      object first (its hide flags, script reference, name and the rest, in the
      engine's order), then the declared fields. The engine's properties are a
      parameter, since the engine that lists them is not part of this model. */
  function AllProperties(d: BlenderFixesExtraData, hidden: seq<SerializedProperty>): (ps: seq<SerializedProperty>)
    ensures |ps| == |hidden| + 5 && ps[..|hidden|] == hidden && ps[|hidden|..] == SettingsProperties(d)
  {
    hidden + SettingsProperties(d)
  }

  /** The settings read from the last five properties of a view. */
  function FromProperties(ps: seq<SerializedProperty>): BlenderFixesExtraData
    requires |ps| >= 5
  {
    var n := |ps| - 5;
    BlenderFixesExtraData(ps[n].boolValue, ps[n + 1].boolValue, ps[n + 2].boolValue, ps[n + 3].floatValue, ps[n + 4].floatValue)
  }

  function KindOf(v: Value): PropertyKind {
    match v
    case BoolValue(_) => Boolean
    case IntValue(_) => Integer
    case FloatValue(_) => Float
    case StringValue(_) => String
  }

  /** `InitField`: when the store has the property's name, read the stored value with
      the getter of the property's kind; report whether the name was present. */
  function InitField(u: AssetUserData, p: SerializedProperty): (r: Result<(bool, SerializedProperty), InitError>)
    ensures !ContainsKey(u, p.name) ==> r == Ok((false, p))
    ensures ContainsKey(u, p.name) ==>
      (r.Ok? <==> !p.kind.Unsupported? && KindOf(u.data[p.name].value) == p.kind)
    ensures r.Ok? ==> (r.value.0 <==> ContainsKey(u, p.name))
    ensures r.Ok? ==> r.value.1.name == p.name && r.value.1.kind == p.kind
    ensures r.Ok? && ContainsKey(u, p.name) ==> GetPropertyValue(r.value.1) == Ok(u.data[p.name].value)
  {
    if !ContainsKey(u, p.name) then Ok((false, p))
    else match p.kind
      case Boolean =>
        (match GetBool(u, p.name, false)
         case Ok(b) => Ok((true, p.(boolValue := b)))
         case Err(e) => Err(ConversionFailed(e)))
      case Integer =>
        (match GetInt(u, p.name, 0)
         case Ok(i) => Ok((true, p.(intValue := i)))
         case Err(e) => Err(ConversionFailed(e)))
      case Float =>
        (match GetFloat(u, p.name, 0.0)
         case Ok(f) => Ok((true, p.(floatValue := f)))
         case Err(e) => Err(ConversionFailed(e)))
      case String =>
        (match GetString(u, p.name, "")
         case Ok(s) => Ok((true, p.(stringValue := s)))
         case Err(e) => Err(ConversionFailed(e)))
      case Unsupported(_) => Err(UnsupportedKind(NotImplemented(p.name, p.kind)))
  }

  /** `InitField` over the properties after the first, stopping at the first failure. */
  function InitFields(u: AssetUserData, ps: seq<SerializedProperty>): (r: Result<seq<SerializedProperty>, InitError>)
    ensures r.Ok? <==> forall i :: 0 <= i < |ps| ==> InitField(u, ps[i]).Ok?
    ensures r.Ok? ==> |r.value| == |ps|
    ensures r.Ok? ==> forall i :: 0 <= i < |ps| ==> r.value[i] == InitField(u, ps[i]).value.1
  {
    if |ps| == 0 then Ok([])
    else
      match InitField(u, ps[0])
      case Err(e) => Err(e)
      case Ok(first) =>
        match InitFields(u, ps[1..])
        case Err(e) => Err(e)
        case Ok(rest) => Ok([first.1] + rest)
  }

  /** `Initialize`: every property after the first is initialised from the store; on a
      failure nothing is applied to the object. */
  function Initialize(u: AssetUserData, ps: seq<SerializedProperty>): (r: Result<seq<SerializedProperty>, InitError>)
    ensures |ps| == 0 ==> r == Ok(ps)
    ensures r.Ok? ==> |r.value| == |ps|
    ensures r.Ok? && |ps| > 0 ==> r.value[0] == ps[0]
  {
    if |ps| == 0 then Ok(ps)
    else
      var rest :- InitFields(u, ps[1..]);
      Ok([ps[0]] + rest)
  }

  /** A field whose name is absent from the store keeps its value; a present one takes
      the stored value of its own kind. */
  lemma {:induction false} InitializeOverridesOnlyPresentKeys(u: AssetUserData, ps: seq<SerializedProperty>)
    requires Initialize(u, ps).Ok?
    ensures forall i :: 1 <= i < |ps| && !ContainsKey(u, ps[i].name) ==> Initialize(u, ps).value[i] == ps[i]
    ensures forall i :: 1 <= i < |ps| && ContainsKey(u, ps[i].name) ==>
      Initialize(u, ps).value[i].name == ps[i].name &&
      GetPropertyValue(Initialize(u, ps).value[i]) == Ok(u.data[ps[i].name].value)
  {
    forall i | 1 <= i < |ps|
      ensures Initialize(u, ps).value[i] == InitField(u, ps[i]).value.1
    {
      assert ps[1..][i - 1] == ps[i];
    }
  }

  /** Initialisation fails only on a property whose name the store holds: an
      unsupported kind is harmless while its key is absent. */
  lemma {:induction false} InitializeFailsOnlyOnPresentKeys(u: AssetUserData, ps: seq<SerializedProperty>)
    requires Initialize(u, ps).Err?
    ensures exists i :: 1 <= i < |ps| && ContainsKey(u, ps[i].name)
  {
    var i :| 0 <= i < |ps[1..]| && InitField(u, ps[1..][i]).Err?;
    assert ps[1..][i] == ps[i + 1];
  }

  /** Initialising the settings object from the store over its full view: every
      property after the first is initialised, the engine's own included, so a stored
      key named like one of those is read into it (or raises, for a kind the store
      cannot hold). Each setting takes its stored value when present and keeps its
      current value otherwise; with no engine property before them, the first
      setting is the skipped property and keeps its value. */
  function InitializeSettings(u: AssetUserData, d: BlenderFixesExtraData, hidden: seq<SerializedProperty>): (r: Result<BlenderFixesExtraData, InitError>)
    ensures r.Ok? <==> Initialize(u, AllProperties(d, hidden)).Ok?
    ensures r.Ok? ==> r.value == BlenderFixesExtraData(
      if |hidden| == 0 then d.applyAxisConversion else StoredBoolOr(u, "applyAxisConversion", d.applyAxisConversion),
      StoredBoolOr(u, "flipZAxis", d.flipZAxis),
      StoredBoolOr(u, "fixLights", d.fixLights),
      StoredRealOr(u, "lightIntensityFactor", d.lightIntensityFactor),
      StoredRealOr(u, "lightRangeFactor", d.lightRangeFactor))
  {
    var ps :- Initialize(u, AllProperties(d, hidden));
    SettingsRead(u, d, hidden);
    Ok(FromProperties(ps))
  }

  /** The five settings after a successful initialisation over the full view. */
  lemma SettingsRead(u: AssetUserData, d: BlenderFixesExtraData, hidden: seq<SerializedProperty>)
    requires Initialize(u, AllProperties(d, hidden)).Ok?
    ensures FromProperties(Initialize(u, AllProperties(d, hidden)).value) == BlenderFixesExtraData(
      if |hidden| == 0 then d.applyAxisConversion else StoredBoolOr(u, "applyAxisConversion", d.applyAxisConversion),
      StoredBoolOr(u, "flipZAxis", d.flipZAxis),
      StoredBoolOr(u, "fixLights", d.fixLights),
      StoredRealOr(u, "lightIntensityFactor", d.lightIntensityFactor),
      StoredRealOr(u, "lightRangeFactor", d.lightRangeFactor))
  {
    var props := AllProperties(d, hidden);
    var n := |hidden|;
    assert props[n..] == SettingsProperties(d);
    assert props[n] == BoolProperty("applyAxisConversion", d.applyAxisConversion) by { assert props[n..][0] == props[n]; }
    assert props[n + 1] == BoolProperty("flipZAxis", d.flipZAxis) by { assert props[n..][1] == props[n + 1]; }
    assert props[n + 2] == BoolProperty("fixLights", d.fixLights) by { assert props[n..][2] == props[n + 2]; }
    assert props[n + 3] == FloatProperty("lightIntensityFactor", d.lightIntensityFactor) by { assert props[n..][3] == props[n + 3]; }
    assert props[n + 4] == FloatProperty("lightRangeFactor", d.lightRangeFactor) by { assert props[n..][4] == props[n + 4]; }
    if n > 0 {
      BoolFieldRead(u, props, n, "applyAxisConversion", d.applyAxisConversion);
    }
    BoolFieldRead(u, props, n + 1, "flipZAxis", d.flipZAxis);
    BoolFieldRead(u, props, n + 2, "fixLights", d.fixLights);
    RealFieldRead(u, props, n + 3, "lightIntensityFactor", d.lightIntensityFactor);
    RealFieldRead(u, props, n + 4, "lightRangeFactor", d.lightRangeFactor);
  }

  /** A boolean property past the first reads its stored boolean, or keeps its value. */
  lemma BoolFieldRead(u: AssetUserData, props: seq<SerializedProperty>, i: nat, name: string, current: bool)
    requires Initialize(u, props).Ok? && 1 <= i < |props| && props[i] == BoolProperty(name, current)
    ensures Initialize(u, props).value[i].boolValue == StoredBoolOr(u, name, current)
  {
    InitializeOverridesOnlyPresentKeys(u, props);
    if name in u.data {
      InitializeFieldOk(u, props, i);
    }
  }

  /** A float property past the first reads its stored number, or keeps its value. */
  lemma RealFieldRead(u: AssetUserData, props: seq<SerializedProperty>, i: nat, name: string, current: real)
    requires Initialize(u, props).Ok? && 1 <= i < |props| && props[i] == FloatProperty(name, current)
    ensures Initialize(u, props).value[i].floatValue == StoredRealOr(u, name, current)
  {
    InitializeOverridesOnlyPresentKeys(u, props);
    if name in u.data {
      InitializeFieldOk(u, props, i);
    }
  }

  /** A successful initialisation initialised every property past the first. */
  lemma InitializeFieldOk(u: AssetUserData, props: seq<SerializedProperty>, i: nat)
    requires Initialize(u, props).Ok? && 1 <= i < |props|
    ensures InitField(u, props[i]).Ok? && Initialize(u, props).value[i] == InitField(u, props[i]).value.1
  {
    assert props[1..][i - 1] == props[i];
  }

  function StoredBoolOr(u: AssetUserData, key: string, current: bool): bool {
    if key in u.data && u.data[key].value.BoolValue? then u.data[key].value.b else current
  }

  function StoredRealOr(u: AssetUserData, key: string, current: real): real {
    if key in u.data && u.data[key].value.FloatValue? then u.data[key].value.f else current
  }

  /** No stored key is named like an engine property that `Initialize` reads. */
  predicate HiddenNamesFree(u: AssetUserData, hidden: seq<SerializedProperty>) {
    forall i :: 1 <= i < |hidden| ==> hidden[i].name !in u.data
  }

  /** With an empty store the settings keep their defaults; with `flipZAxis` stored
      as false, only that flag changes. */
  lemma InitializeFromStore(hidden: seq<SerializedProperty>, b: bool, r: nat)
    requires forall i :: 1 <= i < |hidden| ==> hidden[i].name != "flipZAxis"
    ensures InitializeSettings(New(), DEFAULTS, hidden) == Ok(DEFAULTS)
    ensures InitializeSettings(AssetUserData(map["flipZAxis" := Boxed(r, BoolValue(b))], false), DEFAULTS, hidden)
      == Ok(DEFAULTS.(flipZAxis := b))
  {
    var u := AssetUserData(map["flipZAxis" := Boxed(r, BoolValue(b))], false);
    var ps := AllProperties(DEFAULTS, hidden);
    InitializeSucceeds(New(), ps);
    InitializeSucceeds(u, ps);
  }

  /** Initialisation succeeds when every property after the first whose name is
      stored has a kind the store can hold and matches the stored value's kind. */
  lemma {:induction false} InitializeSucceeds(u: AssetUserData, ps: seq<SerializedProperty>)
    requires forall i :: 1 <= i < |ps| && ps[i].name in u.data ==>
      !ps[i].kind.Unsupported? && KindOf(u.data[ps[i].name].value) == ps[i].kind
    ensures Initialize(u, ps).Ok?
  {
    if |ps| > 0 {
      forall i | 0 <= i < |ps[1..]| ensures InitField(u, ps[1..][i]).Ok? {
        assert ps[1..][i] == ps[i + 1];
      }
    }
  }

  /** A stored key named like an engine property of a kind the store cannot hold
      (the script reference, say) makes initialisation raise. */
  lemma HiddenKeyRaises(u: AssetUserData, d: BlenderFixesExtraData, hidden: seq<SerializedProperty>, i: nat)
    requires 1 <= i < |hidden| && hidden[i].kind.Unsupported? && hidden[i].name in u.data
    ensures InitializeSettings(u, d, hidden).Err?
  {
    var ps := AllProperties(d, hidden);
    assert ps[i] == hidden[i];
    assert ps[1..][i - 1] == ps[i];
    assert InitField(u, ps[1..][i - 1]).Err?;
  }
}

=== FILE: gate.dfy ===
/** The decision whether a post-processor runs on an imported model: the file must
    come from Blender (a `.blend` path, or an exported file carrying the Blender
    exporter's signature) and the importer's stored settings must switch the fix
    on. The file's content is a parameter, with its read failure as an error. */
module Gate {
  import opened Results
  import Text
  import opened UserData

  /** `File.ReadAllText` failed for the asset's path. */
  datatype IoError = ReadFailed(path: string)

  const BLEND_EXTENSION: string := ".blend"
  const EXPORTER_SIGNATURE: string := "Blender (stable FBX IO)"

  /** The settings keys: the model post-processor's switch and flip flag, and the
      legacy post-processor's switch. */
  const APPLY_KEY: string := "applyAxisConversion"
  const FLIP_KEY: string := "flipZAxis"
  const LEGACY_APPLY_KEY: string := "applyBlenderAxisConversion"

  /** Why a gate raised: the file could not be read, the stored settings text could
      not be read as a map, or a stored setting is not a boolean. */
  datatype GateError = FileError(io: IoError) | StoreError(store: DecodeError) | SettingError(read: ReadError)

  /** What the model post-processor does: nothing, or the fix with a given flip. */
  datatype Decision = Skip | Apply(flipZ: bool)

  /** The stored setting under `key` is the boolean `b`. */
  predicate StoredIs(u: AssetUserData, key: string, b: bool) {
    key in u.data && u.data[key].value == BoolValue(b)
  }

  /** `IsModelValidForFix`: a `.blend` path (any letter case) is valid without
      reading the file; otherwise the file is read and must contain the exporter's
      signature. */
  function IsModelValidForFix(path: string, content: Result<string, IoError>): (r: Result<bool, IoError>)
    ensures Text.EndsWithIgnoreCase(path, BLEND_EXTENSION) ==> r == Ok(true)
    ensures !Text.EndsWithIgnoreCase(path, BLEND_EXTENSION) ==> (r.Err? <==> content.Err?)
    ensures r.Err? ==> r.error == content.error
    ensures r == Ok(true) <==>
      Text.EndsWithIgnoreCase(path, BLEND_EXTENSION) ||
      (content.Ok? && exists i :: Text.OccursAt(content.value, EXPORTER_SIGNATURE, i))
  {
    if Text.EndsWithIgnoreCase(path, BLEND_EXTENSION) then Ok(true)
    else match content
      case Err(e) => Err(e)
      case Ok(text) => Ok(Text.Contains(text, EXPORTER_SIGNATURE))
  }

  /** `ShouldApplyBlenderTransformFix` of the model post-processor followed by the
      read of the flip flag: a valid file whose stored switch is true runs the fix,
      with the stored flip flag or false when none is stored. The settings text is
      read only for a valid file. */
  function ModelGate(path: string, content: Result<string, IoError>, userData: Option<string>,
                     decode: string -> Decoded): (r: Result<Decision, GateError>)
    ensures var d := Deserialize(userData, decode);
      (r.Ok? && r.value.Apply?) <==>
        IsModelValidForFix(path, content) == Ok(true) && d.Ok? && StoredIs(d.value, APPLY_KEY, true) &&
        (FLIP_KEY in d.value.data ==> d.value.data[FLIP_KEY].value.BoolValue?)
    ensures var d := Deserialize(userData, decode);
      r.Ok? && r.value.Apply? ==> d.Ok? && (r.value.flipZ <==> StoredIs(d.value, FLIP_KEY, true))
    ensures var d := Deserialize(userData, decode);
      r == Ok(Skip) <==>
        IsModelValidForFix(path, content) == Ok(false) ||
        (IsModelValidForFix(path, content) == Ok(true) && d.Ok? &&
         (APPLY_KEY !in d.value.data || StoredIs(d.value, APPLY_KEY, false)))
    ensures IsModelValidForFix(path, content).Err? ==> r == Err(FileError(IsModelValidForFix(path, content).error))
    ensures var d := Deserialize(userData, decode);
      IsModelValidForFix(path, content) == Ok(true) && d.Err? ==> r == Err(StoreError(d.error))
  {
    match IsModelValidForFix(path, content)
    case Err(e) => Err(FileError(e))
    case Ok(valid) =>
      if !valid then Ok(Skip)
      else
        match Deserialize(userData, decode)
        case Err(e) => Err(StoreError(e))
        case Ok(u) =>
          match GetBool(u, APPLY_KEY, false)
          case Err(e) => Err(SettingError(e))
          case Ok(apply) =>
            if !apply then Ok(Skip)
            else
              match GetBool(u, FLIP_KEY, false)
              case Err(e) => Err(SettingError(e))
              case Ok(flipZ) => Ok(Apply(flipZ))
  }

  /** `ShouldApplyBlenderTransformFix` of the legacy post-processor: the same file
      test, then its own stored switch with fallback false. */
  function LegacyGate(path: string, content: Result<string, IoError>, userData: Option<string>,
                      decode: string -> Decoded): (r: Result<bool, GateError>)
    ensures var d := Deserialize(userData, decode);
      r == Ok(true) <==>
        IsModelValidForFix(path, content) == Ok(true) && d.Ok? && StoredIs(d.value, LEGACY_APPLY_KEY, true)
    ensures var d := Deserialize(userData, decode);
      r.Err? <==>
        IsModelValidForFix(path, content).Err? ||
        (IsModelValidForFix(path, content) == Ok(true) &&
         (d.Err? || (LEGACY_APPLY_KEY in d.value.data && !d.value.data[LEGACY_APPLY_KEY].value.BoolValue?)))
    ensures var d := Deserialize(userData, decode);
      IsModelValidForFix(path, content) == Ok(true) && d.Err? ==> r == Err(StoreError(d.error))
  {
    match IsModelValidForFix(path, content)
    case Err(e) => Err(FileError(e))
    case Ok(valid) =>
      if !valid then Ok(false)
      else
        match Deserialize(userData, decode)
        case Err(e) => Err(StoreError(e))
        case Ok(u) =>
          match GetBool(u, LEGACY_APPLY_KEY, false)
          case Err(e) => Err(SettingError(e))
          case Ok(apply) => Ok(apply)
  }

  /** Without stored settings neither post-processor runs: both switches fall back
      to false. */
  lemma NoSettingsNoFix(path: string, content: Result<string, IoError>, userData: Option<string>,
                        decode: string -> Decoded)
    requires Text.IsNullOrWhiteSpace(userData)
    ensures ModelGate(path, content, userData, decode) != Ok(Apply(false))
    ensures ModelGate(path, content, userData, decode) != Ok(Apply(true))
    ensures LegacyGate(path, content, userData, decode) != Ok(true)
  {
  }

  /** The two post-processors read different switches: a `.blend` file whose
      settings hold only the model switch, set to true, is fixed by the model
      post-processor without a flip and skipped by the legacy one. */
  lemma GatesReadDifferentKeys(path: string, content: Result<string, IoError>, text: string,
                               decode: string -> Decoded, ref: nat)
    requires Text.EndsWithIgnoreCase(path, BLEND_EXTENSION)
    requires !Text.AllWhiteSpace(text)
    requires decode(text) == Decoded(map[APPLY_KEY := Boxed(ref, BoolValue(true))])
    ensures ModelGate(path, content, Some(text), decode) == Ok(Apply(false))
    ensures LegacyGate(path, content, Some(text), decode) == Ok(false)
  {
    assert LEGACY_APPLY_KEY != APPLY_KEY by { assert LEGACY_APPLY_KEY[5] != APPLY_KEY[5]; }
    assert FLIP_KEY != APPLY_KEY by { assert FLIP_KEY[0] != APPLY_KEY[0]; }
  }

  /** On a valid file, a settings text the reader takes as `null` makes both gates
      raise, where a blank text switches both off. */
  lemma NullSettingsRaise(path: string, content: Result<string, IoError>, text: string, decode: string -> Decoded)
    requires IsModelValidForFix(path, content) == Ok(true)
    requires !Text.AllWhiteSpace(text) && decode(text) == DecodedNull
    ensures ModelGate(path, content, Some(text), decode) == Err(StoreError(NullData))
    ensures LegacyGate(path, content, Some(text), decode) == Err(StoreError(NullData))
  {
  }

  /** A `.blend` file is judged by its name alone; an exported file containing the
      signature is valid whatever precedes it. */
  lemma ValidityExamples(path: string, content: Result<string, IoError>, prefix: string)
    requires Text.EndsWithIgnoreCase(path, ".BLEND")
    ensures IsModelValidForFix(path, content) == Ok(true)
    ensures IsModelValidForFix("a.fbx", Ok(prefix + EXPORTER_SIGNATURE)) == Ok(true)
    ensures IsModelValidForFix("a.fbx", Err(ReadFailed("a.fbx"))).Err?
  {
    var s := prefix + EXPORTER_SIGNATURE;
    assert Text.EndsWithIgnoreCase(path, BLEND_EXTENSION) by {
      forall i | 0 <= i < |BLEND_EXTENSION|
        ensures Text.FoldCase(BLEND_EXTENSION[i]) == Text.FoldCase(".BLEND"[i])
      {
        assert i == 0 || i == 1 || i == 2 || i == 3 || i == 4 || i == 5;
      }
    }
    assert Text.OccursAt(s, EXPORTER_SIGNATURE, |prefix|) by {
      assert s[|prefix|..|prefix| + |EXPORTER_SIGNATURE|] == EXPORTER_SIGNATURE;
    }
    assert !Text.EndsWithIgnoreCase("a.fbx", BLEND_EXTENSION) by {
      assert Text.FoldCase("a.fbx"[0]) != Text.FoldCase(BLEND_EXTENSION[0]);
    }
  }
}

=== FILE: importer_editor.dfy ===
/** The importer inspector's share of the fix: how many selected models can be
    fixed, what the fix section shows, and how the settings are written back to
    each importer's stored settings when the inspector applies. */
module ImporterEditor {
  import Results
  import opened UserData
  import opened FixesExtraData
  import Gate
  import Text

  /** How many of the selected models the fix supports. */
  datatype SupportState = None | Partial | All

  /** A selected model: its asset path and its file content (or the read failure). */
  datatype Target = Target(path: string, content: Results.Result<string, Gate.IoError>)

  predicate Fixable(t: Target) {
    Gate.IsModelValidForFix(t.path, t.content) == Results.Ok(true)
  }

  /** The target's file test does not raise: its path is a `.blend` path or its
      content could be read. */
  predicate Readable(t: Target) {
    Gate.IsModelValidForFix(t.path, t.content).Ok?
  }

  /** Every target's file test succeeds. */
  predicate AllReadable(ts: seq<Target>) {
    forall i :: 0 <= i < |ts| ==> Readable(ts[i])
  }

  /** Some target's file test raises `e`. */
  predicate RaisesWith(ts: seq<Target>, e: Gate.IoError) {
    exists i :: 0 <= i < |ts| && Gate.IsModelValidForFix(ts[i].path, ts[i].content) == Results.Err(e)
  }

  predicate AllFixable(ts: seq<Target>) {
    forall i :: 0 <= i < |ts| ==> Fixable(ts[i])
  }

  predicate SomeFixable(ts: seq<Target>) {
    exists i :: 0 <= i < |ts| && Fixable(ts[i])
  }

  predicate NoneFixable(ts: seq<Target>) {
    forall i :: 0 <= i < |ts| ==> !Fixable(ts[i])
  }

  /** The number of fixable targets among the first `n`. */
  function CountFixable(ts: seq<Target>, n: nat): nat
    requires n <= |ts|
  {
    if n == 0 then 0
    else CountFixable(ts, n - 1) + (if Fixable(ts[n - 1]) then 1 else 0)
  }

  /** The count is at most `n`; it reaches `n` exactly when each of the first `n`
      targets is fixable, and is zero exactly when none of them is. */
  lemma {:induction false} CountFixableBounds(ts: seq<Target>, n: nat)
    requires n <= |ts|
    ensures CountFixable(ts, n) <= n
    ensures CountFixable(ts, n) == n <==> forall i :: 0 <= i < n ==> Fixable(ts[i])
    ensures CountFixable(ts, n) == 0 <==> forall i :: 0 <= i < n ==> !Fixable(ts[i])
  {
    if n > 0 {
      CountFixableBounds(ts, n - 1);
    }
  }

  /** The state for `fixable` fixable models out of `total`: all, some, or none. */
  function Classify(fixable: nat, total: nat): SupportState {
    if fixable == total then All else if fixable > 0 then Partial else None
  }

  lemma ReadablePrefixStep(ts: seq<Target>, i: nat)
    requires i < |ts| && Readable(ts[i])
    requires forall k :: 0 <= k < i ==> Readable(ts[k])
    ensures forall k :: 0 <= k < i + 1 ==> Readable(ts[k])
  {
  }

  lemma UnreadableRaises(ts: seq<Target>, i: nat)
    requires i < |ts| && Gate.IsModelValidForFix(ts[i].path, ts[i].content).Err?
    ensures !AllReadable(ts)
    ensures RaisesWith(ts, Gate.IsModelValidForFix(ts[i].path, ts[i].content).error)
  {
    assert !Readable(ts[i]);
  }

  /** Classifying the count of fixable targets gives All exactly when every target is
      fixable, Partial exactly when some are and some are not, and None exactly when
      there is a target and none is fixable. */
  lemma ClassifyCount(ts: seq<Target>)
    ensures Classify(CountFixable(ts, |ts|), |ts|) == All <==> AllFixable(ts)
    ensures Classify(CountFixable(ts, |ts|), |ts|) == Partial <==> SomeFixable(ts) && !AllFixable(ts)
    ensures Classify(CountFixable(ts, |ts|), |ts|) == None <==> |ts| > 0 && NoneFixable(ts)
  {
    CountFixableBounds(ts, |ts|);
    var n := CountFixable(ts, |ts|);
    if n > 0 && !AllFixable(ts) {
      assert !NoneFixable(ts);
    }
    if SomeFixable(ts) {
      var i :| 0 <= i < |ts| && Fixable(ts[i]);
      assert !NoneFixable(ts);
    }
  }

  /** The support state `OnEnable` computes. A file that cannot be read raises. All
      targets fixable gives All (so does an empty selection), some but not all gives
      Partial, none of at least one gives None. */
  method ComputeSupportState(targets: seq<Target>) returns (r: Results.Result<SupportState, Gate.IoError>)
    ensures r.Ok? <==> AllReadable(targets)
    ensures r.Ok? ==> (r.value == All <==> AllFixable(targets))
    ensures r.Ok? ==> (r.value == Partial <==> SomeFixable(targets) && !AllFixable(targets))
    ensures r.Ok? ==> (r.value == None <==> |targets| > 0 && NoneFixable(targets))
    ensures r.Err? ==> RaisesWith(targets, r.error)
  {
    var fixableModels := 0;
    for i := 0 to |targets|
      invariant fixableModels == CountFixable(targets, i)
      invariant forall k :: 0 <= k < i ==> Readable(targets[k])
    {
      var valid := Gate.IsModelValidForFix(targets[i].path, targets[i].content);
      if valid.Err? {
        UnreadableRaises(targets, i);
        return Results.Err(valid.error);
      }
      ReadablePrefixStep(targets, i);
      if valid.value {
        fixableModels := fixableModels + 1;
      }
    }
    ClassifyCount(targets);
    r := Results.Ok(Classify(fixableModels, |targets|));
  }

  // ---------------------------------------------------------------------------
  // The fix section of the inspector

  /** What the fix section shows: nothing, the notice that not every selected model
      can be fixed, or the editable settings fields in order. */
  datatype FixSection = NotDrawn | NotAllFixableNotice | Fields(shown: seq<SerializedProperty>)

  /** `DrawBlenderImportFixProperties`, reached only on the first tab. `props` are
      the visible properties of the settings object, the script entry first. The
      first setting (the switch) is always shown; the others only while it is on. */
  function DrawFixSection(activeTab: int, state: SupportState, props: seq<SerializedProperty>): (r: FixSection)
    requires |props| >= 2
    ensures r.NotDrawn? <==> activeTab != 0 || state == None
    ensures r.NotAllFixableNotice? <==> activeTab == 0 && state == Partial
    ensures r.Fields? <==> activeTab == 0 && state == All
    ensures r.Fields? ==> |r.shown| >= 1 && r.shown[0] == props[1]
    ensures r.Fields? ==> |r.shown| == if props[1].boolValue then |props| - 1 else 1
    ensures r.Fields? ==> forall i :: 0 <= i < |r.shown| ==> i + 1 < |props| && r.shown[i] == props[i + 1]
  {
    if activeTab != 0 then NotDrawn
    else match state
      case None => NotDrawn
      case Partial => NotAllFixableNotice
      case All => if props[1].boolValue then Fields(props[1..]) else Fields([props[1]])
  }

  /** With the default settings only the switch is shown; with the switch on, every
      setting is. */
  lemma DefaultSettingsSection(script: SerializedProperty)
    ensures DrawFixSection(0, All, ToProperties(DEFAULTS, script)) ==
      Fields([BoolProperty("applyAxisConversion", false)])
    ensures |DrawFixSection(0, All, ToProperties(DEFAULTS.(applyAxisConversion := true), script)).shown| == 5
  {
  }

  // ---------------------------------------------------------------------------
  // Writing the settings back

  /** Every stored box was allocated before reference `next`. */
  predicate RefsBelow(u: AssetUserData, next: nat) {
    forall k :: k in u.data ==> u.data[k].ref < next
  }

  predicate DistinctNames(ps: seq<SerializedProperty>) {
    forall i, j :: 0 <= i < j < |ps| ==> ps[i].name != ps[j].name
  }

  /** The properties after the script entry. */
  function SettingsFields(props: seq<SerializedProperty>): seq<SerializedProperty> {
    if |props| == 0 then [] else props[1..]
  }

  /** Some property of `ps` is named `k`. */
  predicate Names(ps: seq<SerializedProperty>, k: string) {
    exists i :: 0 <= i < |ps| && ps[i].name == k
  }

  /** The write loop of `Apply` for one target: each property, in order, is boxed
      afresh (references `next`, `next + 1`, …) and stored under its name. An
      unsupported kind raises. */
  function WriteFields(u: AssetUserData, ps: seq<SerializedProperty>, next: nat): (r: Results.Result<AssetUserData, PropertyError>)
    requires RefsBelow(u, next)
    ensures r.Ok? <==> forall i :: 0 <= i < |ps| ==> !ps[i].kind.Unsupported?
    ensures r.Ok? ==> forall k :: k in u.data && !Names(ps, k) ==> k in r.value.data && r.value.data[k] == u.data[k]
    ensures r.Ok? ==> (r.value.isDirty <==> u.isDirty || |ps| > 0)
    ensures r.Ok? ==> RefsBelow(r.value, next + |ps|)
    decreases |ps|
  {
    if |ps| == 0 then Results.Ok(u)
    else
      var first :- SetValueFromProperty(u, ps[0], next);
      assert forall i :: 1 <= i < |ps| ==> ps[1..][i - 1] == ps[i];
      assert forall k :: Names(ps[1..], k) ==> Names(ps, k) by {
        forall k | Names(ps[1..], k) ensures Names(ps, k) {
          var i :| 0 <= i < |ps[1..]| && ps[1..][i].name == k;
          assert ps[i + 1].name == k;
        }
      }
      WriteFields(first, ps[1..], next + 1)
  }

  /** The keys after the write are the keys before it and the names written. */
  lemma {:induction false} WriteFieldsKeys(u: AssetUserData, ps: seq<SerializedProperty>, next: nat, k: string)
    requires RefsBelow(u, next) && WriteFields(u, ps, next).Ok?
    ensures k in WriteFields(u, ps, next).value.data <==> k in u.data || Names(ps, k)
    decreases |ps|
  {
    if |ps| > 0 {
      WriteFieldsUnfold(u, ps, next);
      var first := SetValueFromProperty(u, ps[0], next).value;
      WriteFieldsKeys(first, ps[1..], next + 1, k);
      NamesCons(ps, k);
    }
  }

  lemma NamesCons(ps: seq<SerializedProperty>, k: string)
    requires |ps| > 0
    ensures Names(ps, k) <==> ps[0].name == k || Names(ps[1..], k)
  {
    if Names(ps, k) && ps[0].name != k {
      var i :| 0 <= i < |ps| && ps[i].name == k;
      assert ps[1..][i - 1].name == k;
    }
    if Names(ps[1..], k) {
      var i :| 0 <= i < |ps[1..]| && ps[1..][i].name == k;
      assert ps[i + 1].name == k;
    }
  }

  /** With distinct names, every property ends up stored under its name with its own
      value: no later write overwrites it. */
  lemma {:induction false} WriteFieldsValues(u: AssetUserData, ps: seq<SerializedProperty>, next: nat, i: nat)
    requires RefsBelow(u, next) && WriteFields(u, ps, next).Ok?
    requires DistinctNames(ps) && i < |ps|
    ensures ps[i].name in WriteFields(u, ps, next).value.data
    ensures GetPropertyValue(ps[i]) == Results.Ok(WriteFields(u, ps, next).value.data[ps[i].name].value)
    decreases |ps|
  {
    DistinctTail(ps);
    if i == 0 {
      HeadKept(u, ps, next);
    } else {
      WriteFieldsUnfold(u, ps, next);
      var first := SetValueFromProperty(u, ps[0], next).value;
      WriteFieldsValues(first, ps[1..], next + 1, i - 1);
      assert ps[1..][i - 1] == ps[i];
    }
  }

  /** One step of the write loop: the first property is stored with reference
      `next`, and the rest are written after it. */
  lemma WriteFieldsUnfold(u: AssetUserData, ps: seq<SerializedProperty>, next: nat)
    requires RefsBelow(u, next) && WriteFields(u, ps, next).Ok? && |ps| > 0
    ensures SetValueFromProperty(u, ps[0], next).Ok?
    ensures RefsBelow(SetValueFromProperty(u, ps[0], next).value, next + 1)
    ensures WriteFields(u, ps, next) == WriteFields(SetValueFromProperty(u, ps[0], next).value, ps[1..], next + 1)
  {
  }

  /** Without the first property, the names stay distinct and none is the first's. */
  lemma DistinctTail(ps: seq<SerializedProperty>)
    requires DistinctNames(ps) && |ps| > 0
    ensures DistinctNames(ps[1..]) && !Names(ps[1..], ps[0].name)
  {
    var rest := ps[1..];
    forall j | 0 <= j < |rest| ensures rest[j].name != ps[0].name {
      assert rest[j] == ps[j + 1];
    }
    forall a, b | 0 <= a < b < |rest| ensures rest[a].name != rest[b].name {
      assert rest[a] == ps[a + 1] && rest[b] == ps[b + 1];
    }
  }

  /** The first property's value survives the later writes when no later property
      has its name. */
  lemma HeadKept(u: AssetUserData, ps: seq<SerializedProperty>, next: nat)
    requires RefsBelow(u, next) && WriteFields(u, ps, next).Ok?
    requires |ps| > 0 && !Names(ps[1..], ps[0].name)
    ensures ps[0].name in WriteFields(u, ps, next).value.data
    ensures GetPropertyValue(ps[0]) == Results.Ok(WriteFields(u, ps, next).value.data[ps[0].name].value)
  {
    var first := SetValueFromProperty(u, ps[0], next).value;
    assert ps[0].name in first.data;
  }

  /** `Apply` for one target: write every setting after the script entry, then write
      the store back to the importer if it changed. */
  function ApplyTarget(u: AssetUserData, props: seq<SerializedProperty>, importerUserData: Results.Option<string>,
                       encode: map<string, Boxed> -> string, next: nat): (r: Results.Result<Applied, PropertyError>)
    requires RefsBelow(u, next)
    ensures r.Ok? <==> forall i :: 1 <= i < |props| ==> !props[i].kind.Unsupported?
    ensures r.Ok? ==> !r.value.store.isDirty
    ensures r.Ok? ==> (r.value.written <==> u.isDirty || |props| > 1)
    ensures r.Ok? && r.value.written ==> r.value.importerUserData == Results.Some(encode(r.value.store.data))
  {
    var fields := SettingsFields(props);
    assert forall i :: 1 <= i < |props| ==> fields[i - 1] == props[i];
    var written :- WriteFields(u, fields, next);
    Results.Ok(ApplyModified(written, importerUserData, encode))
  }

  /** The store holds each setting of `d` under its field name, at its own kind. */
  predicate HoldsSettings(u: AssetUserData, d: BlenderFixesExtraData) {
    && "applyAxisConversion" in u.data && u.data["applyAxisConversion"].value == BoolValue(d.applyAxisConversion)
    && "flipZAxis" in u.data && u.data["flipZAxis"].value == BoolValue(d.flipZAxis)
    && "fixLights" in u.data && u.data["fixLights"].value == BoolValue(d.fixLights)
    && "lightIntensityFactor" in u.data && u.data["lightIntensityFactor"].value == FloatValue(d.lightIntensityFactor)
    && "lightRangeFactor" in u.data && u.data["lightRangeFactor"].value == FloatValue(d.lightRangeFactor)
  }

  /** Writing the settings fields of `d` stores every setting of `d`. */
  lemma WriteSettingsHolds(u: AssetUserData, d: BlenderFixesExtraData, script: SerializedProperty, next: nat)
    requires RefsBelow(u, next)
    ensures WriteFields(u, SettingsFields(ToProperties(d, script)), next).Ok?
    ensures HoldsSettings(WriteFields(u, SettingsFields(ToProperties(d, script)), next).value, d)
  {
    var fields := SettingsFields(ToProperties(d, script));
    SettingsFieldsDistinct(d, script);
    WriteFieldsValues(u, fields, next, 0);
    WriteFieldsValues(u, fields, next, 1);
    WriteFieldsValues(u, fields, next, 2);
    WriteFieldsValues(u, fields, next, 3);
    WriteFieldsValues(u, fields, next, 4);
  }

  /** The settings fields are the five settings, each under its own name. */
  lemma SettingsFieldsDistinct(d: BlenderFixesExtraData, script: SerializedProperty)
    ensures SettingsFields(ToProperties(d, script)) == [
      BoolProperty("applyAxisConversion", d.applyAxisConversion),
      BoolProperty("flipZAxis", d.flipZAxis),
      BoolProperty("fixLights", d.fixLights),
      FloatProperty("lightIntensityFactor", d.lightIntensityFactor),
      FloatProperty("lightRangeFactor", d.lightRangeFactor)]
    ensures DistinctNames(SettingsFields(ToProperties(d, script)))
  {
  }

  /** The settings `d` as a settings object `other` reads them back over a view with
      engine properties `hidden`: with none before the fields, the first setting is
      the skipped property and keeps `other`'s value. */
  function ReadBack(d: BlenderFixesExtraData, other: BlenderFixesExtraData, hidden: seq<SerializedProperty>): BlenderFixesExtraData {
    if |hidden| == 0 then d.(applyAxisConversion := other.applyAxisConversion) else d
  }

  /** A store holding the settings of `d`, and no key named like an engine property,
      initialises any settings object to `d`. */
  lemma InitializeFromHeldSettings(u: AssetUserData, d: BlenderFixesExtraData, other: BlenderFixesExtraData,
                                   hidden: seq<SerializedProperty>)
    requires HoldsSettings(u, d) && HiddenNamesFree(u, hidden)
    ensures InitializeSettings(u, other, hidden) == Results.Ok(ReadBack(d, other, hidden))
  {
    var ps := AllProperties(other, hidden);
    var n := |hidden|;
    forall i | 1 <= i < |ps| && ps[i].name in u.data
      ensures !ps[i].kind.Unsupported? && KindOf(u.data[ps[i].name].value) == ps[i].kind
    {
      if n <= i {
        assert ps[i] == SettingsProperties(other)[i - n];
        assert i - n == 0 || i - n == 1 || i - n == 2 || i - n == 3 || i - n == 4;
      }
    }
    InitializeSucceeds(u, ps);
  }

  /** What the inspector writes, the settings object reads back: applying settings
      `d` to a target and initialising any settings object from the stored text
      gives `d`, for a codec whose decoding inverts its encoding, when no key named
      like an engine property is stored and no setting is named like one. */
  lemma SettingsRoundTrip(d: BlenderFixesExtraData, other: BlenderFixesExtraData, script: SerializedProperty,
                          hidden: seq<SerializedProperty>, u: AssetUserData, text: Results.Option<string>,
                          encode: map<string, Boxed> -> string, decode: string -> Decoded, next: nat)
    requires Deserialize(text, decode) == Results.Ok(u) && RefsBelow(u, next)
    requires HiddenNamesFree(u, hidden)
    requires forall i :: 1 <= i < |hidden| ==> !Names(SettingsProperties(d), hidden[i].name)
    requires forall data :: decode(encode(data)) == Decoded(data)
    requires forall data :: !Text.AllWhiteSpace(encode(data))
    ensures ApplyTarget(u, ToProperties(d, script), text, encode, next).Ok?
    ensures var a := ApplyTarget(u, ToProperties(d, script), text, encode, next).value;
      && Deserialize(a.importerUserData, decode).Ok?
      && InitializeSettings(Deserialize(a.importerUserData, decode).value, other, hidden) == Results.Ok(ReadBack(d, other, hidden))
  {
    WriteSettingsHolds(u, d, script, next);
    var fields := SettingsFields(ToProperties(d, script));
    assert fields == SettingsProperties(d);
    var w := WriteFields(u, fields, next).value;
    var a := ApplyTarget(u, ToProperties(d, script), text, encode, next).value;
    assert a.importerUserData == Results.Some(encode(w.data));
    var back := Deserialize(a.importerUserData, decode);
    assert back == Results.Ok(AssetUserData(w.data, false));
    forall i | 1 <= i < |hidden| ensures hidden[i].name !in back.value.data {
      WriteFieldsKeys(u, fields, next, hidden[i].name);
    }
    InitializeFromHeldSettings(back.value, d, other, hidden);
  }

  /** A selected model with its stored settings text and the visible properties of
      its settings object. */
  datatype ApplyTargetInput = ApplyTargetInput(importerUserData: Results.Option<string>, props: seq<SerializedProperty>)

  /** Why `Apply` raised on a target: its settings text could not be read as a map,
      or a property's kind cannot be stored. */
  datatype ApplyError = StoreFailed(store: DecodeError) | WriteFailed(write: PropertyError)

  /** The boxes read from the target's settings text, if it reads as a map, are all
      older than `next`. */
  predicate StoredRefsBelow(t: ApplyTargetInput, decode: string -> Decoded, next: nat) {
    Deserialize(t.importerUserData, decode).Ok? ==> RefsBelow(Deserialize(t.importerUserData, decode).value, next)
  }

  /** One target of `Apply`: its settings text is read into a store, which raises
      when the text is not a map; then `ApplyTarget` runs on that store. */
  function ApplyToInput(t: ApplyTargetInput, encode: map<string, Boxed> -> string,
                        decode: string -> Decoded, next: nat): (r: Results.Result<Applied, ApplyError>)
    requires StoredRefsBelow(t, decode, next)
    ensures Deserialize(t.importerUserData, decode).Err? ==>
      r == Results.Err(StoreFailed(Deserialize(t.importerUserData, decode).error))
    ensures Deserialize(t.importerUserData, decode).Ok? ==>
      (r.Ok? <==> forall i :: 1 <= i < |t.props| ==> !t.props[i].kind.Unsupported?)
    ensures Deserialize(t.importerUserData, decode).Ok? && r.Ok? ==>
      r.value == ApplyTarget(Deserialize(t.importerUserData, decode).value, t.props, t.importerUserData, encode, next).value
  {
    match Deserialize(t.importerUserData, decode)
    case Err(e) => Results.Err(StoreFailed(e))
    case Ok(u) =>
      match ApplyTarget(u, t.props, t.importerUserData, encode, next)
      case Err(e) => Results.Err(WriteFailed(e))
      case Ok(a) => Results.Ok(a)
  }

  /** `Apply` over the selection: each target in turn gets its settings written and
      stored; a settings text that is not a map, or an unsupported property, raises
      and ends the loop. `results[i]` is what target `i` ended with. */
  method Apply(targets: seq<ApplyTargetInput>, encode: map<string, Boxed> -> string,
               decode: string -> Decoded, next: nat)
    returns (results: seq<Applied>, failure: Results.Option<ApplyError>)
    requires forall i :: 0 <= i < |targets| ==> StoredRefsBelow(targets[i], decode, next)
    ensures |results| <= |targets|
    ensures failure.None? <==> |results| == |targets|
    ensures forall i :: 0 <= i < |results| ==> ApplyToInput(targets[i], encode, decode, next) == Results.Ok(results[i])
    ensures failure.Some? ==> ApplyToInput(targets[|results|], encode, decode, next) == Results.Err(failure.value)
  {
    var outcomes := seq(|targets|, i requires 0 <= i < |targets| => ApplyToInput(targets[i], encode, decode, next));
    results, failure := UntilFailure(outcomes);
  }

  /** Runs through `outcomes` in order and stops at the first failure. */
  method UntilFailure<T, E>(outcomes: seq<Results.Result<T, E>>) returns (done: seq<T>, failure: Results.Option<E>)
    ensures |done| <= |outcomes|
    ensures failure.None? <==> |done| == |outcomes|
    ensures forall i :: 0 <= i < |done| ==> outcomes[i] == Results.Ok(done[i])
    ensures failure.Some? ==> outcomes[|done|] == Results.Err(failure.value)
  {
    done := [];
    for i := 0 to |outcomes|
      invariant |done| == i
      invariant forall k :: 0 <= k < i ==> outcomes[k] == Results.Ok(done[k])
    {
      if outcomes[i].Err? {
        return done, Results.Some(outcomes[i].error);
      }
      done := done + [outcomes[i].value];
    }
    failure := Results.None;
  }
}

=== FILE: legacy_postprocessor.dfy ===
/** The legacy post-processor for exported files. It shares the deletion test and
    the mesh collection with the model post-processor, but always applies the
    Z-flip sign pattern and a -90 degree turn, rotates meshes by a fixed Euler
    rotation, never touches bind poses, and asks for a reimport whether or not its
    gate was on. */
module LegacyPostprocessor {
  import opened Results
  import opened Quaternions
  import opened SceneGraph
  import opened BindPoses
  import opened TransformFix
  import opened Gate
  import opened ModelPostprocessor
  import Lists
  import UserData

  /** The Euler angles of the legacy mesh rotation. */
  const LEGACY_MESH_EULER: Vec3 := Vec3(-89.98, 180.0, 0.0)

  function LegacyMeshMatrix<M>(alg: MatrixAlgebra<M>): M {
    alg.rotate(alg.euler(LEGACY_MESH_EULER))
  }

  /** The state the legacy hook leaves behind. Its failures are a raising gate or a
      raising mesh rewrite. */
  datatype LegacyOutcome<M> = LegacyOutcome(
    deleted: set<NodeId>,
    transforms: map<NodeId, FixedTransform>,
    meshes: MeshStore<M>,
    tangentsRecalculated: bool,
    failure: Option<ModelFailure>,
    reimported: bool)

  /** The legacy pass over the transforms: below the root, each transform is
      destroyed exactly when the deletion test holds and otherwise gets the legacy
      fix from its own stored pose and scale; the root is untouched. */
  ghost predicate LegacyPassResult<M>(root: Node, engine: NodeId -> EngineFrame<M>,
                                      deleted: set<NodeId>, transforms: map<NodeId, FixedTransform>)
  {
    var ns := NonRoot(root);
    && root.id !in deleted && root.id !in transforms
    && (forall j :: 0 <= j < |ns| ==> (ns[j].id in deleted <==> ShouldDeleteObject(ns[j])))
    && (forall j :: 0 <= j < |ns| ==> (ns[j].id in transforms <==> !ShouldDeleteObject(ns[j])))
    && (forall j :: 0 <= j < |ns| && ns[j].id in transforms ==>
          transforms[ns[j].id] == LegacyTransformFix(engine(ns[j].id).stored, engine(ns[j].id).localScale))
    && (forall id :: id in transforms ==> exists j :: 0 <= j < |ns| && ns[j].id == id)
  }

  /** `OnPostprocessModel` of the legacy post-processor. The reimport at its end is
      requested whether or not the gate was on, but a raising gate or mesh rewrite
      ends the hook before it. */
  method OnPostprocessModelLegacy<M>(alg: MatrixAlgebra<M>, imp: ModelImport<M>,
                                     decode: string -> UserData.Decoded, engine: NodeId -> EngineFrame<M>)
    returns (res: LegacyOutcome<M>)
    requires DistinctIds(imp.root) && SceneInStore(imp.root, imp.meshes)
    ensures var gate := LegacyGate(imp.assetPath, imp.content, imp.userData, decode);
      gate.Err? ==> res == LegacyOutcome({}, map[], imp.meshes, false, Some(GateFailed(gate.error)), false)
    ensures LegacyGate(imp.assetPath, imp.content, imp.userData, decode) == Ok(false) ==>
      res == LegacyOutcome({}, map[], imp.meshes, false, None, true)
    ensures LegacyGate(imp.assetPath, imp.content, imp.userData, decode) == Ok(true) ==>
      (MeshListInStore(imp.root, imp.meshes);
       var loop := MeshLoop(alg, imp.meshes, MeshList(imp.root), LegacyMeshMatrix(alg));
       && LegacyPassResult(imp.root, engine, res.deleted, res.transforms)
       && res.meshes == loop.meshes
       && res.tangentsRecalculated == imp.importTangents
       && (res.failure.None? <==> loop.failure.None?)
       && (loop.failure.Some? ==> res.failure == Some(MeshFailed(loop.failure.value)))
       && (res.reimported <==> loop.failure.None?))
  {
    var gate := LegacyGate(imp.assetPath, imp.content, imp.userData, decode);
    if gate.Err? {
      return LegacyOutcome({}, map[], imp.meshes, false, Some(GateFailed(gate.error)), false);
    }
    if !gate.value {
      return LegacyOutcome({}, map[], imp.meshes, false, None, true);
    }
    var list := LocateMeshes(imp.root);
    var deleted, transforms := LegacyTransformPass(alg, imp.root, engine);
    MeshListInStore(imp.root, imp.meshes);
    var loop := MeshLoop(alg, imp.meshes, list, LegacyMeshMatrix(alg));
    var failure := if loop.failure.Some? then Some(MeshFailed(loop.failure.value)) else None;
    res := LegacyOutcome(deleted, transforms, loop.meshes, imp.importTangents, failure, loop.failure.None?);
  }

  /** The legacy loop over the stored transforms: the model pass with the flip on and
      no snap, keeping only the written fixes. */
  method LegacyTransformPass<M>(alg: MatrixAlgebra<M>, root: Node, engine: NodeId -> EngineFrame<M>)
    returns (deleted: set<NodeId>, transforms: map<NodeId, FixedTransform>)
    requires DistinctIds(root)
    ensures LegacyPassResult(root, engine, deleted, transforms)
  {
    var noSnap := (id: NodeId) => engine(id).(nearSnapAngle := false);
    var modifications;
    deleted, modifications, transforms := TransformPass(alg, root, true, noSnap);
    var ns := NonRoot(root);
    forall j | 0 <= j < |ns| && ns[j].id in transforms
      ensures transforms[ns[j].id] == LegacyTransformFix(engine(ns[j].id).stored, engine(ns[j].id).localScale)
    {
      LegacyIsFlippedFix(engine(ns[j].id).stored, engine(ns[j].id).localScale);
    }
  }

  /** The legacy mesh loop never changes a bind pose or a vertex count, and changes
      no mesh the scene does not refer to. */
  lemma LegacyKeepsBindPoses<M>(alg: MatrixAlgebra<M>, meshes: MeshStore<M>, root: Node, m: MeshId)
    requires SceneInStore(root, meshes) && m in meshes
    ensures (MeshListInStore(root, meshes);
      var r := MeshLoop(alg, meshes, MeshList(root), LegacyMeshMatrix(alg)).meshes;
      && m in r && r[m].bindposes == meshes[m].bindposes
      && |r[m].vertices| == |meshes[m].vertices|
      && (Some(m) !in SceneMeshes(root) ==> r[m] == meshes[m]))
  {
    MeshListInStore(root, meshes);
  }
}

=== FILE: lists.dfy ===
/** Order-preserving, duplicate-free collection: the `if(!list.Contains(x)) list.Add(x)`
    idiom the post-processors use for meshes, and the first-seen grouping of
    animation paths. */
module Lists {
  import opened Results

  predicate NoDuplicates<T(==)>(s: seq<T>) {
    forall i, j :: 0 <= i < j < |s| ==> s[i] != s[j]
  }

  /** Index of the first occurrence of `x` in `xs`. */
  function FirstIndex<T(==)>(xs: seq<T>, x: T): (k: nat)
    requires x in xs
    ensures k < |xs| && xs[k] == x
    ensures x !in xs[..k]
  {
    if xs[0] == x then 0
    else
      var k := FirstIndex(xs[1..], x);
      assert xs[1..][..k] == xs[1..k + 1];
      assert xs[..k + 1] == [xs[0]] + xs[1..k + 1];
      k + 1
  }

  /** `acc` followed, in order, by each element of `xs` that is not already present. */
  function AppendNew<T(==,!new)>(acc: seq<T>, xs: seq<T>): (r: seq<T>)
    ensures acc <= r
    ensures forall x {:trigger x in r} :: x in r <==> x in acc || x in xs
    ensures forall i :: |acc| <= i < |r| ==> r[i] !in acc
    ensures NoDuplicates(acc) ==> NoDuplicates(r)
    decreases |xs|
  {
    if |xs| == 0 then acc
    else
      var prev := AppendNew(acc, xs[..|xs| - 1]);
      var x := xs[|xs| - 1];
      assert xs == xs[..|xs| - 1] + [x];
      if x in prev then prev else prev + [x]
  }

  /** The values of the present entries of `xs`, in order (null meshes are skipped). */
  function Present<T(!new)>(xs: seq<Option<T>>): (r: seq<T>)
    ensures forall x {:trigger x in r} :: x in r <==> Some(x) in xs
    ensures |r| <= |xs|
  {
    if |xs| == 0 then []
    else
      var init := Present(xs[..|xs| - 1]);
      assert xs == xs[..|xs| - 1] + [xs[|xs| - 1]];
      match xs[|xs| - 1]
      case None => init
      case Some(v) => init + [v]
  }

  lemma FirstIndexOfPrefix<T>(xs: seq<T>, n: nat, x: T)
    requires n <= |xs| && x in xs[..n]
    ensures x in xs && FirstIndex(xs, x) == FirstIndex(xs[..n], x)
  {
    var k1 := FirstIndex(xs, x);
    var k2 := FirstIndex(xs[..n], x);
    assert xs[k2] == x;
    assert xs[..n][..k2] == xs[..k2];
  }

  /** The elements `AppendNew` adds after `acc` come in the order of their first
      occurrence in `xs`. */
  lemma {:induction false} AppendNewFirstSeenOrder<T(!new)>(acc: seq<T>, xs: seq<T>)
    ensures forall i, j :: |acc| <= i < j < |AppendNew(acc, xs)| ==>
      AppendNew(acc, xs)[i] in xs && AppendNew(acc, xs)[j] in xs &&
      FirstIndex(xs, AppendNew(acc, xs)[i]) < FirstIndex(xs, AppendNew(acc, xs)[j])
    decreases |xs|
  {
    var r := AppendNew(acc, xs);
    if |xs| > 0 {
      var init := xs[..|xs| - 1];
      var prev := AppendNew(acc, init);
      var x := xs[|xs| - 1];
      assert xs == init + [x];
      AppendNewFirstSeenOrder(acc, init);
      forall i | |acc| <= i < |prev|
        ensures prev[i] in init && FirstIndex(xs, prev[i]) == FirstIndex(init, prev[i])
      {
        assert prev[i] in prev;
        assert prev[i] !in acc;
        assert xs[..|xs| - 1] == init;
        FirstIndexOfPrefix(xs, |xs| - 1, prev[i]);
      }
      if x !in prev {
        assert r == prev + [x];
        assert x !in init;
        var k := FirstIndex(xs, x);
        assert k == |xs| - 1;
        forall i, j | |acc| <= i < j < |r|
          ensures r[i] in xs && r[j] in xs && FirstIndex(xs, r[i]) < FirstIndex(xs, r[j])
        {
          if j < |prev| {
            assert r[i] == prev[i] && r[j] == prev[j];
            assert FirstIndex(init, prev[i]) < FirstIndex(init, prev[j]);
            assert FirstIndex(xs, prev[i]) == FirstIndex(init, prev[i]);
            assert FirstIndex(xs, prev[j]) == FirstIndex(init, prev[j]);
          } else {
            assert r[i] == prev[i] && r[j] == x;
            assert FirstIndex(xs, prev[i]) == FirstIndex(init, prev[i]) < |init|;
            assert FirstIndex(xs, r[j]) == k;
          }
        }
      } else {
        assert r == prev;
        forall i, j | |acc| <= i < j < |r|
          ensures r[i] in xs && r[j] in xs && FirstIndex(xs, r[i]) < FirstIndex(xs, r[j])
        {
          assert FirstIndex(init, prev[i]) < FirstIndex(init, prev[j]);
        }
      }
    }
  }

  /** The prefix of length `k + 1` extends the prefix of length `k` by `xs[k]`. */
  lemma PrefixStep<T>(xs: seq<T>, k: nat)
    requires k < |xs|
    ensures xs[..k + 1] == xs[..k] + [xs[k]]
  {
  }

  /** `AppendNew` over one more element of the input. */
  lemma AppendNewPrefixStep<T(!new)>(xs: seq<T>, k: nat)
    requires k < |xs|
    ensures AppendNew([], xs[..k + 1]) ==
      if xs[k] in AppendNew([], xs[..k]) then AppendNew([], xs[..k]) else AppendNew([], xs[..k]) + [xs[k]]
  {
    PrefixStep(xs, k);
    AppendNewSnoc([], xs[..k], xs[k]);
  }

  /** One more input element is appended exactly when it is not yet present. */
  lemma AppendNewSnoc<T(!new)>(acc: seq<T>, xs: seq<T>, x: T)
    ensures AppendNew(acc, xs + [x]) ==
      if x in AppendNew(acc, xs) then AppendNew(acc, xs) else AppendNew(acc, xs) + [x]
  {
    assert (xs + [x])[..|xs|] == xs;
  }

  /** Whatever `AppendNew` collects from a prefix `ps` of its input comes before
      everything it collects only from the rest. */
  lemma AppendNewPrefixFirst<T(!new)>(ps: seq<T>, qs: seq<T>, i: nat, j: nat)
    requires i < |AppendNew([], ps + qs)| && j < |AppendNew([], ps + qs)|
    requires AppendNew([], ps + qs)[i] in ps && AppendNew([], ps + qs)[j] !in ps
    ensures i < j
  {
    var xs := ps + qs;
    var list := AppendNew([], xs);
    assert xs[..|ps|] == ps;
    FirstIndexOfPrefix(xs, |ps|, list[i]);
    assert list[i] in list && list[j] in list;
    var kj := FirstIndex(xs, list[j]);
    assert kj >= |ps|;
    AppendNewFirstSeenOrder([], xs);
  }

  lemma PresentSnoc<T(!new)>(xs: seq<Option<T>>, x: Option<T>)
    ensures Present(xs + [x]) == Present(xs) + (if x.Some? then [x.value] else [])
  {
    assert (xs + [x])[..|xs|] == xs;
  }

  lemma {:induction false} PresentAppend<T(!new)>(xs: seq<Option<T>>, ys: seq<Option<T>>)
    ensures Present(xs + ys) == Present(xs) + Present(ys)
    decreases |ys|
  {
    if |ys| > 0 {
      var init := ys[..|ys| - 1];
      assert ys == init + [ys[|ys| - 1]];
      assert xs + ys == (xs + init) + [ys[|ys| - 1]];
      PresentAppend(xs, init);
      PresentSnoc(xs + init, ys[|ys| - 1]);
      PresentSnoc(init, ys[|ys| - 1]);
    } else {
      assert xs + ys == xs;
    }
  }
}

=== FILE: model_postprocessor.dfy ===
/** The two hooks of the model post-processor. After a model import, a gated pass
    collects the scene's meshes, fixes or destroys every transform below the root,
    rotates every collected mesh and fixes the bind poses of the surviving skinned
    renderers, then asks for a reimport. After an animation import, the same gate
    decides whether the clip's transform curves are rewritten. An exception ends a
    hook where it is raised: what was written before it stays, and no reimport is
    requested. */
module ModelPostprocessor {
  import opened Results
  import opened Quaternions
  import opened SceneGraph
  import opened BindPoses
  import opened TransformFix
  import opened Gate
  import Lists
  import UserData
  import AnimationFix
  import AnimationClip

  /** Everything a model import hands to the hook: the asset's path, its file
      content (or the read failure), the importer's stored settings, the tangent
      import mode, the imported scene and its meshes. */
  datatype ModelImport<M> = ModelImport(
    assetPath: string,
    content: Result<string, IoError>,
    userData: Option<string>,
    importTangents: bool,
    root: Node,
    meshes: MeshStore<M>)

  datatype ModelFailure =
    | GateFailed(gate: GateError)
    | MeshFailed(mesh: MeshError)
    | BindPoseFailed(bindPose: BindPoseError)

  /** The state the hook leaves behind: destroyed transforms, the modification map,
      the fix written to each kept transform, the meshes, how many skinned renderers
      were handled, whether tangents are recalculated, the exception raised (if any)
      and whether a reimport was requested. */
  datatype ModelOutcome<M> = ModelOutcome(
    deleted: set<NodeId>,
    modifications: map<NodeId, M>,
    transforms: map<NodeId, FixedTransform>,
    meshes: MeshStore<M>,
    renderersDone: nat,
    tangentsRecalculated: bool,
    failure: Option<ModelFailure>,
    reimported: bool)

  /** The mesh a component refers to, if any. */
  function ReferencedMesh(c: Component): Option<MeshId> {
    match c
    case MeshFilter(m) => m
    case SkinnedMeshRenderer(m, _) => m
    case _ => None
  }

  /** Every mesh the scene refers to is in the store. */
  predicate SceneInStore<M>(root: Node, meshes: MeshStore<M>) {
    forall c :: c in ComponentsOf(Preorder(root)) && ReferencedMesh(c).Some? ==> ReferencedMesh(c).value in meshes
  }

  /** The shared meshes `LocateMeshes` visits, in order, nulls included. */
  function SceneMeshes(root: Node): seq<Option<MeshId>> {
    FilterMeshes(ComponentsOf(Preorder(root))) + SkinnedMeshes(SkinnedRenderers(ComponentsOf(Preorder(root))))
  }

  /** The matrix every mesh is rotated by. */
  function MeshMatrix<M>(alg: MatrixAlgebra<M>, flipZ: bool): M {
    alg.rotate(if flipZ then ROTATION_FIX_Z_FLIP else ROTATION_FIX)
  }

  /** The skinned renderers left in the scene after the deletions, in the engine's order. */
  function SurvivingRenderers(root: Node): seq<Component> {
    SkinnedRenderers(ComponentsOf(Survivors(root)))
  }

  /** The mesh loop: each listed mesh, once, is rewritten by `ApplyMeshFix`; the
      other meshes stay as they are. */
  function FixListedMeshes<M>(alg: MatrixAlgebra<M>, meshes: MeshStore<M>, list: seq<MeshId>, matrix: M): (r: MeshStore<M>)
    requires Lists.NoDuplicates(list) && forall m :: m in list ==> m in meshes
    ensures r.Keys == meshes.Keys
    ensures forall m :: m in meshes ==> r[m] == if m in list then ApplyMeshFix(alg, meshes[m], matrix) else meshes[m]
    decreases |list|
  {
    if |list| == 0 then meshes
    else
      var m0 := list[0];
      assert forall m :: m in list[1..] ==> m != m0 && m in list;
      FixListedMeshes(alg, meshes[m0 := ApplyMeshFix(alg, meshes[m0], matrix)], list[1..], matrix)
  }

  /** A component of a node of `ns` is a component of the nodes' concatenation. */
  lemma {:induction false} ComponentsOfMember(ns: seq<Node>, n: Node, c: Component)
    requires n in ns && c in n.components
    ensures c in ComponentsOf(ns)
    decreases |ns|
  {
    if ns[0] != n {
      assert n in ns[1..];
      ComponentsOfMember(ns[1..], n, c);
    }
  }

  /** A component of the nodes' concatenation belongs to one of the nodes. */
  lemma {:induction false} ComponentsOfOwner(ns: seq<Node>, c: Component) returns (n: Node)
    requires c in ComponentsOf(ns)
    ensures n in ns && c in n.components
    decreases |ns|
  {
    if c in ns[0].components {
      n := ns[0];
    } else {
      n := ComponentsOfOwner(ns[1..], c);
    }
  }

  /** The surviving renderers are renderers of the scene, so their meshes are stored. */
  lemma SurvivorsInStore<M>(root: Node, meshes: MeshStore<M>)
    requires SceneInStore(root, meshes)
    ensures RenderersInStore(meshes, SurvivingRenderers(root))
  {
    var rs := SurvivingRenderers(root);
    var all := Preorder(root);
    forall i | 0 <= i < |rs|
      ensures rs[i].SkinnedMeshRenderer? && (rs[i].skinnedMesh.Some? ==> rs[i].skinnedMesh.value in meshes)
    {
      var c := rs[i];
      assert c in rs;
      var n := ComponentsOfOwner(Survivors(root), c);
      var s := Survivors(root);
      if n != s[0] {
        var k :| 0 <= k < |s| && s[k] == n;
        assert n in s[1..] by { assert s[1..][k - 1] == n; }
        assert n in NonRoot(root);
        assert n in all by { var q :| 0 <= q < |all[1..]| && all[1..][q] == n; assert all[q + 1] == n; }
      } else {
        assert n == all[0];
      }
      ComponentsOfMember(all, n, c);
    }
  }

  /** Every mesh `LocateMeshes` returns is in the store. */
  lemma LocatedInStore<M>(root: Node, meshes: MeshStore<M>, list: seq<MeshId>)
    requires SceneInStore(root, meshes)
    requires forall m :: m in list <==> Some(m) in SceneMeshes(root)
    ensures forall m :: m in list ==> m in meshes
  {
    var cs := ComponentsOf(Preorder(root));
    forall m | m in list ensures m in meshes {
      var seen := SceneMeshes(root);
      if Some(m) in FilterMeshes(cs) {
        assert MeshFilter(Some(m)) in cs;
        assert ReferencedMesh(MeshFilter(Some(m))) == Some(m);
      } else {
        var rs := SkinnedRenderers(cs);
        var sm := SkinnedMeshes(rs);
        assert Some(m) in sm;
        var i :| 0 <= i < |sm| && sm[i] == Some(m);
        assert rs[i] in rs;
        assert ReferencedMesh(rs[i]) == Some(m);
      }
    }
  }

  /** The list `LocateMeshes` returns for a scene. */
  function MeshList(root: Node): seq<MeshId> {
    Lists.AppendNew([], Lists.Present(SceneMeshes(root)))
  }

  /** The mesh rewrite raises on this mesh: it has fewer normals than vertices. */
  predicate RaisesOnNormals<M>(m: MeshData<M>) {
    |m.normals| < |m.vertices|
  }

  /** What the mesh loop leaves: the meshes, how many listed meshes were rewritten in
      full, and the error the next one raised, if any. */
  datatype MeshLoopOutcome<M> = MeshLoopOutcome(meshes: MeshStore<M>, done: nat, failure: Option<MeshError>)

  /** How many listed meshes the loop wrote to: the ones rewritten in full, and the
      one that raised after its vertices were stored. */
  function Reached<M>(r: MeshLoopOutcome<M>): nat {
    if r.failure.Some? then r.done + 1 else r.done
  }

  /** What the mesh loop over `list` leaves behind, as the source runs it: every mesh
      is still stored; the first `done` listed meshes have at least as many normals
      as vertices; the loop raises exactly when it stops short, on a mesh with fewer
      normals than vertices, at that mesh's first missing index; and the meshes it
      reached, the raising one included, hold what `ApplyMeshFixAsWritten` wrote to
      them while every other mesh is as it was. */
  ghost predicate LoopResult<M>(alg: MatrixAlgebra<M>, meshes: MeshStore<M>, list: seq<MeshId>, matrix: M,
                                r: MeshLoopOutcome<M>)
    requires forall m :: m in list ==> m in meshes
  {
    && r.meshes.Keys == meshes.Keys
    && r.done <= |list| && (r.failure.None? <==> r.done == |list|)
    && (forall j :: 0 <= j < r.done ==> !RaisesOnNormals(meshes[list[j]]))
    && (r.failure.Some? ==>
          && RaisesOnNormals(meshes[list[r.done]])
          && r.failure.value == NormalIndexOutOfRange(|meshes[list[r.done]].normals|))
    && (forall m :: m in meshes ==>
          r.meshes[m] == if m in list[..Reached(r)] then ApplyMeshFixAsWritten(alg, meshes[m], matrix).mesh else meshes[m])
  }

  /** The mesh loop: each listed mesh, in order, goes through `ApplyMeshFixAsWritten`,
      and the first one that raises ends the loop. */
  function MeshLoop<M>(alg: MatrixAlgebra<M>, meshes: MeshStore<M>, list: seq<MeshId>, matrix: M): (r: MeshLoopOutcome<M>)
    requires Lists.NoDuplicates(list) && forall m :: m in list ==> m in meshes
    ensures LoopResult(alg, meshes, list, matrix, r)
    decreases |list|
  {
    if |list| == 0 then MeshLoopOutcome(meshes, 0, None)
    else
      var m0 := list[0];
      var step := ApplyMeshFixAsWritten(alg, meshes[m0], matrix);
      var written := meshes[m0 := step.mesh];
      if step.failure.Some? then
        assert list[..1] == [m0];
        MeshLoopOutcome(written, 0, step.failure)
      else
        assert forall m :: m in list[1..] ==> m != m0 && m in list;
        var rest := MeshLoop(alg, written, list[1..], matrix);
        MeshLoopShift(alg, meshes, list, matrix, rest);
        MeshLoopOutcome(rest.meshes, rest.done + 1, rest.failure)
  }

  /** A loop that got past the first listed mesh: what it left on the rest of the list,
      started from the store with the first mesh rewritten, is what it left on the
      whole list. */
  lemma MeshLoopShift<M>(alg: MatrixAlgebra<M>, meshes: MeshStore<M>, list: seq<MeshId>, matrix: M, rest: MeshLoopOutcome<M>)
    requires Lists.NoDuplicates(list) && forall m :: m in list ==> m in meshes
    requires |list| > 0 && ApplyMeshFixAsWritten(alg, meshes[list[0]], matrix).failure.None?
    requires forall m :: m in list[1..] ==> m != list[0] && m in list
    requires LoopResult(alg, meshes[list[0] := ApplyMeshFixAsWritten(alg, meshes[list[0]], matrix).mesh], list[1..], matrix, rest)
    ensures LoopResult(alg, meshes, list, matrix, MeshLoopOutcome(rest.meshes, rest.done + 1, rest.failure))
  {
    var m0 := list[0];
    var written := meshes[m0 := ApplyMeshFixAsWritten(alg, meshes[m0], matrix).mesh];
    var r := MeshLoopOutcome(rest.meshes, rest.done + 1, rest.failure);
    assert forall j :: 0 <= j < |list| - 1 ==> list[1..][j] == list[j + 1];
    forall j | 0 <= j < r.done ensures !RaisesOnNormals(meshes[list[j]]) {
      if j > 0 {
        assert list[j] == list[1..][j - 1] && list[j] != m0;
      }
    }
    if r.failure.Some? {
      assert list[r.done] == list[1..][rest.done] && list[r.done] != m0;
    }
    assert list[..Reached(r)] == [m0] + list[1..][..Reached(rest)];
    forall m | m in meshes
      ensures r.meshes[m] == if m in list[..Reached(r)] then ApplyMeshFixAsWritten(alg, meshes[m], matrix).mesh else meshes[m]
    {
      if m != m0 {
        assert m in list[..Reached(r)] <==> m in list[1..][..Reached(rest)];
        assert written[m] == meshes[m];
      }
    }
  }

  /** The meshes the mesh loop was meant to leave: each mesh `LocateMeshes` finds is
      rotated by the corrected rewrite. */
  function RotatedMeshes<M>(alg: MatrixAlgebra<M>, meshes: MeshStore<M>, root: Node, matrix: M): MeshStore<M> {
    map m | m in meshes ::
      if Some(m) in SceneMeshes(root) then ApplyMeshFix(alg, meshes[m], matrix) else meshes[m]
  }

  /** The located list has no repeats and only stored meshes, so the mesh loop can
      run over it. */
  lemma MeshListInStore<M>(root: Node, meshes: MeshStore<M>)
    requires SceneInStore(root, meshes)
    ensures Lists.NoDuplicates(MeshList(root)) && forall m :: m in MeshList(root) ==> m in meshes
    ensures forall m :: m in MeshList(root) <==> Some(m) in SceneMeshes(root)
  {
    assert Lists.NoDuplicates<MeshId>([]);
    LocatedInStore(root, meshes, MeshList(root));
  }

  /** The mesh loop raises exactly when some listed mesh has fewer normals than
      vertices. */
  lemma MeshLoopFailsIff<M>(alg: MatrixAlgebra<M>, meshes: MeshStore<M>, list: seq<MeshId>, matrix: M)
    requires Lists.NoDuplicates(list) && forall m :: m in list ==> m in meshes
    ensures MeshLoop(alg, meshes, list, matrix).failure.Some? <==>
      exists m :: m in list && RaisesOnNormals(meshes[m])
  {
    var r := MeshLoop(alg, meshes, list, matrix);
    if r.failure.Some? {
      assert list[r.done] in list;
    } else {
      forall m | m in list ensures !RaisesOnNormals(meshes[m]) {
        var j :| 0 <= j < |list| && list[j] == m;
      }
    }
  }

  /** When every listed mesh has as many normals as vertices, the loop as written runs
      to the end and leaves exactly what the corrected rewrite gives. */
  lemma MeshLoopMatchesCorrected<M>(alg: MatrixAlgebra<M>, meshes: MeshStore<M>, list: seq<MeshId>, matrix: M)
    requires Lists.NoDuplicates(list) && forall m :: m in list ==> m in meshes
    requires forall m :: m in list ==> |meshes[m].normals| == |meshes[m].vertices|
    ensures MeshLoop(alg, meshes, list, matrix).failure.None?
    ensures MeshLoop(alg, meshes, list, matrix).meshes == FixListedMeshes(alg, meshes, list, matrix)
  {
    MeshLoopFailsIff(alg, meshes, list, matrix);
    var r := MeshLoop(alg, meshes, list, matrix);
    var f := FixListedMeshes(alg, meshes, list, matrix);
    assert list[..Reached(r)] == list;
    forall m | m in meshes ensures r.meshes[m] == f[m] {
      if m in list {
        ApplyMeshFixAgrees(alg, meshes[m], matrix);
      }
    }
  }

  /** On a scene whose located meshes all have as many normals as vertices, the
      source's mesh loop leaves the intended rotated meshes. */
  lemma MeshLoopRotatesScene<M>(alg: MatrixAlgebra<M>, meshes: MeshStore<M>, root: Node, matrix: M)
    requires SceneInStore(root, meshes)
    requires forall m :: Some(m) in SceneMeshes(root) && m in meshes ==> |meshes[m].normals| == |meshes[m].vertices|
    ensures (MeshListInStore(root, meshes);
      && MeshLoop(alg, meshes, MeshList(root), matrix).failure.None?
      && MeshLoop(alg, meshes, MeshList(root), matrix).meshes == RotatedMeshes(alg, meshes, root, matrix))
  {
    MeshListInStore(root, meshes);
    MeshLoopMatchesCorrected(alg, meshes, MeshList(root), matrix);
  }

  /** The state after the fix ran with `flipZ`: the transform pass's result and the
      mesh loop's meshes. When a mesh raised, the hook stops there: no bind pose is
      touched and no reimport is requested. Otherwise the bind poses of the first
      `renderersDone` surviving renderers are fixed, and a reimport follows exactly
      when no renderer raised. */
  ghost predicate FixedModel<M>(alg: MatrixAlgebra<M>, imp: ModelImport<M>, flipZ: bool,
                                engine: NodeId -> EngineFrame<M>, res: ModelOutcome<M>)
    requires SceneInStore(imp.root, imp.meshes)
  {
    MeshListInStore(imp.root, imp.meshes);
    var renderers := SurvivingRenderers(imp.root);
    var loop := MeshLoop(alg, imp.meshes, MeshList(imp.root), MeshMatrix(alg, flipZ));
    && TransformPassResult(alg, imp.root, flipZ, engine, res.deleted, res.modifications, res.transforms)
    && res.tangentsRecalculated == imp.importTangents
    && (loop.failure.Some? ==>
          && res.meshes == loop.meshes && res.renderersDone == 0
          && res.failure == Some(MeshFailed(loop.failure.value)) && !res.reimported)
    && (loop.failure.None? ==>
          && RenderersInStore(loop.meshes, renderers)
          && res.renderersDone <= |renderers|
          && FixedUpTo(alg, loop.meshes, renderers, res.modifications, res.renderersDone, res.meshes)
          && (res.failure.None? <==> res.renderersDone == |renderers|)
          && (res.failure.Some? ==>
                && res.failure.value.BindPoseFailed? && res.renderersDone < |renderers|
                && RendererRaises(alg, loop.meshes, renderers, res.modifications, res.renderersDone,
                                  res.failure.value.bindPose))
          && (res.reimported <==> res.failure.None?))
  }

  /** `OnPostprocessModel`: a gate failure raises before anything is touched, a gate
      that is off leaves everything as it was, and a gate that is on runs the fix. */
  method OnPostprocessModel<M>(alg: MatrixAlgebra<M>, imp: ModelImport<M>, decode: string -> UserData.Decoded,
                               engine: NodeId -> EngineFrame<M>)
    returns (res: ModelOutcome<M>)
    requires DistinctIds(imp.root) && SceneInStore(imp.root, imp.meshes)
    ensures var gate := ModelGate(imp.assetPath, imp.content, imp.userData, decode);
      gate.Err? ==> res == ModelOutcome({}, map[], map[], imp.meshes, 0, false, Some(GateFailed(gate.error)), false)
    ensures ModelGate(imp.assetPath, imp.content, imp.userData, decode) == Ok(Skip) ==>
      res == ModelOutcome({}, map[], map[], imp.meshes, 0, false, None, false)
    ensures var gate := ModelGate(imp.assetPath, imp.content, imp.userData, decode);
      gate.Ok? && gate.value.Apply? ==> FixedModel(alg, imp, gate.value.flipZ, engine, res)
  {
    var gate := ModelGate(imp.assetPath, imp.content, imp.userData, decode);
    if gate.Err? {
      return ModelOutcome({}, map[], map[], imp.meshes, 0, false, Some(GateFailed(gate.error)), false);
    }
    if gate.value.Skip? {
      return ModelOutcome({}, map[], map[], imp.meshes, 0, false, None, false);
    }
    res := RunModelFix(alg, imp, gate.value.flipZ, engine);
  }

  /** The body of `OnPostprocessModel` once the gate is on. */
  method RunModelFix<M>(alg: MatrixAlgebra<M>, imp: ModelImport<M>, flipZ: bool, engine: NodeId -> EngineFrame<M>)
    returns (res: ModelOutcome<M>)
    requires DistinctIds(imp.root) && SceneInStore(imp.root, imp.meshes)
    ensures FixedModel(alg, imp, flipZ, engine, res)
  {
    var list := LocateMeshes(imp.root);
    var deleted, modifications, fixedTransforms := TransformPass(alg, imp.root, flipZ, engine);
    MeshListInStore(imp.root, imp.meshes);
    var loop := MeshLoop(alg, imp.meshes, list, MeshMatrix(alg, flipZ));
    if loop.failure.Some? {
      return ModelOutcome(deleted, modifications, fixedTransforms, loop.meshes, 0, imp.importTangents,
                          Some(MeshFailed(loop.failure.value)), false);
    }
    var renderers := SurvivingRenderers(imp.root);
    SurvivorsInStore(imp.root, imp.meshes);
    assert RenderersInStore(loop.meshes, renderers);
    var out, fixedList, failure, done := FixAllBindPoses(alg, loop.meshes, renderers, modifications);
    var modelFailure := if failure.Some? then Some(BindPoseFailed(failure.value)) else None;
    res := ModelOutcome(deleted, modifications, fixedTransforms, out, done, imp.importTangents, modelFailure, failure.None?);
  }

  // ---------------------------------------------------------------------------
  // Animation

  datatype AnimationFailure = AnimationGateFailed(gate: GateError) | CurvesFailed(curves: AnimationClip.CurveError)

  /** The lock-step error inside an animation failure, if that is what it is. */
  function CurveFailure(f: Option<AnimationFailure>): Option<AnimationClip.CurveError> {
    if f.Some? && f.value.CurvesFailed? then Some(f.value.curves) else None
  }

  /** The animation failure a lock-step error raises. */
  function LiftCurveFailure(cf: Option<AnimationClip.CurveError>): (r: Option<AnimationFailure>)
    ensures CurveFailure(r) == cf && (r.Some? ==> r.value.CurvesFailed?) && (r.None? <==> cf.None?)
  {
    if cf.Some? then Some(CurvesFailed(cf.value)) else None
  }

  /** `OnPostprocessAnimation`: when the gate is on, the clip's transform curves are
      grouped by path and each group is rewritten in turn; the first group whose
      curves are not in lock-step raises, after the groups before it were written and
      with what it wrote itself kept; the later groups are untouched. A reimport is
      requested only when every group was rewritten. */
  method OnPostprocessAnimation(path: string, content: Result<string, IoError>, userData: Option<string>,
                                decode: string -> UserData.Decoded,
                                bindings: seq<AnimationFix.Binding>, clip: AnimationClip.Clip)
    returns (grouping: AnimationFix.Grouping, out: AnimationClip.Clip, failure: Option<AnimationFailure>,
             done: nat, reimported: bool)
    requires forall b :: b in bindings ==> b in clip
    ensures var gate := ModelGate(path, content, userData, decode);
      gate.Err? ==> out == clip && failure == Some(AnimationGateFailed(gate.error)) && !reimported
    ensures ModelGate(path, content, userData, decode) == Ok(Skip) ==> out == clip && failure.None? && !reimported
    ensures var gate := ModelGate(path, content, userData, decode);
      gate.Ok? && gate.value.Apply? ==>
        && AnimationClip.ClipProcessed(bindings, clip, gate.value.flipZ, grouping, out, CurveFailure(failure), done)
        && (failure.Some? ==> failure.value.CurvesFailed?)
        && (reimported <==> failure.None?)
  {
    var gate := ModelGate(path, content, userData, decode);
    grouping := AnimationFix.Grouping([], map[], []);
    done := 0;
    if gate.Err? {
      return grouping, clip, Some(AnimationGateFailed(gate.error)), done, false;
    }
    if gate.value.Skip? {
      return grouping, clip, None, done, false;
    }
    grouping, out, failure, done, reimported := RunAnimationFix(bindings, clip, gate.value.flipZ);
  }

  /** The body of `OnPostprocessAnimation` once the gate is on. */
  method RunAnimationFix(bindings: seq<AnimationFix.Binding>, clip: AnimationClip.Clip, flipZ: bool)
    returns (grouping: AnimationFix.Grouping, out: AnimationClip.Clip, failure: Option<AnimationFailure>,
             done: nat, reimported: bool)
    requires forall b :: b in bindings ==> b in clip
    ensures AnimationClip.ClipProcessed(bindings, clip, flipZ, grouping, out, CurveFailure(failure), done)
    ensures failure.Some? ==> failure.value.CurvesFailed?
    ensures reimported <==> failure.None?
  {
    var curveFailure: Option<AnimationClip.CurveError>;
    grouping, out, curveFailure, done := AnimationClip.ProcessClip(bindings, clip, flipZ);
    failure := LiftCurveFailure(curveFailure);
    reimported := curveFailure.None?;
  }
}

=== FILE: quaternions.dfy ===
/** Vectors, quaternions and the fixed axis-conversion constants, over exact reals.
    The source computes in 32-bit floats; this model states the algebra exactly. */
module Quaternions {

  datatype Vec3 = Vec3(x: real, y: real, z: real)

  /** Component order (x, y, z, w) as in the engine's quaternion type. */
  datatype Quaternion = Quaternion(x: real, y: real, z: real, w: real)

  /** The source's rounded value of sqrt(2)/2. */
  const SQRT_2_HALF: real := 0.70710678

  /** Sign pattern (-1, 1, -1) for the optional front-axis flip. */
  const Z_FLIP_SCALE: Vec3 := Vec3(-1.0, 1.0, -1.0)

  /** Mesh rotation without flip: -90 degrees about X. */
  const ROTATION_FIX: Quaternion := Quaternion(-SQRT_2_HALF, 0.0, 0.0, SQRT_2_HALF)

  /** Mesh rotation with flip. */
  const ROTATION_FIX_Z_FLIP: Quaternion := Quaternion(0.0, SQRT_2_HALF, SQRT_2_HALF, 0.0)

  /** Right factor composed onto every animated rotation key. */
  const ANIM_ROTATION_FIX: Quaternion := Quaternion(SQRT_2_HALF, 0.0, 0.0, SQRT_2_HALF)

  /** Quaternion applied on both sides of an animated rotation when flipping. */
  const MIRROR: Quaternion := Quaternion(0.0, 1.0, 0.0, 0.0)

  const IDENTITY: Quaternion := Quaternion(0.0, 0.0, 0.0, 1.0)

  /** Component-wise product (the engine's `Vector3.Scale`). */
  function Scale(v: Vec3, s: Vec3): Vec3 {
    Vec3(v.x * s.x, v.y * s.y, v.z * s.z)
  }

  /** The Y/Z exchange applied to local scales. */
  function SwapYZ(v: Vec3): (r: Vec3)
    ensures r.x == v.x && r.y == v.z && r.z == v.y
  {
    Vec3(v.x, v.z, v.y)
  }

  /** Hamilton product `a * b`. */
  function Mul(a: Quaternion, b: Quaternion): Quaternion {
    Quaternion(
      a.w * b.x + a.x * b.w + a.y * b.z - a.z * b.y,
      a.w * b.y + a.y * b.w + a.z * b.x - a.x * b.z,
      a.w * b.z + a.z * b.w + a.x * b.y - a.y * b.x,
      a.w * b.w - a.x * b.x - a.y * b.y - a.z * b.z)
  }

  function Add(a: Quaternion, b: Quaternion): Quaternion {
    Quaternion(a.x + b.x, a.y + b.y, a.z + b.z, a.w + b.w)
  }

  function ScaleBy(c: real, a: Quaternion): Quaternion {
    Quaternion(c * a.x, c * a.y, c * a.z, c * a.w)
  }

  function NormSquared(q: Quaternion): real {
    q.x * q.x + q.y * q.y + q.z * q.z + q.w * q.w
  }

  /** Multiplicative inverse: the conjugate divided by the squared norm. */
  function Inverse(q: Quaternion): Quaternion
    requires NormSquared(q) != 0.0
  {
    var n := NormSquared(q);
    Quaternion(-q.x / n, -q.y / n, -q.z / n, q.w / n)
  }

  /** Exact inverse of the rounded correction; its squared norm is 2 * 0.70710678^2, not 1. */
  const ANIM_ROTATION_FIX_INVERSE: Quaternion :=
    Quaternion(-SQRT_2_HALF / 0.9999999966439368, 0.0, 0.0, SQRT_2_HALF / 0.9999999966439368)

  /** MIRROR * MIRROR is -1, so the inverse of MIRROR is its negation. */
  const MIRROR_INVERSE: Quaternion := Quaternion(0.0, -1.0, 0.0, 0.0)

  lemma InverseConstants()
    ensures NormSquared(ANIM_ROTATION_FIX) == 2.0 * SQRT_2_HALF * SQRT_2_HALF == 0.9999999966439368
    ensures Inverse(ANIM_ROTATION_FIX) == ANIM_ROTATION_FIX_INVERSE
    ensures Inverse(MIRROR) == MIRROR_INVERSE
  {
  }

  /** The operator applied to every animated rotation key (value and both tangents). */
  function AnimRotationFix(flipZ: bool, q: Quaternion): Quaternion {
    if flipZ then Mul(Mul(MIRROR, Mul(q, ANIM_ROTATION_FIX)), MIRROR)
    else Mul(q, ANIM_ROTATION_FIX)
  }

  /** Reference inverse of `AnimRotationFix`: strip the mirrors, then the correction. */
  function AnimRotationUnfix(flipZ: bool, p: Quaternion): Quaternion {
    if flipZ then Mul(Mul(Mul(MIRROR_INVERSE, p), MIRROR_INVERSE), ANIM_ROTATION_FIX_INVERSE)
    else Mul(p, ANIM_ROTATION_FIX_INVERSE)
  }

  lemma CorrectionCancels(q: Quaternion)
    ensures Mul(Mul(q, ANIM_ROTATION_FIX), ANIM_ROTATION_FIX_INVERSE) == q
    ensures Mul(Mul(q, ANIM_ROTATION_FIX_INVERSE), ANIM_ROTATION_FIX) == q
  {
  }

  lemma MirrorCancels(a: Quaternion)
    ensures Mul(MIRROR_INVERSE, Mul(Mul(MIRROR, a), MIRROR)) == Mul(a, MIRROR)
    ensures Mul(Mul(a, MIRROR), MIRROR_INVERSE) == a
    ensures Mul(MIRROR, Mul(Mul(MIRROR_INVERSE, a), MIRROR_INVERSE)) == Mul(a, MIRROR_INVERSE)
    ensures Mul(Mul(a, MIRROR_INVERSE), MIRROR) == a
  {
  }

  /** Round trip: undoing the animation rotation fix restores every key. */
  lemma AnimRotationRoundTrip(flipZ: bool, q: Quaternion)
    ensures AnimRotationUnfix(flipZ, AnimRotationFix(flipZ, q)) == q
  {
    var a := Mul(q, ANIM_ROTATION_FIX);
    CorrectionCancels(q);
    if flipZ {
      MirrorCancels(a);
    }
  }

  /** The fix is onto: every quaternion is the image of its unfixed form. */
  lemma AnimRotationSurjective(flipZ: bool, p: Quaternion)
    ensures AnimRotationFix(flipZ, AnimRotationUnfix(flipZ, p)) == p
  {
    if flipZ {
      var b := Mul(Mul(MIRROR_INVERSE, p), MIRROR_INVERSE);
      CorrectionCancels(b);
      MirrorCancels(p);
      assert Mul(MIRROR, b) == Mul(p, MIRROR_INVERSE);
    } else {
      CorrectionCancels(p);
    }
  }

  /** The fix is linear, which is why the source may apply it to tangents as well
      as to values: the tangent of the fixed curve is the fixed tangent. */
  lemma AnimRotationLinear(flipZ: bool, a: Quaternion, b: Quaternion, c: real)
    ensures AnimRotationFix(flipZ, Add(a, b)) == Add(AnimRotationFix(flipZ, a), AnimRotationFix(flipZ, b))
    ensures AnimRotationFix(flipZ, ScaleBy(c, a)) == ScaleBy(c, AnimRotationFix(flipZ, a))
  {
    var fa, fb := Mul(a, ANIM_ROTATION_FIX), Mul(b, ANIM_ROTATION_FIX);
    CorrectionLinear(a, b, c);
    if flipZ {
      MirrorLinear(fa, fb, c);
      MirrorLinear(Mul(MIRROR, fa), Mul(MIRROR, fb), c);
    }
  }

  /** Composing with the correction on the right is linear. */
  lemma CorrectionLinear(a: Quaternion, b: Quaternion, c: real)
    ensures Mul(Add(a, b), ANIM_ROTATION_FIX) == Add(Mul(a, ANIM_ROTATION_FIX), Mul(b, ANIM_ROTATION_FIX))
    ensures Mul(ScaleBy(c, a), ANIM_ROTATION_FIX) == ScaleBy(c, Mul(a, ANIM_ROTATION_FIX))
  {
  }

  /** Composing with the mirror on either side is linear. */
  lemma MirrorLinear(a: Quaternion, b: Quaternion, c: real)
    ensures Mul(MIRROR, Add(a, b)) == Add(Mul(MIRROR, a), Mul(MIRROR, b))
    ensures Mul(Add(a, b), MIRROR) == Add(Mul(a, MIRROR), Mul(b, MIRROR))
    ensures Mul(MIRROR, ScaleBy(c, a)) == ScaleBy(c, Mul(MIRROR, a))
    ensures Mul(ScaleBy(c, a), MIRROR) == ScaleBy(c, Mul(a, MIRROR))
  {
  }

  /** The flip sign pattern and the Y/Z scale swap are both involutions. */
  lemma ZFlipInvolution(v: Vec3)
    ensures Scale(Scale(v, Z_FLIP_SCALE), Z_FLIP_SCALE) == v
  {
  }

  lemma SwapYZInvolution(v: Vec3)
    ensures SwapYZ(SwapYZ(v)) == v
  {
  }
}

=== FILE: results.dfy ===
/** Optional values and results with an error, standing in for C# null references
    and thrown exceptions throughout the model. */
module Results {

  /** A value that may be absent (a null reference in the source). */
  datatype Option<+T> = None | Some(value: T) {
    function GetOr(fallback: T): T {
      match this
      case Some(v) => v
      case None => fallback
    }
  }

  /** Either a value or the error that the source would have thrown. */
  datatype Result<+T, +E> = Ok(value: T) | Err(error: E) {
    predicate IsFailure() {
      Err?
    }

    function PropagateFailure<U>(): Result<U, E>
      requires Err?
    {
      Err(error)
    }

    function Extract(): T
      requires Ok?
    {
      value
    }
  }
}

=== FILE: scene_graph.dfy ===
/** The imported scene as the post-processors see it: a tree of nodes whose
    components are enumerated in preorder (the engine's `GetComponentsInChildren`
    with inactive objects included), the deletion predicate, the duplicate-free mesh
    collection and the pointwise mesh rewrite. Matrices are an abstract type `M`
    with the operations passed in a `MatrixAlgebra` record. */
module SceneGraph {
  import opened Results
  import opened Quaternions
  import Lists

  type NodeId = nat
  type MeshId = nat

  /** The components the passes look at; `None` stands for a null shared mesh. */
  datatype Component =
    | MeshFilter(sharedMesh: Option<MeshId>)
    | MeshRenderer(enabled: bool)
    | SkinnedMeshRenderer(skinnedMesh: Option<MeshId>, bones: seq<NodeId>)
    | OtherComponent

  /** A scene node: its transform identity, its components and its children. */
  datatype Node = Node(id: NodeId, components: seq<Component>, children: seq<Node>)

  /** The node and all its descendants, parents before children. */
  function Preorder(n: Node): (r: seq<Node>)
    ensures |r| >= 1 && r[0] == n
    decreases n, 1
  {
    [n] + PreorderAll(n.children)
  }

  function PreorderAll(ns: seq<Node>): seq<Node>
    decreases ns, 0
  {
    if |ns| == 0 then [] else Preorder(ns[0]) + PreorderAll(ns[1..])
  }

  /** Every node of the tree has its own transform. */
  predicate DistinctIds(root: Node) {
    var ns := Preorder(root);
    forall i, j :: 0 <= i < j < |ns| ==> ns[i].id != ns[j].id
  }

  /** The components of the nodes, node by node. */
  function ComponentsOf(ns: seq<Node>): seq<Component> {
    if |ns| == 0 then [] else ns[0].components + ComponentsOf(ns[1..])
  }

  /** The shared meshes of the mesh filters among `cs`, in order. */
  function FilterMeshes(cs: seq<Component>): (r: seq<Option<MeshId>>)
    ensures forall m {:trigger m in r} :: m in r <==> MeshFilter(m) in cs
  {
    if |cs| == 0 then []
    else (if cs[0].MeshFilter? then [cs[0].sharedMesh] else []) + FilterMeshes(cs[1..])
  }

  /** The skinned renderers among `cs`, in order. */
  function SkinnedRenderers(cs: seq<Component>): (r: seq<Component>)
    ensures forall c {:trigger c in r} :: c in r <==> c in cs && c.SkinnedMeshRenderer?
  {
    if |cs| == 0 then []
    else (if cs[0].SkinnedMeshRenderer? then [cs[0]] else []) + SkinnedRenderers(cs[1..])
  }

  function SkinnedMeshes(rs: seq<Component>): (r: seq<Option<MeshId>>)
    requires forall c :: c in rs ==> c.SkinnedMeshRenderer?
    ensures |r| == |rs| && forall i :: 0 <= i < |rs| ==> r[i] == rs[i].skinnedMesh
  {
    if |rs| == 0 then [] else [rs[0].skinnedMesh] + SkinnedMeshes(rs[1..])
  }

  /** The enabled flag of the node's first mesh renderer, if it has one. */
  function FirstMeshRenderer(cs: seq<Component>): (r: Option<bool>)
    ensures r.None? <==> forall i :: 0 <= i < |cs| ==> !cs[i].MeshRenderer?
    ensures r.Some? ==> exists i :: (0 <= i < |cs| && cs[i].MeshRenderer? && cs[i].enabled == r.value &&
      forall j :: 0 <= j < i ==> !cs[j].MeshRenderer?)
  {
    if |cs| == 0 then None
    else if cs[0].MeshRenderer? then Some(cs[0].enabled)
    else
      var r := FirstMeshRenderer(cs[1..]);
      assert forall i :: 1 <= i < |cs| ==> cs[1..][i - 1] == cs[i];
      if r.Some? then
        var i :| 0 <= i < |cs[1..]| && cs[1..][i].MeshRenderer? && cs[1..][i].enabled == r.value &&
          forall j :: 0 <= j < i ==> !cs[1..][j].MeshRenderer?;
        assert cs[i + 1].MeshRenderer? && forall j :: 0 <= j < i + 1 ==> !cs[j].MeshRenderer?;
        r
      else r
  }

  /** `ShouldDeleteObject`: the node's first mesh renderer is disabled and the node has
      no children. A node without a mesh renderer is kept. */
  predicate ShouldDeleteObject(n: Node) {
    match FirstMeshRenderer(n.components)
    case None => false
    case Some(enabled) => !enabled && |n.children| == 0
  }

  /** The deletion predicate holds exactly for a childless node whose first mesh
      renderer is disabled. */
  lemma ShouldDeleteObjectSpec(n: Node)
    ensures ShouldDeleteObject(n) <==>
      |n.children| == 0 &&
      exists i :: 0 <= i < |n.components| && n.components[i] == MeshRenderer(false) &&
        forall j :: 0 <= j < i ==> !n.components[j].MeshRenderer?
  {
    var cs := n.components;
    if ShouldDeleteObject(n) {
      var i :| 0 <= i < |cs| && cs[i].MeshRenderer? && cs[i].enabled == false &&
        forall j :: 0 <= j < i ==> !cs[j].MeshRenderer?;
      assert cs[i] == MeshRenderer(false);
    }
    if |n.children| == 0 && exists i :: (0 <= i < |cs| && cs[i] == MeshRenderer(false) &&
        forall j :: 0 <= j < i ==> !cs[j].MeshRenderer?) {
      var i :| 0 <= i < |cs| && cs[i] == MeshRenderer(false) && forall j :: 0 <= j < i ==> !cs[j].MeshRenderer?;
      var r := FirstMeshRenderer(cs);
      assert r.Some?;
      var k :| 0 <= k < |cs| && cs[k].MeshRenderer? && cs[k].enabled == r.value &&
        forall j :: 0 <= j < k ==> !cs[j].MeshRenderer?;
      assert k == i;
    }
  }

  /** `LocateMeshes` over a subtree: the non-null shared meshes of its mesh filters,
      then of its skinned renderers, each mesh once, in first-seen order. */
  method LocateMeshes(root: Node) returns (list: seq<MeshId>)
    ensures var seen := FilterMeshes(ComponentsOf(Preorder(root))) +
      SkinnedMeshes(SkinnedRenderers(ComponentsOf(Preorder(root))));
      && Lists.NoDuplicates(list)
      && (forall m :: m in list <==> Some(m) in seen)
      && list == Lists.AppendNew([], Lists.Present(seen))
  {
    var cs := ComponentsOf(Preorder(root));
    var seen := FilterMeshes(cs) + SkinnedMeshes(SkinnedRenderers(cs));
    list := [];
    for i := 0 to |seen|
      invariant list == Lists.AppendNew([], Lists.Present(seen[..i]))
    {
      LocateMeshesStep(seen, i, list);
      if seen[i].Some? && seen[i].value !in list {
        list := list + [seen[i].value];
      }
    }
    assert seen[..|seen|] == seen;
    assert Lists.NoDuplicates<MeshId>([]);
  }

  /** One iteration of the collection loop: a present mesh not yet listed is added. */
  lemma LocateMeshesStep(seen: seq<Option<MeshId>>, i: nat, list: seq<MeshId>)
    requires i < |seen| && list == Lists.AppendNew([], Lists.Present(seen[..i]))
    ensures Lists.AppendNew([], Lists.Present(seen[..i + 1])) ==
      if seen[i].Some? && seen[i].value !in list then list + [seen[i].value] else list
  {
    Lists.PrefixStep(seen, i);
    Lists.PresentSnoc(seen[..i], seen[i]);
    if seen[i].Some? {
      Lists.AppendNewSnoc([], Lists.Present(seen[..i]), seen[i].value);
    }
  }

  /** Filter meshes come first: a mesh some filter holds precedes every mesh only the
      skinned renderers hold. */
  lemma LocateMeshesFiltersFirst(filters: seq<Option<MeshId>>, skinned: seq<Option<MeshId>>, i: nat, j: nat)
    requires var list := Lists.AppendNew([], Lists.Present(filters + skinned));
      i < |list| && j < |list| && Some(list[i]) in filters && Some(list[j]) !in filters
    ensures i < j
  {
    Lists.PresentAppend(filters, skinned);
    Lists.AppendNewPrefixFirst(Lists.Present(filters), Lists.Present(skinned), i, j);
  }

  // ---------------------------------------------------------------------------
  // Meshes

  /** The matrix operations the passes use, on an abstract matrix type. */
  datatype MatrixAlgebra<!M> = MatrixAlgebra(
    mul: (M, M) -> M,
    inverse: M -> M,
    multiplyPoint: (M, Vec3) -> Vec3,
    rotate: Quaternion -> M,
    euler: Vec3 -> Quaternion)

  /** The mesh arrays the passes touch. */
  datatype MeshData<M> = MeshData(vertices: seq<Vec3>, normals: seq<Vec3>, bindposes: seq<M>)

  /** The normals loop reads an index past the end of the normals array. */
  datatype MeshError = NormalIndexOutOfRange(index: nat)

  /** A mesh after the rewrite, and the error that cut it short, if any. */
  datatype MeshFixOutcome<M> = MeshFixOutcome(mesh: MeshData<M>, failure: Option<MeshError>)

  function MapPoints<M>(alg: MatrixAlgebra<M>, matrix: M, ps: seq<Vec3>): (r: seq<Vec3>)
    ensures |r| == |ps| && forall i :: 0 <= i < |ps| ==> r[i] == alg.multiplyPoint(matrix, ps[i])
  {
    seq(|ps|, i requires 0 <= i < |ps| => alg.multiplyPoint(matrix, ps[i]))
  }

  /** `ApplyMeshFix` as the source writes it: the vertices are mapped and stored first;
      then the normals loop runs over the vertex count, so a mesh with fewer normals
      than vertices (the engine returns an empty array when a mesh has none) raises
      after the vertices were already written. */
  function ApplyMeshFixAsWritten<M>(alg: MatrixAlgebra<M>, m: MeshData<M>, matrix: M): (r: MeshFixOutcome<M>)
    ensures r.mesh.vertices == MapPoints(alg, matrix, m.vertices) && r.mesh.bindposes == m.bindposes
    ensures r.failure.Some? <==> |m.normals| < |m.vertices|
    ensures r.failure.Some? ==> r.failure.value.index == |m.normals| && r.mesh.normals == m.normals
  {
    var withVertices := m.(vertices := MapPoints(alg, matrix, m.vertices));
    var n := |m.vertices|;
    if |m.normals| < n then MeshFixOutcome(withVertices, Some(NormalIndexOutOfRange(|m.normals|)))
    else
      var normals := seq(|m.normals|, i requires 0 <= i < |m.normals| =>
        if i < n then alg.multiplyPoint(matrix, m.normals[i]) else m.normals[i]);
      MeshFixOutcome(withVertices.(normals := normals), None)
  }

  /** The mesh rewrite with the normals loop bounded by the normals' own count: every
      vertex and every normal is mapped by the matrix, bind poses are untouched, and no
      mesh makes it fail. */
  function ApplyMeshFix<M>(alg: MatrixAlgebra<M>, m: MeshData<M>, matrix: M): (r: MeshData<M>)
    ensures |r.vertices| == |m.vertices| && |r.normals| == |m.normals| && r.bindposes == m.bindposes
    ensures forall i :: 0 <= i < |m.vertices| ==> r.vertices[i] == alg.multiplyPoint(matrix, m.vertices[i])
    ensures forall i :: 0 <= i < |m.normals| ==> r.normals[i] == alg.multiplyPoint(matrix, m.normals[i])
  {
    MeshData(MapPoints(alg, matrix, m.vertices), MapPoints(alg, matrix, m.normals), m.bindposes)
  }

  /** On every mesh whose normals match its vertices, the corrected rewrite is the
      source's. */
  lemma ApplyMeshFixAgrees<M>(alg: MatrixAlgebra<M>, m: MeshData<M>, matrix: M)
    requires |m.normals| == |m.vertices|
    ensures ApplyMeshFixAsWritten(alg, m, matrix) == MeshFixOutcome(ApplyMeshFix(alg, m, matrix), None)
  {
    var r := ApplyMeshFixAsWritten(alg, m, matrix);
    assert r.mesh.normals == ApplyMeshFix(alg, m, matrix).normals;
  }

  /** A one-vertex mesh without normals makes the source's rewrite raise, while the
      corrected rewrite maps its vertex. */
  lemma MeshWithoutNormalsFails<M>(alg: MatrixAlgebra<M>, matrix: M, v: Vec3)
    ensures ApplyMeshFixAsWritten(alg, MeshData([v], [], []), matrix).failure == Some(NormalIndexOutOfRange(0))
    ensures ApplyMeshFix(alg, MeshData([v], [], []), matrix) == MeshData([alg.multiplyPoint(matrix, v)], [], [])
  {
  }

  /** Rewriting with a matrix and then with one whose point map undoes it restores
      the mesh. */
  lemma {:induction false} ApplyMeshFixRoundTrip<M>(alg: MatrixAlgebra<M>, m: MeshData<M>, matrix: M, undo: M)
    requires forall p :: alg.multiplyPoint(undo, alg.multiplyPoint(matrix, p)) == p
    ensures ApplyMeshFix(alg, ApplyMeshFix(alg, m, matrix), undo) == m
  {
    var r := ApplyMeshFix(alg, ApplyMeshFix(alg, m, matrix), undo);
    assert r.vertices == m.vertices;
    assert r.normals == m.normals;
  }
}

=== FILE: text.dfy ===
/** The few string predicates the source relies on: `string.IsNullOrWhiteSpace`,
    `EndsWith(…, OrdinalIgnoreCase)` and `string.Contains`. */
module Text {
  import opened Results

  /** The characters `char.IsWhiteSpace` accepts (Unicode categories Zs, Zl, Zp
      and the control characters U+0009..U+000D, U+0085). */
  predicate IsWhiteSpace(c: char) {
    c == ' ' || ('\t' <= c <= '\r') || c == '\U{0085}' || c == '\U{00A0}' || c == '\U{1680}'
    || ('\U{2000}' <= c <= '\U{200A}') || c == '\U{2028}' || c == '\U{2029}' || c == '\U{202F}'
    || c == '\U{205F}' || c == '\U{3000}'
  }

  /** `string.IsNullOrWhiteSpace`; `None` stands for a null string. */
  function IsNullOrWhiteSpace(s: Option<string>): (r: bool)
    ensures r <==> s.None? || forall i :: 0 <= i < |s.value| ==> IsWhiteSpace(s.value[i])
  {
    match s
    case None => true
    case Some(t) => AllWhiteSpace(t)
  }

  function AllWhiteSpace(t: string): (r: bool)
    ensures r <==> forall i :: 0 <= i < |t| ==> IsWhiteSpace(t[i])
  {
    if |t| == 0 then true
    else IsWhiteSpace(t[0]) && AllWhiteSpace(t[1..])
  }

  /** Ordinal case folding, restricted to ASCII letters. */
  function FoldCase(c: char): char {
    if 'a' <= c <= 'z' then (c as int - 32) as char else c
  }

  /** `s.EndsWith(suffix, StringComparison.OrdinalIgnoreCase)`. */
  predicate EndsWithIgnoreCase(s: string, suffix: string) {
    |suffix| <= |s| &&
    forall i :: 0 <= i < |suffix| ==> FoldCase(s[|s| - |suffix| + i]) == FoldCase(suffix[i])
  }

  /** `s` has `t` as a contiguous substring starting at `i`. */
  predicate OccursAt(s: string, t: string, i: int) {
    0 <= i && i + |t| <= |s| && s[i..i + |t|] == t
  }

  /** `s.Contains(t)`: ordinal substring search. */
  function Contains(s: string, t: string): (r: bool)
    ensures r <==> exists i :: OccursAt(s, t, i)
    decreases |s|
  {
    if |s| < |t| then false
    else if s[..|t|] == t then
      assert OccursAt(s, t, 0);
      true
    else
      var r := Contains(s[1..], t);
      assert r ==> exists i :: OccursAt(s, t, i) by {
        if r {
          var i :| OccursAt(s[1..], t, i);
          assert s[1..][i..i + |t|] == s[i + 1..i + 1 + |t|];
          assert OccursAt(s, t, i + 1);
        }
      }
      assert (exists i :: OccursAt(s, t, i)) ==> r by {
        if exists i :: OccursAt(s, t, i) {
          var i :| OccursAt(s, t, i);
          assert i != 0;
          assert s[1..][i - 1..i - 1 + |t|] == s[i..i + |t|];
          assert OccursAt(s[1..], t, i - 1);
        }
      }
      r
  }
}

=== FILE: transform_fix.dfy ===
/** The per-transform fix of the scene pass and the pass itself: every transform
    below the root is either destroyed or restored to its stored world pose,
    re-expressed in the converted axes, rotated about its local X axis (or reset)
    and given a local scale with Y and Z swapped. The pass records, for each kept
    transform, the change of its world matrix. Quantities the engine computes
    (Euler angles, world matrices, the near-snap test on the local angles) are
    inputs. */
module TransformFix {
  import opened Results
  import opened Quaternions
  import opened SceneGraph
  import BindPoses

  /** The world position of a transform and the Euler angles of its world rotation,
      as stored before the pass. */
  datatype StoredPose = StoredPose(position: Vec3, eulerAngles: Vec3)

  /** How the world rotation is written back: the stored rotation itself, or
      rewritten from Euler angles. */
  datatype WorldRotation = StoredRotation | EulerAngles(angles: Vec3)

  /** The final local-rotation step: a reset to the identity or a turn about local X. */
  datatype RotationStep = ResetLocalRotation | RotateAboutLocalX(degrees: real)

  /** What the fix writes to one transform, in order. */
  datatype FixedTransform = FixedTransform(position: Vec3, rotation: WorldRotation, step: RotationStep, localScale: Vec3)

  /** What the engine reports for one transform: its stored pose, its local scale,
      whether its local Euler angles after the pose write lie within the snap
      tolerance of the axis-conversion angle, and its world matrix before and after
      the fix. */
  datatype EngineFrame<M> = EngineFrame(stored: StoredPose, localScale: Vec3, nearSnapAngle: bool, before: M, after: M)

  /** The sign of the snap angle about X: +1 when flipping Z, -1 otherwise. */
  function SnapSign(flipZ: bool): real {
    if flipZ then 1.0 else -1.0
  }

  /** `ApplyTransformFix` of the model post-processor. */
  function ApplyTransformFix(stored: StoredPose, localScale: Vec3, flipZ: bool, nearSnap: bool): (r: FixedTransform)
    ensures flipZ ==>
      && r.position == Vec3(-stored.position.x, stored.position.y, -stored.position.z)
      && r.rotation == EulerAngles(Vec3(-stored.eulerAngles.x, stored.eulerAngles.y, -stored.eulerAngles.z))
    ensures !flipZ ==> r.position == stored.position && r.rotation == StoredRotation
    ensures nearSnap <==> r.step.ResetLocalRotation?
    ensures r.step.RotateAboutLocalX? ==> r.step.degrees == -90.0 * SnapSign(flipZ)
    ensures r.localScale == Vec3(localScale.x, localScale.z, localScale.y)
  {
    var position := if flipZ then Scale(stored.position, Z_FLIP_SCALE) else stored.position;
    var rotation := if flipZ then EulerAngles(Scale(stored.eulerAngles, Z_FLIP_SCALE)) else StoredRotation;
    var step := if nearSnap then ResetLocalRotation else RotateAboutLocalX(-90.0 * SnapSign(flipZ));
    FixedTransform(position, rotation, step, SwapYZ(localScale))
  }

  /** The stored pose and the local scale can be read back from the fix: the Z-flip
      and the scale swap are their own inverses. */
  lemma TransformFixRecoversInputs(stored: StoredPose, localScale: Vec3, flipZ: bool, nearSnap: bool)
    ensures var r := ApplyTransformFix(stored, localScale, flipZ, nearSnap);
      && SwapYZ(r.localScale) == localScale
      && (flipZ ==> Scale(r.position, Z_FLIP_SCALE) == stored.position &&
                    Scale(r.rotation.angles, Z_FLIP_SCALE) == stored.eulerAngles)
  {
    SwapYZInvolution(localScale);
    ZFlipInvolution(stored.position);
    ZFlipInvolution(stored.eulerAngles);
  }

  /** `ApplyTransformFix` of the legacy post-processor: always the Z-flip sign
      pattern, always a -90 degree turn about local X, and the scale swap. */
  function LegacyTransformFix(stored: StoredPose, localScale: Vec3): (r: FixedTransform)
    ensures r.position == Vec3(-stored.position.x, stored.position.y, -stored.position.z)
    ensures r.rotation == EulerAngles(Vec3(-stored.eulerAngles.x, stored.eulerAngles.y, -stored.eulerAngles.z))
    ensures r.step == RotateAboutLocalX(-90.0)
    ensures r.localScale == Vec3(localScale.x, localScale.z, localScale.y)
  {
    FixedTransform(Scale(stored.position, Z_FLIP_SCALE), EulerAngles(Scale(stored.eulerAngles, Z_FLIP_SCALE)),
                   RotateAboutLocalX(-90.0), SwapYZ(localScale))
  }

  /** The legacy fix is the model fix with the Z flip on and the snap test failing. */
  lemma LegacyIsFlippedFix(stored: StoredPose, localScale: Vec3)
    ensures LegacyTransformFix(stored, localScale) == ApplyTransformFix(stored, localScale, true, false)
  {
  }

  /** The change of a transform's world matrix: `after * inverse(before)`. */
  function Delta<M>(alg: MatrixAlgebra<M>, f: EngineFrame<M>): M {
    alg.mul(f.after, alg.inverse(f.before))
  }

  /** The recorded change carries the world matrix from before the fix to after it. */
  lemma DeltaCarriesBeforeToAfter<M(!new)>(alg: MatrixAlgebra<M>, id: M, f: EngineFrame<M>)
    requires BindPoses.GroupLaws(alg, id)
    ensures alg.mul(Delta(alg, f), f.before) == f.after
  {
    calc {
      alg.mul(alg.mul(f.after, alg.inverse(f.before)), f.before);
      alg.mul(f.after, alg.mul(alg.inverse(f.before), f.before));
      alg.mul(f.after, id);
    }
  }

  // ---------------------------------------------------------------------------
  // The pass over the transforms

  /** The transforms below the root in the order the engine enumerates them, which
      is the order of the stored-pose dictionary's keys. */
  function NonRoot(root: Node): (ns: seq<Node>)
    ensures |ns| == |Preorder(root)| - 1
  {
    Preorder(root)[1..]
  }

  /** The ids below the root are distinct from each other and from the root's. */
  lemma NonRootDistinct(root: Node)
    requires DistinctIds(root)
    ensures forall i, j :: 0 <= i < j < |NonRoot(root)| ==> NonRoot(root)[i].id != NonRoot(root)[j].id
    ensures forall j :: 0 <= j < |NonRoot(root)| ==> NonRoot(root)[j].id != root.id
  {
    var all := Preorder(root);
    var ns := NonRoot(root);
    forall j | 0 <= j < |ns| ensures ns[j] == all[j + 1] { }
    assert all[0] == root;
  }

  /** The result of the pass over the transforms: the root is never touched; every
      other transform is destroyed exactly when the deletion predicate holds, and
      otherwise has exactly one modification and one fix, computed from its own
      engine frame; nothing else is recorded. */
  ghost predicate TransformPassResult<M>(alg: MatrixAlgebra<M>, root: Node, flipZ: bool, engine: NodeId -> EngineFrame<M>,
                                         deleted: set<NodeId>, modifications: map<NodeId, M>, fixed: map<NodeId, FixedTransform>)
  {
    var ns := NonRoot(root);
    && root.id !in deleted && root.id !in modifications
    && modifications.Keys == fixed.Keys
    && (forall j :: 0 <= j < |ns| ==> (ns[j].id in deleted <==> ShouldDeleteObject(ns[j])))
    && (forall j :: 0 <= j < |ns| ==> (ns[j].id in modifications <==> !ShouldDeleteObject(ns[j])))
    && (forall j :: 0 <= j < |ns| && ns[j].id in modifications ==>
          && modifications[ns[j].id] == Delta(alg, engine(ns[j].id))
          && fixed[ns[j].id] == ApplyTransformFix(engine(ns[j].id).stored, engine(ns[j].id).localScale,
                                                  flipZ, engine(ns[j].id).nearSnapAngle))
    && (forall id :: id in deleted ==> exists j :: 0 <= j < |ns| && ns[j].id == id)
    && (forall id :: id in modifications ==> exists j :: 0 <= j < |ns| && ns[j].id == id)
  }

  /** The loop of `OnPostprocessModel` over the stored transforms. Only childless
      transforms are destroyed and parents come before their children, so each
      deletion test sees the transform as it was when the pass began. */
  method TransformPass<M>(alg: MatrixAlgebra<M>, root: Node, flipZ: bool, engine: NodeId -> EngineFrame<M>)
    returns (deleted: set<NodeId>, modifications: map<NodeId, M>, fixed: map<NodeId, FixedTransform>)
    requires DistinctIds(root)
    ensures TransformPassResult(alg, root, flipZ, engine, deleted, modifications, fixed)
    ensures deleted !! modifications.Keys
  {
    var ns := NonRoot(root);
    NonRootDistinct(root);
    deleted := {};
    modifications := map[];
    fixed := map[];
    for i := 0 to |ns|
      invariant root.id !in deleted && root.id !in modifications
      invariant modifications.Keys == fixed.Keys
      invariant forall j :: 0 <= j < i ==> (ns[j].id in deleted <==> ShouldDeleteObject(ns[j]))
      invariant forall j :: 0 <= j < i ==> (ns[j].id in modifications <==> !ShouldDeleteObject(ns[j]))
      invariant forall j :: 0 <= j < i && ns[j].id in modifications ==>
        && modifications[ns[j].id] == Delta(alg, engine(ns[j].id))
        && fixed[ns[j].id] == ApplyTransformFix(engine(ns[j].id).stored, engine(ns[j].id).localScale,
                                                flipZ, engine(ns[j].id).nearSnapAngle)
      invariant forall id :: id in deleted ==> exists j :: 0 <= j < i && ns[j].id == id
      invariant forall id :: id in modifications ==> exists j :: 0 <= j < i && ns[j].id == id
    {
      var t := ns[i];
      if ShouldDeleteObject(t) {
        deleted := deleted + {t.id};
      } else {
        var f := engine(t.id);
        modifications := modifications[t.id := Delta(alg, f)];
        fixed := fixed[t.id := ApplyTransformFix(f.stored, f.localScale, flipZ, f.nearSnapAngle)];
      }
    }
  }

  /** The nodes that survive the pass: the root, then every transform the pass keeps,
      in the engine's order. */
  function Survivors(root: Node): (r: seq<Node>)
    ensures |r| >= 1 && r[0] == root
    ensures forall n :: n in r[1..] ==> n in NonRoot(root) && !ShouldDeleteObject(n)
    ensures forall n :: n in NonRoot(root) && !ShouldDeleteObject(n) ==> n in r[1..]
  {
    [root] + KeptNodes(NonRoot(root))
  }

  function KeptNodes(ns: seq<Node>): (r: seq<Node>)
    ensures forall n :: n in r <==> n in ns && !ShouldDeleteObject(n)
  {
    if |ns| == 0 then []
    else (if ShouldDeleteObject(ns[0]) then [] else [ns[0]]) + KeptNodes(ns[1..])
  }
}
